=== FILE: README.md ===
# A Dafny model of the playground web toolkit and resource projection

This project models the logic of two parts of the `clement-casse/playground`
repository:

- the Go web toolkit of `webservice-go`;
- one pure step of the Cypher graph exporter in `otelcol-custom`.

From the web toolkit it models:

- **Client address resolution** (`GetRemoteAddr`). The `X-Forwarded-For` header is read first, then `X-Real-Ip`. Each header is split on commas, trimmed and scanned right to left. The first entry that is global unicast and not private wins. Otherwise the host of the connection's remote address is used, unfiltered. The two error paths are modelled as well.
- **The CIDR allow-list middleware.** Construction fails when a network does not parse. It scans the headers with a different precedence from `GetRemoteAddr`. A request is let through when its address is loopback or lies inside one of the listed networks. Its error writes fall through instead of returning, and the closing 401 write happens on every path.
- **The JWT middleware.** The header pattern `[^\s]+\s[^\s]`, the token taken as field 1 of a split on a single space, and the mapping of verification outcomes to 401, 400 or pass-through.
- **Server options.** The defaults, the options applied left to right, and `WithMiddlewares`, where the last middleware listed ends up outermost. Also the `/health` route of `baseHandler`.
- **The REST controllers.** `NewAPIController` and its older twin `NewAPIHandler`, with their options. `registerRoute` layers from the inside out: `handleErrors`, then `setJSONHeader`, then metrics, then tracing, then the explicit middlewares with the first one listed outermost. Also `handleErrors` and `apiError`: `newAPIError`, `Unwrap`, and the JSON encoding of `MarshalJSON`.
- **The counting wrappers.** `respWriterWrapper` keeps `WriteHeader` to itself, defaults to status 200 and adds up the byte counts `Write` returns. `bodyWrapper` adds up the byte counts `Read` returns.

From the exporter it models the projection in `MergeResource` from a resource's attributes to the list of `{label, id, props, contained_in}` records.

## How it is built

Handlers are data.

- `Pipeline.Handler` is an endpoint wrapped in layers of `Pipeline.Middleware`.
- `Pipeline.Serve` computes what serving a request produces:
  - the response writer, as `Wrap.Writer`: the server's recorder under any number of counting wrappers;
  - a trace of the layers entered and left, with what the metrics layer measured;
  - the lines logged;
  - whether a panic escaped.

Pieces of the Go standard library are modelled from their documented behaviour:

- `strings.Split` and `strings.TrimSpace` (`Text`);
- `net.SplitHostPort` with all five of its error reasons (`HostPort`);
- `net.ParseIP`, with concrete dotted-quad parsing and the IPv6 literal parser as a parameter, and the `IP` classification predicates (`Ip`);
- `net.ParseCIDR` and `IPNet.Contains` (`Cidr`);
- the string quoting of `encoding/json` (`Json`);
- `http.Error`: it removes `Content-Length`, sets the plain-text `Content-Type` and `X-Content-Type-Options: nosniff`, sends the status and writes the message and a newline (`Wrap.Error`);
- the server's response writer (`Wrap.Recorder`). A status outside 100..999 panics. An informational 1xx status other than 101 is not final. Only the first final status counts. A response under status 1xx, 204 or 304 takes no body, and its writes return 0. A panic is recorded and stops the response. The request method is not consulted, so the body of a HEAD response is recorded as sent;
- `errors.As`, which searches the error tree depth first through `Unwrap() error` and `Unwrap() []error`, and `errors.Join`, whose text is its errors' texts joined by newlines (`ApiError`).

Byte counts are UTF-8 lengths (`Text.Utf8Len`). The request body is a byte sequence, and its reader may return fewer bytes than the buffer holds.

Three things are not fixed by the model and are parameters instead:

- the IPv6 literal parser;
- the JWT verifier, an oracle that returns a verdict;
- the iteration order over the encoder's map. Go leaves it unspecified, so the results about `MergeResource` hold for every enumeration of the keys.

One consequence is proved and deserves a note. The counting wrapper does not forward `WriteHeader`. So an error response produced beneath the metrics layer reaches the client with status 200, while the metrics record the error's own status (`Pipeline.MetricsHidesErrorStatus`, `Controller.MeteredApiErrorIsOk`).

A second consequence: `setJSONHeader` sets `Content-Type: application/json`, but `http.Error` replaces it. So every error response, the JSON ones from `handleErrors` included, reaches the client as `text/plain; charset=utf-8` with `nosniff` (`Controller.ApiErrorReachesClient`, `Controller.OtherErrorReachesClient`).

In one place the code and its tests disagree, and the model follows the code. `webservice-go/api/rest/handler_test.go:76-80` expects the body `"\n"` for an error that is not an `apiError`. `handler.go:109` writes `{}` followed by a newline.

## Model

| member | source | states |
|---|---|---|
| RemoteAddr.GetRemoteAddr | webservice-go/tools/web/utils.go:14-36 | The loop over the two headers, scanning each right to left and then falling back to the remote address, returns the same address or error as the functional definition `Resolve`. |
| RemoteAddr.ScanEntries | webservice-go/tools/web/utils.go:19-24 | Walking down from the last index returns the first entry from the right that yields an address, or nothing when no entry does. |
| RemoteAddr.ScanFromRight | webservice-go/tools/web/utils.go:17-24 | Nothing is found iff no entry yields an address. Otherwise the result comes from some entry, and no entry to its right yields anything. |
| RemoteAddr.ScanFindsRightmost | webservice-go/tools/web/utils.go:19-23 | The rightmost entry that yields an address is the one the scan returns. |
| RemoteAddr.Candidate | webservice-go/tools/web/utils.go:20-21 | An entry yields an address iff its trimmed text parses and the address is global unicast and not private; the address is then that parse. |
| RemoteAddr.Resolve | webservice-go/tools/web/utils.go:14-36 | On every path exactly one of the address and the error is present. |
| RemoteAddr.Fallback | webservice-go/tools/web/utils.go:26-35 | Exactly one of address and error. The error is a split error iff `SplitHostPort` fails. A returned address is the parse of the split-off host. |
| RemoteAddr.ForwardedForFirst | webservice-go/tools/web/utils.go:16-23 | An acceptable `X-Forwarded-For` entry is returned with no error: the rightmost acceptable one. |
| RemoteAddr.RealIpIgnoredAfterForwardedFor | webservice-go/tools/web/utils.go:16-23 | When `X-Forwarded-For` holds an acceptable entry, any value of `X-Real-Ip` leaves the result unchanged. |
| RemoteAddr.RealIpSecond | webservice-go/tools/web/utils.go:16-24 | When no `X-Forwarded-For` entry is acceptable, the rightmost acceptable `X-Real-Ip` entry is returned. |
| RemoteAddr.HeaderResultsAcceptable | webservice-go/tools/web/utils.go:20-26 | An address taken from a header is always acceptable. When neither header yields one, the result is the remote-address fallback. |
| RemoteAddr.NoHeaders | webservice-go/tools/web/utils.go:16-35 | A request without headers resolves through the remote-address fallback. |
| RemoteAddr.FallbackUnfiltered | webservice-go/tools/web/utils.go:26-35 | A remote address `a.b.c.d:port` gives back that IPv4 address with no error, whatever class it is in, private or loopback included. |
| RemoteAddr.RemoteAddrNotHostPort | webservice-go/tools/web/utils.go:27-30 | A remote address that is not `host:port` gives no address and the split error. |
| RemoteAddr.EmptyRemoteAddr | webservice-go/tools/web/utils.go:27-30 | An empty request gives no address and the "missing port" error. |
| RemoteAddr.InvalidRemoteHost | webservice-go/tools/web/utils.go:31-34 | A host that splits off but does not parse gives no address and the invalid-IP error naming the host. |
| RemoteAddr.FieldAbove255 | webservice-go/tools/web/utils.go:31-34 | Four digit fields whose last field is above 255, as in `11.12.13.256`, do not parse as an address. |
| Ip.ParseIp | webservice-go/tools/web/utils.go:20 | A parsed address is already in its IPv4 form when it is IPv4-mapped. Parsing succeeds iff the text is a dotted quad or an IPv6 literal. |
| Ip.ParseFormatDottedQuad | webservice-go/tools/web/utils.go:20 | Parsing the canonical dotted-quad text of four octets gives them back. |
| Ip.FormatParseDottedQuad | webservice-go/tools/web/utils.go:20 | A text the dotted-quad parser accepts is the canonical text of what it parsed to. |
| Ip.ParseIpOfDottedQuad | webservice-go/tools/web/utils.go:31 | The canonical text of an IPv4 address parses to that address, whatever the IPv6 parser. |
| Ip.Unmap | webservice-go/tools/web/utils.go:21 | Normalising never leaves an IPv4-mapped IPv6 address and leaves IPv4 addresses alone. |
| Ip.IsLoopback | webservice-go/tools/web/cidr_protect.go:66 | `net.IP.IsLoopback`, after `To4`. `Cidr.LoopbackV4IffBlock` states that an IPv4 address is loopback iff it lies in `127.0.0.0/8`. |
| Ip.IsPrivate | webservice-go/tools/web/utils.go:21 | `net.IP.IsPrivate`. `Cidr.PrivateIffReservedBlock` states that it holds iff the address lies in one of the three blocks of RFC 1918 or in `fc00::/7`. |
| Ip.IsGlobalUnicast | webservice-go/tools/web/utils.go:21 | `net.IP.IsGlobalUnicast`. `Cidr.GlobalUnicastIffOutsideBlocks` states that it holds iff the address lies in none of the nine special-purpose blocks. `RemoteAddr.Candidate` states that a header entry counts iff it parses to such an address that is not private. |
| Cidr.PrivateIffReservedBlock | webservice-go/tools/web/utils.go:21 | `IsPrivate` holds iff the address lies in `10.0.0.0/8`, `172.16.0.0/12` or `192.168.0.0/16` (section 3 of RFC 1918), or in `fc00::/7` (section 3.1 of RFC 4193). |
| Cidr.LoopbackV4IffBlock | webservice-go/tools/web/cidr_protect.go:66 | An IPv4 address is loopback iff it lies in `127.0.0.0/8`. |
| Cidr.GlobalUnicastIffOutsideBlocks | webservice-go/tools/web/utils.go:21 | An address is global unicast iff it lies in none of `0.0.0.0/32`, `255.255.255.255/32`, `127.0.0.0/8`, `224.0.0.0/4`, `169.254.0.0/16`, `::/128`, `::1/128`, `ff00::/8` and `fe80::/10`. |
| Cidr.ParseCidr | webservice-go/tools/web/cidr_protect.go:28 | An accepted text holds a '/'. The network it gives has a prefix within its family's width and its host bits cleared. |
| Cidr.NetworkOf | webservice-go/tools/web/cidr_protect.go:28 | The network built from an address and a checked prefix length has its host bits cleared. |
| Cidr.MaskTwice | webservice-go/tools/web/cidr_protect.go:28 | Masking is idempotent, and the masked bytes agree with the original on the first n bits. |
| Cidr.NetworkOfContains | webservice-go/tools/web/cidr_protect.go:71 | The network parsed from `addr/n` contains `addr`, except for an IPv4-mapped IPv6 address with a prefix shorter than 96. |
| Cidr.Contains | webservice-go/tools/web/cidr_protect.go:71 | `IPNet.Contains`. `NetworkOfContains` states that a network parsed from `addr/n` contains `addr`, with the mapped-address exception. `LoopbackV4IffBlock`, `PrivateIffReservedBlock` and `CidrProtect.InSharedSpace` state which addresses concrete blocks contain. |
| CidrProtect.ParseAll | webservice-go/tools/web/cidr_protect.go:27-33 | Succeeds iff every network parses. It then keeps them in the given order. Otherwise it reports the first one that fails. |
| CidrProtect.New | webservice-go/tools/web/cidr_protect.go:22-35 | Construction succeeds iff every network string parses as CIDR, and the networks are kept in order. A failure carries the panic text naming the first string that does not parse: every string before it parses. |
| CidrProtect.RealIpOverwrites | webservice-go/tools/web/cidr_protect.go:45-55 | The header loop does not stop after `X-Forwarded-For`: an acceptable `X-Real-Ip` address replaces it. |
| CidrProtect.PrecedenceDiffersFromGetRemoteAddr | webservice-go/tools/web/cidr_protect.go:45-55 | With acceptable entries in both headers, `GetRemoteAddr` answers with `X-Forwarded-For` and the middleware with `X-Real-Ip`. |
| CidrProtect.ClientIp | webservice-go/tools/web/cidr_protect.go:45-55 | The address the two header loops leave in `ip`. `RealIpOverwrites` states that an acceptable `X-Real-Ip` address replaces one from `X-Forwarded-For`. `Locate` states that a header address is used as is, and `PrecedenceDiffersFromGetRemoteAddr` states how this differs from `GetRemoteAddr`. |
| CidrProtect.Locate | webservice-go/tools/web/cidr_protect.go:42-65 | An address taken from a header is used without writing anything. Without one, a remote address that splits into a host that parses gives that parsed address, again with nothing written. |
| CidrProtect.DirectLoopbackAllowed | webservice-go/tools/web/cidr_protect.go:56-76 | A client connecting from a loopback IPv4 address `127.x.y.z:port`, with no address headers, is located with nothing written and reaches the inner handler whatever the allowed networks, followed by the 401 write. |
| CidrProtect.IsAllowed | webservice-go/tools/web/cidr_protect.go:66-72 | The loop answers true iff the address is loopback or lies in at least one allowed network. |
| CidrProtect.EmptyAllowList | webservice-go/tools/web/cidr_protect.go:66-72 | With no networks, only a loopback address is allowed. |
| CidrProtect.After | webservice-go/tools/web/cidr_protect.go:77 | The closing `http.Error` appends "endpoint is protected" and a newline only while the writer still takes a body. On the server's writer the status becomes 401 only if none was sent; on the metrics wrapper 401 is recorded while the client gets the implicit 200. A panic already raised stays raised. |
| CidrProtect.InnerRunsIffAllowed | webservice-go/tools/web/cidr_protect.go:74-76 | When allowed, the inner handler runs and is followed by the 401 write. When refused, the result does not depend on the inner handler. |
| CidrProtect.AllowedKeepsInnerStatus | webservice-go/tools/web/cidr_protect.go:74-77 | For an allowed request whose inner handler did not panic, the client sees the inner handler's status if it sent one and 401 otherwise. The protection message is appended only if that status allows a body. |
| CidrProtect.Serve | webservice-go/tools/web/cidr_protect.go:42-78 | The middleware's `ServeHTTP`. `InnerRunsIffAllowed` states that the inner handler runs iff the located address is allowed, always followed by the 401 write. `DirectLoopbackAllowed` states that a direct loopback client reaches the inner handler. |
| CidrProtect.EmptyHostIsNotAddress | webservice-go/tools/web/cidr_protect.go:61-64 | The empty host left by a failed split does not parse as an address. |
| CidrProtect.LocateSplitFailure | webservice-go/tools/web/cidr_protect.go:57-64 | When the split fails, both 500 writes happen, one after the other, and no address results. |
| CidrProtect.SplitFailureFallsThrough | webservice-go/tools/web/cidr_protect.go:56-77 | After a split failure, the request is refused with status 500. The body holds the two error texts and then the protection message. |
| CidrProtect.SplitFailureText | webservice-go/tools/web/cidr_protect.go:57-77 | After a split failure, the body reads `cannot parse host:port from '<addr>', error: <e>`, then `cannot parse IP address , error: <e>`, then `endpoint is protected`, each on its own line. |
| CidrProtect.SplitFailureMessage | webservice-go/tools/web/cidr_protect.go:63 | After a split failure, the second message names an empty host and carries the split error's text. |
| CidrProtect.NilErrorMessage | webservice-go/tools/web/cidr_protect.go:63 | After a successful split, the message formats the nil error as `%!s(<nil>)`. |
| CidrProtect.LocateBadHost | webservice-go/tools/web/cidr_protect.go:61-64 | A host that does not parse gives one 500 write and no address. |
| CidrProtect.BadHostFallsThrough | webservice-go/tools/web/cidr_protect.go:61-77 | A host that does not parse gets a refusal with status 500. The body is the parse message, then the protection message. |
| CidrProtect.BadHostText | webservice-go/tools/web/cidr_protect.go:61-77 | For a host that does not parse, the body reads `cannot parse IP address <host>, error: %!s(<nil>)`, then `endpoint is protected`, each on its own line. |
| CidrProtect.InSharedSpace | webservice-go/tools/web/cidr_protect_test.go:30-31 | An IPv4 address lies in `100.64.0.0/10` (RFC 6598) iff its first octet is 100 and the top two bits of its second octet are 01. |
| CidrProtect.SharedSpaceExample | webservice-go/tools/web/cidr_protect_test.go:30-36 | `100.108.113.29` lies in `100.64.0.0/10` and `8.8.4.4` does not. |
| HostPort.SplitHostPort | webservice-go/tools/web/utils.go:27 | Every error names the address. An address without a colon is "missing port". The port is what follows the last colon. The host holds no bracket. |
| HostPort.SplitJoinHostPort | webservice-go/tools/web/utils.go:27 | Splitting a joined host and port gives them back, brackets for an IPv6 host included (section 3.2.2 of RFC 3986). |
| Text.Split | webservice-go/tools/web/utils.go:17 | The pieces hold no separator and, joined with it, give back the input. |
| Text.SplitJoin | webservice-go/tools/web/utils.go:17 | Splitting what `Join` produced from separator-free parts gives the parts back. |
| Text.TrimSpace | webservice-go/tools/web/utils.go:20 | The result is a middle slice of the input with only white space cut from either end, and it neither starts nor ends with white space. |
| Jwt.RegexMatchIffSpaceBetween | webservice-go/tools/web/jwt.go:12 | The unanchored pattern `[^\s]+\s[^\s]` matches iff a white-space character sits between two non-space characters. |
| Jwt.MatchAuthHeader | webservice-go/tools/web/jwt.go:38 | The scan over the header answers exactly whether the pattern matches. |
| Jwt.SecondFieldExists | webservice-go/tools/web/jwt.go:42 | Splitting on a space gives a field 1 iff the header contains a space. |
| Jwt.TokenField | webservice-go/tools/web/jwt.go:42 | The token taken from the header holds no space. |
| Jwt.Decide | webservice-go/tools/web/jwt.go:31-61 | The request passes iff the header is non-empty, matches, contains a space and its token verifies as valid. It panics iff the header matches but holds no plain space. An empty header is refused with 401 "authentication required". A non-empty header that does not match is refused with 400 "header authorization not containing a bearer token". A token that parses but is not valid is refused with 401 "invalid token". |
| Jwt.MissingHeader | webservice-go/tools/web/jwt.go:34-37 | A request without `Authorization` is refused with 401 "authentication required". |
| Jwt.NoSpaceIsBadRequest | webservice-go/tools/web/jwt.go:38-41 | A non-empty header with no white space is refused with 400. |
| Jwt.TabSeparatorPanics | webservice-go/tools/web/jwt.go:38-42 | `Bearer<TAB>x` passes the pattern but has no field 1, so the handler panics. |
| Jwt.RejectionStatus | webservice-go/tools/web/jwt.go:47-56 | A verification error is answered with its text: 401 when it is a bad signature, expired or not yet valid, and 400 otherwise. |
| Jwt.SchemeIgnored | webservice-go/tools/web/jwt.go:42-61 | `<any word> <token>` passes whenever the token verifies as valid; the scheme word is never looked at. |
| Jwt.DecideRequest | webservice-go/tools/web/jwt.go:34-61 | The handler reads the `Authorization` header and decides on it alone. `MissingHeader` states that a request without it is refused with 401, and `Decide`'s contract states every other outcome. |
| Wrap.NewWrapper | webservice-go/tools/web/wrap.go:16-18 | A fresh wrapper records status 200 and 0 bytes and leaves the client's response untouched. |
| Wrap.WriteHeader | webservice-go/tools/web/wrap.go:24-26 | On the wrapper, the code is recorded and nothing reaches the client. On the server's writer, a call after a status was sent changes nothing. Otherwise a code outside 100..999 panics, and an informational 1xx code other than 101 leaves the status unsent. Any other code becomes the status. |
| Wrap.Write | webservice-go/tools/web/wrap.go:28-32 | The wrapper adds exactly the count the writer beneath returns. That count is the UTF-8 length of the text, and the text reaches the body. The exception is a writer that has panicked or whose status is 1xx, 204 or 304: then the count is 0 and nothing is written. A first write fixes status 200 if none was sent. |
| Wrap.CountingReplay | webservice-go/tools/web/wrap.go:20-32 | After any sequence of calls: the wrapper's status is the last `WriteHeader` code, or 200 if there was none; its counter is the sum of the counts returned; and the writer underneath saw exactly the calls other than `WriteHeader`. |
| Wrap.BodyReplay | webservice-go/tools/web/wrap.go:28-32 | While the writer takes a body, and any `WriteHeader` is held back by the wrapper, the body grows by the written texts in order. The returned counts add up to their UTF-8 length, and the writer still takes a body afterwards. |
| Wrap.NoDelivery | webservice-go/tools/web/wrap.go:28-32 | Once the writer takes no body (after a panic, or under status 1xx, 204 or 304), it keeps taking none: later calls write nothing and every count is 0. |
| Wrap.PanicsOnlyOnInvalidCode | webservice-go/tools/web/wrap.go:24-26 | Calls whose codes all lie in 100..999 never make the server's writer panic; a lone `WriteHeader(0)` on a fresh one does. |
| Text.Utf8LenAppend | webservice-go/tools/web/wrap.go:28-32 | The byte length of a concatenation is the sum of the byte lengths, so the counts of successive writes add up to the length of what was written. |
| Text.Utf8LenAscii | webservice-go/tools/web/wrap.go:28-32 | A text's byte length equals its character count iff every character is ASCII. |
| Wrap.Read | webservice-go/tools/web/wrap.go:40-44 | A read returns the front of the remaining body. It is no longer than the buffer or than what the source offers, and shorter than both only at the end of the body. A closed body gives nothing. The counter grows by exactly the count returned. |
| Wrap.Close | webservice-go/tools/web/wrap.go:46-48 | Closing closes the underlying reader and changes nothing else. |
| Wrap.ReadAllCounts | webservice-go/tools/web/wrap.go:40-44 | After any sequence of reads, with any buffer sizes and short reads, the counter equals the number of bytes read. Those bytes followed by what remains give back the body. |
| Wrap.Error | webservice-go/api/rest/controller.go:132 | `http.Error` removes `Content-Length` and sets `Content-Type: text/plain; charset=utf-8` and `X-Content-Type-Options: nosniff` while no status is sent. It then sends the code, which panics if it lies outside 100..999 and no status was sent; an informational code leaves the implicit 200. The message and a newline are written only when the final status allows a body. On the counting wrapper the code is recorded and the delivered UTF-8 bytes are counted. |
| Wrap.SetHeader | webservice-go/api/rest/controller.go:101 | The header is set only while no status has been sent. Status and body are unchanged. |
| ApiError.NewApiError | webservice-go/api/rest/errors.go:22-31 | The result is an `apiError` holding the given cause and message. Its status is never 0, and a non-zero status is kept. |
| ApiError.UnwrapNewApiError | webservice-go/api/rest/errors.go:14 | `Unwrap` gives back the wrapped error, and `errors.As` finds the `apiError` itself. |
| ApiError.As | webservice-go/api/rest/controller.go:126 | What `errors.As` finds is an `apiError`. |
| ApiError.AsFindsFirst | webservice-go/api/rest/controller.go:125-126 | `errors.As` returns the first `apiError` along the unwrap chain, and finds nothing iff the chain holds none. |
| ApiError.Chain | webservice-go/api/rest/controller.go:126 | The errors `errors.As` visits, the error itself first. `AsFindsFirst` states that `errors.As` returns the first `apiError` on this chain, and nothing iff the chain holds none. |
| ApiError.MarshalRoundTrip | webservice-go/api/rest/errors.go:15-20 | Reading the JSON back gives the error's status and message. The status key comes first, and an absent message key reads back as the empty message. |
| ApiError.Marshal | webservice-go/api/rest/errors.go:15-20 | `MarshalJSON` of an `apiError`. `MarshalRoundTrip` states that reading the text back gives the status and the message, and `ApiErrorResponse` states that this text is the body the client gets. |
| ApiError.HandleErrors | webservice-go/api/rest/controller.go:122-139 | A nil error writes and logs nothing. An `apiError` found on the chain is logged and written by `http.Error` with its JSON and status. Any other error is logged and written as 500 with `{}`. A panic escapes iff the error found has no text (an `apiError` wrapping nil, or an empty `errors.Join` where a text is needed), or its status lies outside 100..999 on a server writer that has sent no status. |
| ApiError.ClientReadsFirstApiError | webservice-go/api/rest/controller.go:125-132 | On a fresh response, the `apiError` that `errors.As` picks is the first on the chain. Whenever the status allows a body, decoding the body without its newline gives that error's status and message. The request panics iff the error wraps nil or its status lies outside 100..999. |
| ApiError.ClientReadsEmptyObject | webservice-go/api/rest/controller.go:133-136 | An error with no `apiError` anywhere in its tree and no empty join is logged, and the client gets status 500 and `{}` and a newline, with no panic. |
| ApiError.TextWithoutApi | webservice-go/api/rest/controller.go:133-136 | An error with no `apiError` in its tree and no empty `errors.Join` always has a text to log. |
| ApiError.ErrorString | webservice-go/api/rest/controller.go:127-134 | `Error()`, which is logged. `TextWithoutApi` states that an error with no `apiError` and no empty join always has a text. `ApiErrorResponse` states that an `apiError` logs its wrapped error's text. |
| ApiError.ApiErrorResponse | webservice-go/api/rest/controller.go:122-132 | For `newAPIError(err, status, msg)` on a fresh response, status 0 becomes 500 and the wrapped error's text is logged. The request panics iff the status lies outside 100..999. Otherwise a final status reaches the client, and whenever it allows a body the body is `{"status":N,"message":"M"}` and a newline. |
| ApiError.WildErrorResponse | webservice-go/api/rest/controller.go:133-136 | A wrapped error without `apiError` gives status 500 and body `{}` and a newline, and logs its text. |
| Json.QuoteRoundTrip | webservice-go/api/rest/errors.go:15-20 | Decoding a quoted string gives back the string and whatever follows it. |
| Json.QuoteBodySafe | webservice-go/api/rest/errors.go:15-20 | Quoted text never contains `<`, `>` or `&`; they are escaped, as `json.Marshal` does. |
| Json.QuoteBodyPlain | webservice-go/api/rest/errors.go:15-20 | Text of plain printable characters is quoted unchanged. |
| Json.Quote | webservice-go/api/rest/errors.go:15-20 | The JSON string `json.Marshal` writes for the message. `QuoteRoundTrip` states that decoding it gives the message back, and `QuoteBodySafe` states that it never contains `<`, `>` or `&`. |
| Text.IntToString | webservice-go/api/rest/errors.go:15-20 | The decimal text of the status. It is non-empty, starts with `-` iff the number is negative, and is otherwise all digits. `ApiError.SignedValueOfIntToString` states that reading it back gives the number. |
| Pipeline.LayersNest | webservice-go/api/rest/controller.go:116-118 | The layers of a nested handler are the list's labels in order, followed by the layers of the handler. |
| Pipeline.NestSnoc | webservice-go/tools/web/server.go:94-97 | Wrapping with one more middleware at the end of the list is wrapping the handler with it first. |
| Pipeline.NestTrace | webservice-go/api/rest/controller.go:116-118 | Through nested middlewares, the layers are entered in list order, the endpoint is reached, and the layers are left in reverse order. Nothing panics when every code written lies in 100..999. |
| Pipeline.ServeMetrics | webservice-go/tools/web/metrics.go:54-69 | The metrics layer serves the next handler through a fresh counting wrapper. It records the wrapper's final status and byte count and hands on the writer beneath it. |
| Pipeline.MetricsMeasuresInner | webservice-go/tools/web/metrics.go:54-81 | Around a plain handler on a writer that has not panicked, the client sees every call except `WriteHeader`. The recorded status is the last code set, or 200. The byte count is the UTF-8 length of everything written, or 0 when the writer beneath takes no body. |
| Pipeline.MetricsAroundEndpoint | webservice-go/tools/web/metrics.go:58-81 | Around any endpoint that does not panic, the measurement is the counting wrapper's final state and the client gets what is beneath it. |
| Pipeline.MetricsHidesErrorStatus | webservice-go/tools/web/wrap.go:24-26 | An `apiError` response produced under the metrics layer reaches the client with status 200, because the wrapper does not forward `WriteHeader`. |
| Pipeline.MetricsRecordsErrorStatus | webservice-go/tools/web/metrics.go:69-81 | Under the metrics layer, the error's own status is recorded, even one the server would reject. The byte count is the UTF-8 length of its JSON plus the newline. |
| Pipeline.ErrorStatusWithoutMetrics | webservice-go/api/rest/controller.go:132 | Without the metrics layer, the request panics iff the `apiError`'s status lies outside 100..999. Otherwise the client sees that status, or 200 for an informational code. |
| Pipeline.RunApiError | webservice-go/api/rest/controller.go:125-132 | An `apiError` result becomes one log line of its text and one `http.Error` write of its JSON with its status. The handler panics exactly when that write does. |
| Pipeline.Run | webservice-go/api/rest/controller.go:122-139 | An endpoint, including one wrapped by `handleErrors`. It adds the single `Reached` event and hands back a writer with as many wrappers as it got. `RunApiError` states what an `apiError` result writes and logs. `Controller.NilErrorKeepsOutput` states that a nil error adds nothing. |
| Pipeline.Serve | webservice-go/tools/web/metrics.go:54-81 | `ServeHTTP` through the layers: metrics here, `setJSONHeader` at controller.go:99-104, the CIDR guard and the JWT guard. Every layer hands back a writer with as many wrappers as it got. `NestTrace` states the order in which layers are entered and left. `ServeMetrics` states what the metrics layer records. |
| Server.Defaults | webservice-go/tools/web/server.go:38-49 | Read and write timeouts are 30 s and the idle timeout is 60 s, in nanoseconds. The logger is the default one, there is no error log, and the main handler is the mux given. |
| Server.Apply | webservice-go/tools/web/server.go:57-100 | Each option changes only its own field. A timeout option sets its timeout. `WithLogger` sets the logger, or the default one for nil, and the matching error log. |
| Server.ApplyAllAppend | webservice-go/tools/web/server.go:50-52 | Options apply left to right: applying `a + b` is applying `a`, then `b`. |
| Server.ReadTimeoutIsLast | webservice-go/tools/web/server.go:69-74 | The read timeout is the last one given, or 30 s if none was given. |
| Server.MainUnlessMiddlewares | webservice-go/tools/web/server.go:92-100 | Options other than `WithMiddlewares` never change the main handler. |
| Server.NilLoggerIsDefault | webservice-go/tools/web/server.go:57-66 | `WithLogger(nil)` installs the default logger, so the logger is never nil. |
| Server.ChainIsReversedNest | webservice-go/tools/web/server.go:92-100 | `WithMiddlewares(m1..mn)` gives `mn(...m1(h))`, i.e. the reversed list nested with its first element outermost. |
| Server.ChainLayers | webservice-go/tools/web/server.go:92-100 | The layers are the middlewares in reverse order, the last one listed outermost, above the original handler. |
| Server.ChainEmpty | webservice-go/tools/web/server.go:93-97 | An empty middleware list leaves the handler unchanged. |
| Server.Chain | webservice-go/tools/web/server.go:92-100 | The loop of `WithMiddlewares`, each middleware wrapping the handler so far. `ChainIsReversedNest` and `ChainLayers` state that the last middleware listed ends up outermost. |
| Server.ChainTrace | webservice-go/tools/web/server.go:92-100 | The last middleware listed runs its pre-logic first. The trace is the reversed list's enters, the endpoint, then the leaves, when every code written lies in 100..999. |
| Server.HealthAnswers | webservice-go/tools/web/server.go:123-126 | `/health` answers 200 with `Content-Type: application/json` and the body `{"ok":true}` and a newline. |
| Server.OtherPathsReachMain | webservice-go/tools/web/server.go:127 | Any other path is served by the main handler on the server's writer. |
| Controller.Defaults | webservice-go/api/rest/controller.go:41-51 | The secret is `notAVerySecureSecret`. There is no authenticator, meter or tracer, and the logger is the default one. |
| Controller.Apply | webservice-go/api/rest/controller.go:59-97 | Each option sets exactly its one field, a nil logger included, and keeps every other field. |
| Controller.LaterMeterWins | webservice-go/api/rest/controller.go:53-55 | Of two `WithMeter` options, the later one decides. |
| Controller.LoggerKept | webservice-go/api/rest/controller.go:53-55 | Options other than `WithLogger` never change the logger. |
| Controller.InstrumentedLayers | webservice-go/api/rest/controller.go:109-115 | The layers, from the outside in, are tracing if there is a tracer, then metrics if there is a meter, then `setJSONHeader` over `handleErrors`. |
| Controller.Route | webservice-go/api/rest/controller.go:108-118 | The explicit middlewares come first in list order, above the instrumented layers. |
| Controller.RegisterRoute | webservice-go/api/rest/controller.go:108-120 | The backwards loop builds the same handler as the nested definition, with `middlewares[0]` outermost. |
| Controller.TracingKeepsWriter | webservice-go/api/rest/controller.go:113-115 | The tracing layer changes neither the response, the logs nor whether a panic escapes. |
| Controller.JsonOverErrors | webservice-go/api/rest/controller.go:99-104 | `setJSONHeader` sets `Content-Type: application/json` before the wrapped handler writes anything. |
| Controller.UnmeteredRoute | webservice-go/api/rest/controller.go:108-118 | Without a meter, a route responds as `handleErrors` does on a writer that already has the JSON content type. |
| Controller.ErrorAfterJsonHeader | webservice-go/api/rest/controller.go:132 | After `setJSONHeader`, `http.Error` panics iff its code lies outside 100..999. Otherwise the writer holds exactly the plain-text error header, the final status, and the message and a newline when that status allows a body. |
| Controller.ApiErrorReachesClient | webservice-go/api/rest/controller.go:122-132 | An `apiError` on the chain is logged once, and the request panics iff its status lies outside 100..999. Otherwise the client gets exactly the plain-text error header that replaced the JSON content type, the status (200 for an informational code), and the JSON body and a newline when that status allows a body. |
| Controller.OtherErrorReachesClient | webservice-go/api/rest/controller.go:133-136 | Any other error without an empty join has a text, which is logged. The client gets exactly the plain-text error header, status 500 and `{}` and a newline, and nothing panics. |
| Controller.NilErrorKeepsOutput | webservice-go/api/rest/controller.go:124 | A nil error leaves the handler's own calls, made over the JSON content type, as the whole response, and logs nothing. It panics only if those calls do, which codes in 100..999 never do. |
| Controller.NilLoggerPanics | webservice-go/api/rest/controller.go:60-65 | After `WithLogger(nil)`, on a route without a meter, any error returned by the handler panics when it is logged. |
| Controller.MeteredApiErrorIsOk | webservice-go/api/rest/controller.go:110-112 | With a meter, an `apiError` response reaches the client with status 200 but with the error's JSON body. |
| ApiHandler.Defaults | webservice-go/api/rest/handler.go:37-49 | There is no meter or tracer, and the logger is the default one. |
| ApiHandler.Apply | webservice-go/api/rest/handler.go:51-73 | Each option sets exactly its one field and keeps the others. |
| ApiHandler.OptionsAgree | webservice-go/api/rest/handler.go:45-47 | The same options applied to the handler and to the controller keep their meter, tracer and logger equal. |
| ApiHandler.Route | webservice-go/api/rest/handler.go:84-93 | Tracing if set, then metrics if set, then `setJSONHeader` over `handleErrors`, with no middleware list. |
| ApiHandler.SameAsController | webservice-go/api/rest/handler.go:84-93 | The older handler builds the same route as the controller given no middlewares. |
| ApiHandler.NewAgrees | webservice-go/api/rest/handler.go:37-93 | A handler built from options routes exactly like a controller built from the same options. |
| Resource.AsString | otelcol-custom/exporter/cyphergraphexporter/internal/graphmodel/resource.go:30 | Strings are kept as they are. Booleans become `true` or `false`, integers their decimal text, and an empty value the empty string. |
| Resource.Props | otelcol-custom/exporter/cyphergraphexporter/internal/graphmodel/resource.go:27-32 | The keys are exactly the additional-property keys present in the resource, mapped to their string values. |
| Resource.Container | otelcol-custom/exporter/cyphergraphexporter/internal/graphmodel/resource.go:37-52 | At most one container. It is empty iff no dependant type has a known key attribute present, and otherwise it is the first such type in order. |
| Resource.ContainedIn | otelcol-custom/exporter/cyphergraphexporter/internal/graphmodel/resource.go:35-56 | At most one element. It is empty for a type with no containment entry, and otherwise it is the first resolvable dependant type. |
| Resource.RecordFor | otelcol-custom/exporter/cyphergraphexporter/internal/graphmodel/resource.go:57-62 | The label is the resource type and the id is the key attribute's string. `props` holds exactly the present additional keys. `contained_in` has at most one element. |
| Resource.MergeParams | otelcol-custom/exporter/cyphergraphexporter/internal/graphmodel/resource.go:23-66 | There are never more records than keys scanned. |
| Resource.RecordsAreOfPresentKeys | otelcol-custom/exporter/cyphergraphexporter/internal/graphmodel/resource.go:24-65 | Every record is the record of some scanned key present in the resource, and every present key has its record in the list. |
| Resource.MergeParamsAppend | otelcol-custom/exporter/cyphergraphexporter/internal/graphmodel/resource.go:24-66 | Scanning `a + b` gives the records of `a`, then those of `b`. |
| Resource.MergeParamsPermutation | otelcol-custom/exporter/cyphergraphexporter/internal/graphmodel/resource.go:24 | Scanning a permutation of the keys gives a permutation of the records. |
| Resource.OrderIndependent | otelcol-custom/exporter/cyphergraphexporter/internal/graphmodel/resource.go:24 | Any two iteration orders of the encoder's map give the same multiset of records. |
| Resource.MergeParamsCount | otelcol-custom/exporter/cyphergraphexporter/internal/graphmodel/resource.go:23-66 | Scanning distinct keys gives as many records as there are scanned keys present in the resource. |
| Resource.OneRecordPerPresentKey | otelcol-custom/exporter/cyphergraphexporter/internal/graphmodel/resource.go:23-66 | One record per configured key attribute present in the resource, hence at most one per configured key; each present key's record is among them. |

## Left out

- Rate limiting (`ratelimit.go`): the middleware shown is a stub, and the token-bucket limiter its tests exercise is not part of this model.
- `recover.go`, `logging.go` and `cors.go`: panic recovery, slog output and a thin wrapper over a CORS library. The model only records whether a panic escapes.
- The metrics middleware's OpenTelemetry instruments and timing. Only its writer wrapping, the route key and the recorded status and byte count are modelled.
- The request-body wrapping of the metrics middleware is left out. `bodyWrapper` is modelled on its own.
- Tracing (`otelhttp`) is modelled as a layer that passes the request on unchanged.
- Informational 1xx responses are not recorded. A 1xx `WriteHeader` other than 101 leaves the status unsent and has no other effect.
- HEAD requests: `net/http` discards the body of a response to a HEAD request, while `Write` still returns the length it was given. The model ignores the request's method (`Request.verb` is never read) and records the body as sent. Statuses, headers and byte counts are the same either way; only the text the client reads differs.
- Server.HealthAnswers: the body `{"ok":true}` and a newline is what a GET client reads. A HEAD client gets the same status and headers and no body.
- ApiError.ApiErrorResponse: the body statement holds for every method except HEAD, whose client reads no body.
- Controller.ApiErrorReachesClient: the body statement holds for every method except HEAD, whose client reads no body.
- Controller.OtherErrorReachesClient: the body statement holds for every method except HEAD, whose client reads no body.
- A panic is a flag on the response that stops every later call. The `recover` in `net/http` and the aborted connection are left out.
- ApiError.HandleErrors: stated for a writer that has not panicked. A panic unwinds the request, so no handler is ever given such a writer.
- CidrProtect.AllowedKeepsInnerStatus: stated for an inner handler that did not panic and did not wrap the writer. After a panic the 401 write does nothing (`CidrProtect.After`).
- Pipeline.NestTrace: stated for middlewares and an endpoint whose codes lie in 100..999. With any other code the request panics instead (`Wrap.PanicsOnlyOnInvalidCode`), and the trace stops there.
- Server.ChainTrace: the same restriction as `Pipeline.NestTrace`, for the same reason.
- The text of an error built by `fmt.Errorf` is a given string. Formatting verbs are not modelled; its `%w` operands are its children in the error tree.
- The error values of a read (`io.EOF`, `ErrBodyReadAfterClose`) are left out. A read returns what the source offers, at most the buffer size, and nothing once the body is closed.
- Server.ChainIsReversedNest: the model gives every layer its own next handler. `CIDRProtectMiddleware.Chain` and `JWTAuthMiddleware.Handle` store the handler in the middleware value (`cidr_protect.go:37-40`, `jwt.go:31-32` and `61`). So one value used in two chains forwards both to the handler stored last, and one value listed twice in a chain calls itself without end. The model promises neither. The routes in `router.go:11-13` use each value once.
- Controller.RegisterRoute: the same restriction as `Server.ChainIsReversedNest`. A JWT middleware value passed to two routes would send both to the handler registered last.
- Go strings are byte sequences and may hold invalid UTF-8; a Dafny `string` holds characters only. So two behaviours on invalid bytes are not represented: `json.Marshal` replacing them with `\ufffd`, and the regular expression of `authHeaderRegex.Match` reading each invalid byte as a non-space rune.
- Headers are a map from canonical name to one value. Header canonicalisation and multi-valued headers are left out.
- IPv6 literal parsing is a parameter of the model and is not written out.
- The JWT library's signature and claims checking is an oracle that returns a verdict: valid, invalid, or error kinds with a text.
- Log lines are the texts logged. Slog levels, attributes and context are left out.
- The error branch of `json.Marshal` in `handleErrors` cannot be taken for this two-field struct and is not modelled.
- `Resource.AsString`: covers empty, string, boolean and integer attribute values only. Doubles, maps, slices and byte values need float formatting and nested JSON, which the model leaves out.
- The Cypher `tx.Run` and `Consume` calls at the end of `MergeResource` are I/O.
- The encoder is modelled as the three maps `MergeResource` uses, `resourceByAttrKeys`, `containmentOrder` and `attributesByLabels`. `encoder.go` declares a different struct.
- `baseHandler` registers on the global `DefaultServeMux`. The model routes `/health` exactly and every other path to the main handler. Path cleaning, redirects and double registration are left out.
- `registerRoute`'s final `mux.Handle` call is left out: `Controller.RegisterRoute` returns the handler it would register. Pattern matching and conflicts are left out.
- `StartServer` and `Shutdown` are left out: they are `ListenAndServe` I/O and logging.
- The atomic counters of `wrap.go` are plain integers; concurrency is not modelled.
- Durations are integers of nanoseconds with no 64-bit overflow. Status codes and byte counts are unbounded integers.
- Authentication (`users`), the Postgres store, command entry points and the collector's factory, configuration and driver plumbing are outside the modelled core.

=== FILE: api_error.dfy ===
/**
 * The REST layer's errors: `apiError` carries a wrapped error, an HTTP
 * status and a public message; `handleErrors` turns the error a handler
 * returns into a response.
 */
module ApiError {
  import opened Wrappers
  import Text
  import Json
  import Wrap

  /**
   * A Go error value: a plain error, one that wraps another (as
   * `fmt.Errorf` with one `%w` builds), an `apiError`, whose wrapped error
   * may be nil, or one that wraps several: `errors.Join`, whose text is
   * built from theirs (`text` is `None`), or `fmt.Errorf` with several
   * `%w`, which has its own text.
   */
  datatype Error =
    | Plain(text: string)
    | Wrapped(text: string, inner: Error)
    | Api(cause: Option<Error>, status: int, message: string)
    | Joined(joinText: Option<string>, errs: seq<Error>)

  /**
   * `Error()`. An `apiError` answers with its wrapped error's text; with a
   * nil wrapped error the call dereferences nil, which is `None` here. A
   * join answers with its errors' texts, one per line; an empty join (which
   * `errors.Join` never builds) would index an empty slice.
   */
  function ErrorString(e: Error): Option<string>
    decreases e, 1
  {
    match e
    case Plain(t) => Some(t)
    case Wrapped(t, _) => Some(t)
    case Api(cause, _, _) => if cause.Some? then ErrorString(cause.value) else None
    case Joined(t, errs) =>
      if t.Some? then t
      else if |errs| == 0 then None
      else
        match Texts(errs)
        case None => None
        case Some(ts) => Some(Text.Join(ts, '\n'))
  }

  /** The texts of several errors, or `None` when one of them panics. */
  function Texts(es: seq<Error>): (r: Option<seq<string>>)
    ensures r.Some? ==> |r.value| == |es|
    decreases es, 0
  {
    if |es| == 0 then Some([])
    else
      match (ErrorString(es[0]), Texts(es[1..]))
      case (Some(t), Some(ts)) => Some([t] + ts)
      case _ => None
  }

  /** `errors.Unwrap`, which does not look into errors that wrap several. */
  function Unwrap(e: Error): Option<Error> {
    match e
    case Plain(_) => None
    case Wrapped(_, inner) => Some(inner)
    case Api(cause, _, _) => cause
    case Joined(_, _) => None
  }

  /**
   * The error and everything it wraps, in the order `errors.As` visits
   * them: the error itself, then what it wraps, depth first and left to
   * right.
   */
  function Chain(e: Error): (c: seq<Error>)
    ensures |c| >= 1 && c[0] == e
    decreases e, 1
  {
    match e
    case Plain(_) => [e]
    case Wrapped(_, inner) => [e] + Chain(inner)
    case Api(cause, _, _) => [e] + (if cause.Some? then Chain(cause.value) else [])
    case Joined(_, errs) => [e] + ChainAll(errs)
  }

  function ChainAll(es: seq<Error>): seq<Error>
    decreases es, 0
  {
    if |es| == 0 then [] else Chain(es[0]) + ChainAll(es[1..])
  }

  /** `errors.As` into an `apiError` value: the first `apiError` it meets. */
  function As(e: Error): (r: Option<Error>)
    ensures r.Some? ==> r.value.Api?
    decreases e, 1
  {
    match e
    case Plain(_) => None
    case Wrapped(_, inner) => As(inner)
    case Api(_, _, _) => Some(e)
    case Joined(_, errs) => AsAll(errs)
  }

  /** The first `apiError` found in several errors, tried in order. */
  function AsAll(es: seq<Error>): (r: Option<Error>)
    ensures r.Some? ==> r.value.Api?
    decreases es, 0
  {
    if |es| == 0 then None
    else if As(es[0]).Some? then As(es[0])
    else AsAll(es[1..])
  }

  /** `newAPIError`: a zero status means 500; the error and message are kept as given. */
  function NewApiError(err: Option<Error>, status: int, msg: string): (e: Error)
    ensures e.Api? && e.cause == err && e.message == msg
    ensures e.status != 0
    ensures status != 0 ==> e.status == status
  {
    Api(err, if status == 0 then 500 else status, msg)
  }

  /** `MarshalJSON`: the status first, then the message unless it is empty. */
  function Marshal(e: Error): string
    requires e.Api?
  {
    StatusKey + Text.IntToString(e.status) + MessageTail(e.message)
  }

  /** `c[i]` is an `apiError` and nothing before it is. */
  predicate FirstApiAt(c: seq<Error>, i: int) {
    0 <= i < |c| && c[i].Api? && forall j :: 0 <= j < i ==> !c[j].Api?
  }

  /**
   * The `apiError` found is the first element of the chain that is one,
   * and when none is found the chain holds none.
   */
  lemma {:induction false} AsFindsFirst(e: Error)
    ensures As(e).Some? ==> exists i :: FirstApiAt(Chain(e), i) && Chain(e)[i] == As(e).value
    ensures As(e).None? ==> forall i :: 0 <= i < |Chain(e)| ==> !Chain(e)[i].Api?
    decreases e, 1
  {
    var c := Chain(e);
    match e
    case Plain(_) =>
    case Api(_, _, _) =>
      assert FirstApiAt(c, 0) && c[0] == As(e).value;
    case Wrapped(_, inner) =>
      AsFindsFirst(inner);
      FoundAfterHead(e, Chain(inner), As(inner));
    case Joined(_, errs) =>
      AsAllFindsFirst(errs);
      FoundAfterHead(e, ChainAll(errs), AsAll(errs));
  }

  lemma {:induction false} AsAllFindsFirst(es: seq<Error>)
    ensures AsAll(es).Some? ==> exists i :: FirstApiAt(ChainAll(es), i) && ChainAll(es)[i] == AsAll(es).value
    ensures AsAll(es).None? ==> forall i :: 0 <= i < |ChainAll(es)| ==> !ChainAll(es)[i].Api?
    decreases es, 0
  {
    if |es| > 0 {
      var head := Chain(es[0]);
      var tail := ChainAll(es[1..]);
      assert ChainAll(es) == head + tail;
      AsFindsFirst(es[0]);
      if As(es[0]).Some? {
        var i :| FirstApiAt(head, i) && head[i] == As(es[0]).value;
        assert FirstApiAt(head + tail, i) && (head + tail)[i] == AsAll(es).value;
      } else {
        AsAllFindsFirst(es[1..]);
        FoundAfterPrefix(head, tail, AsAll(es[1..]));
      }
    }
  }

  /** What is found after a head that is not an `apiError` sits one place further along. */
  lemma FoundAfterHead(e: Error, rest: seq<Error>, found: Option<Error>)
    requires !e.Api?
    requires found.Some? ==> exists i :: FirstApiAt(rest, i) && rest[i] == found.value
    requires found.None? ==> forall i :: 0 <= i < |rest| ==> !rest[i].Api?
    ensures found.Some? ==> exists i :: FirstApiAt([e] + rest, i) && ([e] + rest)[i] == found.value
    ensures found.None? ==> forall i :: 0 <= i < |[e] + rest| ==> !([e] + rest)[i].Api?
  {
    FoundAfterPrefix([e], rest, found);
  }

  /** What is found after a prefix holding no `apiError` sits that much further along. */
  lemma FoundAfterPrefix(head: seq<Error>, rest: seq<Error>, found: Option<Error>)
    requires forall i :: 0 <= i < |head| ==> !head[i].Api?
    requires found.Some? ==> exists i :: FirstApiAt(rest, i) && rest[i] == found.value
    requires found.None? ==> forall i :: 0 <= i < |rest| ==> !rest[i].Api?
    ensures found.Some? ==> exists i :: FirstApiAt(head + rest, i) && (head + rest)[i] == found.value
    ensures found.None? ==> forall i :: 0 <= i < |head + rest| ==> !(head + rest)[i].Api?
  {
    var c := head + rest;
    if found.Some? {
      var i :| FirstApiAt(rest, i) && rest[i] == found.value;
      assert FirstApiAt(c, |head| + i) && c[|head| + i] == found.value by {
        forall j | 0 <= j < |head| + i
          ensures !c[j].Api?
        {
          if j >= |head| {
            assert c[j] == rest[j - |head|];
          }
        }
      }
    } else {
      forall i | 0 <= i < |c|
        ensures !c[i].Api?
      {
        if i >= |head| {
          assert c[i] == rest[i - |head|];
        }
      }
    }
  }

  /** Every join on the chain holds at least one error, as `errors.Join` guarantees. */
  predicate NoEmptyJoin(e: Error)
    decreases e, 1
  {
    match e
    case Plain(_) => true
    case Wrapped(_, inner) => NoEmptyJoin(inner)
    case Api(cause, _, _) => cause.None? || NoEmptyJoin(cause.value)
    case Joined(t, errs) => (t.Some? || |errs| > 0) && NoEmptyJoinAll(errs)
  }

  predicate NoEmptyJoinAll(es: seq<Error>)
    decreases es, 0
  {
    |es| == 0 || (NoEmptyJoin(es[0]) && NoEmptyJoinAll(es[1..]))
  }

  /**
   * Only an `apiError` can be without a text, so an error with none inside
   * it has one, given that every join in it is non-empty.
   */
  lemma {:induction false} TextWithoutApi(e: Error)
    requires As(e).None? && NoEmptyJoin(e)
    ensures ErrorString(e).Some?
    decreases e, 1
  {
    match e
    case Plain(_) =>
    case Api(_, _, _) =>
    case Wrapped(_, inner) =>
    case Joined(t, errs) =>
      if t.None? {
        TextsWithoutApi(errs);
      }
  }

  lemma {:induction false} TextsWithoutApi(es: seq<Error>)
    requires AsAll(es).None? && NoEmptyJoinAll(es)
    ensures Texts(es).Some?
    decreases es, 0
  {
    if |es| > 0 {
      TextWithoutApi(es[0]);
      TextsWithoutApi(es[1..]);
    }
  }

  /** `Unwrap` gives back the error `newAPIError` wrapped. */
  lemma UnwrapNewApiError(err: Option<Error>, status: int, msg: string)
    ensures Unwrap(NewApiError(err, status, msg)) == err
    ensures As(NewApiError(err, status, msg)) == Some(NewApiError(err, status, msg))
  {
  }

  /** What `handleErrors` leaves behind: the writer, the lines logged, and whether it panicked. */
  datatype Handled = Handled(w: Wrap.Writer, logs: seq<string>, panicked: bool)

  /**
   * `handleErrors` after the wrapped function returned `result`: nothing for
   * nil; the `apiError`'s JSON and status when one is found; `{}` and 500
   * otherwise. The error's text is logged first in both error cases, and
   * forming it panics when an `apiError` with a nil wrapped error is in
   * the way; `http.Error` then panics on an invalid status. A writer that
   * has seen a panic is never handed on, hence the precondition.
   */
  function HandleErrors(w: Wrap.Writer, result: Option<Error>): (h: Handled)
    requires !Wrap.Root(w).panicked
    ensures result.None? ==> h == Handled(w, [], false)
    ensures result.Some? && As(result.value).Some? && ErrorString(As(result.value).value).Some? ==>
      && h.w == Wrap.Error(w, Marshal(As(result.value).value), As(result.value).value.status)
      && h.logs == [ErrorString(As(result.value).value).value]
    ensures result.Some? && As(result.value).None? && ErrorString(result.value).Some? ==>
      h.w == Wrap.Error(w, "{}", 500) && h.logs == [ErrorString(result.value).value]
    ensures h.panicked <==> Wrap.Root(h.w).panicked || (h.logs == [] && result.Some?)
    ensures h.panicked <==>
      && result.Some?
      && (if As(result.value).Some?
          then ErrorString(As(result.value).value).None? || (w.Base? && Wrap.Root(w).status.None? && !Wrap.ValidCode(As(result.value).value.status))
          else ErrorString(result.value).None?)
  {
    match result
    case None => Handled(w, [], false)
    case Some(err) =>
      if As(err).Some? then
        var a := As(err).value;
        if ErrorString(a).None? then Handled(w, [], true)
        else
          var w1 := Wrap.Error(w, Marshal(a), a.status);
          Handled(w1, [ErrorString(a).value], Wrap.Root(w1).panicked)
      else if ErrorString(err).None? then Handled(w, [], true)
      else Handled(Wrap.Error(w, "{}", 500), [ErrorString(err).value], false)
  }

  /** Reads back what `Marshal` writes: the status and the message, empty when the key is absent. */
  function Unmarshal(t: string): Option<(int, string)> {
    if |t| < |StatusKey| || t[..|StatusKey|] != StatusKey then None
    else UnmarshalFields(t[|StatusKey|..])
  }

  const StatusKey := "{\"status\":"
  const MessageKey := ",\"message\":"

  /** The status number up to the first ',' or '}', then the rest of the object. */
  function UnmarshalFields(rest: string): Option<(int, string)> {
    var i := EndOfNumber(rest);
    if i < 0 then None
    else
      match SignedValue(rest[..i])
      case None => None
      case Some(n) =>
        match UnmarshalMessage(rest[i..])
        case None => None
        case Some(m) => Some((n, m))
  }

  /** The end of the object: a bare `}` or the message member and then `}`. */
  function UnmarshalMessage(after: string): Option<string> {
    if after == "}" then Some("")
    else if |after| < |MessageKey| || after[..|MessageKey|] != MessageKey then None
    else
      var v := after[|MessageKey|..];
      if |v| == 0 || v[0] != '"' then None
      else
        match Json.DecodeString(v[1..])
        case Some((m, "}")) => Some(m)
        case _ => None
  }

  /** The position of the first ',' or '}', or -1. */
  function EndOfNumber(s: string): (i: int)
    ensures -1 <= i < |s|
    ensures i >= 0 ==> s[i] in ",}" && forall k :: 0 <= k < i ==> s[k] !in ",}"
    ensures i < 0 ==> forall k :: 0 <= k < |s| ==> s[k] !in ",}"
  {
    if |s| == 0 then -1
    else if s[0] in ",}" then 0
    else
      var j := EndOfNumber(s[1..]);
      if j < 0 then -1 else j + 1
  }

  /** A decimal integer with an optional minus sign. */
  function SignedValue(s: string): Option<int> {
    if |s| >= 1 && s[0] == '-' then Negated(Unsigned(s[1..])) else Unsigned(s)
  }

  /** A non-empty run of decimal digits. */
  function Unsigned(t: string): Option<nat> {
    if |t| >= 1 && Text.AllDigits(t) then Some(Text.DecimalValue(t)) else None
  }

  function Negated(v: Option<nat>): Option<int> {
    if v.None? then None else Some(-(v.value as int))
  }

  /** A minus sign followed by the text of a positive number reads as its negation. */
  lemma SignedValueOfNegative(d: string, n: int)
    requires Unsigned(d) == Some(-n)
    ensures SignedValue("-" + d) == Some(n)
  {
    assert ("-" + d)[1..] == d;
  }

  /** `strconv.Itoa`'s text reads back as the number. */
  lemma SignedValueOfIntToString(n: int)
    ensures SignedValue(Text.IntToString(n)) == Some(n)
  {
    if n < 0 {
      var d := Text.NatToString(-n);
      assert Text.IntToString(n) == "-" + d;
      Text.DecimalValueOfNatToString(-n);
      SignedValueOfNegative(d, n);
    } else {
      var d := Text.NatToString(n);
      assert Text.IntToString(n) == d && Text.IsDigit(d[0]);
      Text.DecimalValueOfNatToString(n);
    }
  }

  /** `strconv.Itoa`'s text holds neither ',' nor '}'. */
  lemma IntToStringHasNoDelimiter(n: int)
    ensures forall k :: 0 <= k < |Text.IntToString(n)| ==> Text.IntToString(n)[k] !in ",}"
  {
    var s := Text.IntToString(n);
    forall k | 0 <= k < |s|
      ensures s[k] !in ",}"
    {
      if k > 0 || n >= 0 {
        assert Text.IsDigit(if n < 0 then s[1..][k - 1] else s[k]);
      }
    }
  }

  /** The text `Marshal` writes after the status number. */
  function MessageTail(message: string): string {
    if message == "" then "}" else MessageKey + Json.Quote(message) + "}"
  }

  lemma UnmarshalMessageKey(v: string)
    requires |v| >= 1 && v[0] == '"'
    ensures UnmarshalMessage(MessageKey + v) ==
      match Json.DecodeString(v[1..])
      case Some((m, "}")) => Some(m)
      case _ => None
  {
    var after := MessageKey + v;
    assert after[0] == ',';
    assert after[..|MessageKey|] == MessageKey;
    assert after[|MessageKey|..] == v;
  }

  lemma MessageTailRoundTrip(message: string)
    ensures UnmarshalMessage(MessageTail(message)) == Some(message)
  {
    if message != "" {
      var v := Json.Quote(message) + "}";
      assert MessageTail(message) == MessageKey + v;
      Json.QuoteRoundTrip(message, "}");
      UnmarshalMessageKey(v);
    }
  }

  lemma FieldsRoundTrip(n: int, message: string)
    ensures UnmarshalFields(Text.IntToString(n) + MessageTail(message)) == Some((n, message))
  {
    var num := Text.IntToString(n);
    var tail := MessageTail(message);
    var rest := num + tail;
    SignedValueOfIntToString(n);
    IntToStringHasNoDelimiter(n);
    EndOfNumberAfter(num, tail);
    assert rest[..|num|] == num;
    assert rest[|num|..] == tail;
    MessageTailRoundTrip(message);
  }

  /** The object's opening is checked and skipped. */
  lemma UnmarshalAfterStatusKey(rest: string)
    ensures Unmarshal(StatusKey + rest) == UnmarshalFields(rest)
  {
    var t := StatusKey + rest;
    assert t[..|StatusKey|] == StatusKey;
    assert t[|StatusKey|..] == rest;
  }

  /** Reading back the JSON of an `apiError` gives its status and message. */
  lemma MarshalRoundTrip(e: Error)
    requires e.Api?
    ensures Unmarshal(Marshal(e)) == Some((e.status, e.message))
  {
    var rest := Text.IntToString(e.status) + MessageTail(e.message);
    assert Marshal(e) == StatusKey + rest;
    UnmarshalAfterStatusKey(rest);
    FieldsRoundTrip(e.status, e.message);
  }

  lemma EndOfNumberAfter(num: string, tail: string)
    requires forall k :: 0 <= k < |num| ==> num[k] !in ",}"
    requires |tail| >= 1 && tail[0] in ",}"
    ensures EndOfNumber(num + tail) == |num|
  {
    var s := num + tail;
    assert s[|num|] in ",}";
    assert forall k :: 0 <= k < |num| ==> s[k] == num[k];
  }

  /**
   * What the client gets from `handleErrors` on a fresh writer when an
   * `apiError` is found: it is the first one on the error's chain; the
   * handler panics iff that error has no text or its status is invalid;
   * otherwise its status is sent (200 for an informational code), and when
   * the status allows a body, the body less its final newline reads back
   * as the error's status and message.
   */
  lemma ClientReadsFirstApiError(e: Error, a: Error)
    requires As(e) == Some(a)
    ensures exists i :: FirstApiAt(Chain(e), i) && Chain(e)[i] == a
    ensures var h := HandleErrors(Wrap.Base(Wrap.Fresh), Some(e));
      && (h.panicked <==> ErrorString(a).None? || !Wrap.ValidCode(a.status))
      && (!h.panicked ==> Wrap.Root(h.w).status == Some(if Wrap.Informational(a.status) then 200 else a.status))
      && (!h.panicked && Wrap.BodyAllowed(Wrap.Root(h.w).status.value) ==>
            && |Wrap.Root(h.w).body| > 0
            && Unmarshal(Wrap.Root(h.w).body[..|Wrap.Root(h.w).body| - 1]) == Some((a.status, a.message)))
      && (h.panicked || !Wrap.BodyAllowed(Wrap.Root(h.w).status.value) ==> Wrap.Root(h.w).body == "")
  {
    AsFindsFirst(e);
    var h := HandleErrors(Wrap.Base(Wrap.Fresh), Some(e));
    if !h.panicked && Wrap.BodyAllowed(Wrap.Root(h.w).status.value) {
      var body := Wrap.Root(h.w).body;
      assert body == Marshal(a) + "\n";
      assert body[..|body| - 1] == Marshal(a);
      MarshalRoundTrip(a);
    }
  }

  /**
   * What the client gets when no `apiError` is found: none is on the
   * error's chain, its text is logged, and the answer is 500 with an empty
   * JSON object.
   */
  lemma ClientReadsEmptyObject(e: Error)
    requires As(e).None? && NoEmptyJoin(e)
    ensures forall i :: 0 <= i < |Chain(e)| ==> !Chain(e)[i].Api?
    ensures var h := HandleErrors(Wrap.Base(Wrap.Fresh), Some(e));
      && !h.panicked && ErrorString(e).Some? && h.logs == [ErrorString(e).value]
      && Wrap.Root(h.w).status == Some(500) && Wrap.Root(h.w).body == "{}\n"
  {
    AsFindsFirst(e);
    TextWithoutApi(e);
  }

  /**
   * An `apiError` wrapping a plain error, with a message of plain
   * characters, logs the wrapped error's text, panics iff its status (500
   * for 0) is invalid, and otherwise answers with its JSON unless the
   * status forbids a body (as for status 404 and "A public message").
   */
  lemma ApiErrorResponse(private: string, status: int, message: string)
    requires message != []
    requires forall k :: 0 <= k < |message| ==> Json.Plain(message[k])
    ensures var s := if status == 0 then 500 else status;
      var h := HandleErrors(Wrap.Base(Wrap.Fresh), Some(NewApiError(Some(Plain(private)), status, message)));
      && h.logs == [private]
      && (h.panicked <==> !Wrap.ValidCode(s))
      && (Wrap.ValidCode(s) && !Wrap.Informational(s) ==> Wrap.Root(h.w).status == Some(s))
      && (Wrap.ValidCode(s) && (Wrap.Informational(s) || Wrap.BodyAllowed(s)) ==>
            Wrap.Root(h.w).body == "{\"status\":" + Text.IntToString(s) + ",\"message\":\"" + message + "\"}\n")
  {
    var e := NewApiError(Some(Plain(private)), status, message);
    assert As(e) == Some(e);
    assert ErrorString(e) == Some(private);
    Json.QuoteBodyPlain(message);
    var h := HandleErrors(Wrap.Base(Wrap.Fresh), Some(e));
    assert h.w == Wrap.Error(Wrap.Base(Wrap.Fresh), Marshal(e), e.status);
  }

  /** An error with no `apiError` on its chain answers 500 with an empty JSON object. */
  lemma WildErrorResponse(private: string)
    ensures var h := HandleErrors(Wrap.Base(Wrap.Fresh), Some(Wrapped(private, Plain("cause"))));
      && !h.panicked && h.logs == [private]
      && Wrap.Root(h.w).status == Some(500)
      && Wrap.Root(h.w).body == "{}\n"
  {
    var e := Wrapped(private, Plain("cause"));
    assert As(Plain("cause")).None?;
    assert As(e).None?;
    assert Wrap.Root(Wrap.Base(Wrap.Fresh)).body == "";
  }
}

=== FILE: api_handler.dfy ===
/**
 * The older REST `APIHandler`: the same error handling and the same
 * instrumentation as the controller, without an authenticator, a secret
 * or per-route middlewares.
 */
module ApiHandler {
  import opened Wrappers
  import opened Pipeline
  import Controller

  datatype ApiHandler = ApiHandler(meter: Option<nat>, tracer: Option<nat>, logger: Option<Logger>)

  datatype HandlerOpt =
    | WithLogger(l: Option<Logger>)
    | WithMeter(m: Option<nat>)
    | WithTracer(t: Option<nat>)

  function Defaults(): (a: ApiHandler)
    ensures a.meter.None? && a.tracer.None? && a.logger == Some(DefaultLogger)
  {
    ApiHandler(None, None, Some(DefaultLogger))
  }

  /** One option: it sets its own field, as given, and no other. */
  function Apply(a: ApiHandler, o: HandlerOpt): (r: ApiHandler)
    ensures o.WithLogger? ==> r.logger == o.l
    ensures o.WithMeter? ==> r.meter == o.m
    ensures o.WithTracer? ==> r.tracer == o.t
    ensures !o.WithLogger? ==> r.logger == a.logger
    ensures !o.WithMeter? ==> r.meter == a.meter
    ensures !o.WithTracer? ==> r.tracer == a.tracer
  {
    match o
    case WithLogger(l) => a.(logger := l)
    case WithMeter(m) => a.(meter := m)
    case WithTracer(t) => a.(tracer := t)
  }

  function ApplyAll(a: ApiHandler, opts: seq<HandlerOpt>): ApiHandler
    decreases |opts|
  {
    if |opts| == 0 then a else ApplyAll(Apply(a, opts[0]), opts[1..])
  }

  /** `NewAPIHandler(opts...)`. */
  function NewApiHandler(opts: seq<HandlerOpt>): ApiHandler {
    ApplyAll(Defaults(), opts)
  }

  /** The controller option that sets the same field. */
  function AsControllerOpt(o: HandlerOpt): Controller.ControllerOpt {
    match o
    case WithLogger(l) => Controller.WithLogger(l)
    case WithMeter(m) => Controller.WithMeter(m)
    case WithTracer(t) => Controller.WithTracer(t)
  }

  function AsControllerOpts(opts: seq<HandlerOpt>): (r: seq<Controller.ControllerOpt>)
    ensures |r| == |opts|
    ensures forall i :: 0 <= i < |opts| ==> r[i] == AsControllerOpt(opts[i])
  {
    if |opts| == 0 then [] else [AsControllerOpt(opts[0])] + AsControllerOpts(opts[1..])
  }

  /** The settings the handler and a controller have in common. */
  predicate Agrees(a: ApiHandler, c: Controller.Controller) {
    a.meter == c.meter && a.tracer == c.tracer && a.logger == c.logger
  }

  /** The same options give the handler the meter, tracer and logger they give a controller. */
  lemma {:induction false} OptionsAgree(a: ApiHandler, c: Controller.Controller, opts: seq<HandlerOpt>)
    requires Agrees(a, c)
    ensures Agrees(ApplyAll(a, opts), Controller.ApplyAll(c, AsControllerOpts(opts)))
    decreases |opts|
  {
    if |opts| > 0 {
      var co := AsControllerOpts(opts);
      assert co[1..] == AsControllerOpts(opts[1..]);
      OptionsAgree(Apply(a, opts[0]), Controller.Apply(c, co[0]), opts[1..]);
    }
  }

  /** `registerRoute`: the JSON header, metrics if a meter is set, tracing if a tracer is set. */
  function Route(a: ApiHandler, pattern: string, app: App): (h: Handler)
    ensures Layers(h) == (if a.tracer.Some? then ["otelhttp"] else []) + (if a.meter.Some? then ["metrics"] else []) + ["setJSONHeader"]
  {
    Controller.InstrumentedLayers(a.meter.Some?, a.tracer.Some?, pattern, app, a.logger);
    Controller.Instrumented(a.meter.Some?, a.tracer.Some?, pattern, app, a.logger)
  }

  /** The handler registers exactly what a controller with the same settings registers for a route without middlewares. */
  lemma SameAsController(a: ApiHandler, c: Controller.Controller, pattern: string, app: App)
    requires Agrees(a, c)
    ensures Route(a, pattern, app) == Controller.Route(c, pattern, app, [])
  {
  }

  /** The handlers built by the two constructors from the same options agree. */
  lemma NewAgrees(opts: seq<HandlerOpt>, pattern: string, app: App)
    ensures Route(NewApiHandler(opts), pattern, app) == Controller.Route(Controller.NewController(AsControllerOpts(opts)), pattern, app, [])
  {
    OptionsAgree(Defaults(), Controller.Defaults(), opts);
  }
}

=== FILE: cidr.dfy ===
/**
 * CIDR networks as Go's `net.ParseCIDR` builds them and `(*net.IPNet).Contains`
 * tests them: an address belongs to a network when its first prefix-length
 * bits equal the network number's (section 3.1 of RFC 4632).
 */
module Cidr {
  import opened Wrappers
  import Text
  import opened Ip

  /**
   * A network after Go's normalisation: the masked network number and the
   * prefix length, per family. A network written in IPv4-mapped IPv6 form
   * with a prefix of at least 96 bits behaves as the IPv4 network it maps.
   */
  datatype Network = Net4(base4: Octets4, bits4: nat) | Net6(base16: Octets16, bits6: nat)

  function Pow2(k: nat): nat
    requires k <= 8
  {
    [1, 2, 4, 8, 16, 32, 64, 128, 256][k]
  }

  /** How many leading bits of byte `i` a prefix of `n` bits covers. */
  function KeptBits(n: nat, i: nat): (k: nat)
    ensures k <= 8
  {
    if n >= 8 * (i + 1) then 8 else if n <= 8 * i then 0 else n - 8 * i
  }

  /** `b & m` for the mask byte `m` with `keep` leading one bits. */
  function MaskByte(b: Byte, keep: nat): (r: Byte)
    requires keep <= 8
    ensures r <= b
    ensures keep == 8 ==> r == b
    ensures keep == 0 ==> r == 0
  {
    var p := Pow2(8 - keep);
    assert b / p * p <= b;
    b / p * p
  }

  /** `IP.Mask(CIDRMask(n, 8 * |o|))`. */
  function MaskOctets(o: seq<Byte>, n: nat): (r: seq<Byte>)
    ensures |r| == |o|
    ensures forall i :: 0 <= i < |o| ==> r[i] == MaskByte(o[i], KeptBits(n, i))
  {
    seq(|o|, i requires 0 <= i < |o| => MaskByte(o[i], KeptBits(n, i)))
  }

  /** The first `n` bits of two equally long byte strings agree. */
  predicate SamePrefix(a: seq<Byte>, b: seq<Byte>, n: nat)
    requires |a| == |b|
  {
    forall i :: 0 <= i < |a| ==> MaskByte(a[i], KeptBits(n, i)) == MaskByte(b[i], KeptBits(n, i))
  }

  /** A network as Go can produce it: prefix within the family's width, number already masked. */
  predicate Valid(net: Network) {
    match net
    case Net4(b, n) => n <= 32 && MaskOctets(b, n) == b
    case Net6(b, n) => n <= 128 && MaskOctets(b, n) == b
  }

  /** `(*net.IPNet).Contains`: same family after `To4`, then the prefix bits agree. */
  predicate Contains(net: Network, a: Addr) {
    match (net, Unmap(a))
    case (Net4(b, n), V4(o)) => SamePrefix(b, o, n)
    case (Net6(b, n), V6(o)) => SamePrefix(b, o, n)
    case _ => false
  }

  /** The network for an address literal and a prefix length already checked against the family. */
  function NetworkOf(a: Addr, n: nat): (net: Network)
    requires a.V4? ==> n <= 32
    requires a.V6? ==> n <= 128
    ensures Valid(net)
  {
    match a
    case V4(o) =>
      MaskTwiceV4(o, n);
      Net4(MaskOctets(o, n), n)
    case V6(o) =>
      if IsV4Mapped(o) && n >= 96 then
        MaskTwiceV4(o[12..], n - 96);
        Net4(MaskOctets(o[12..], n - 96), n - 96)
      else
        MaskTwice(o, n);
        Net6(MaskOctets(o, n), n)
  }

  /**
   * `net.ParseCIDR`: an address literal, a '/', and a decimal prefix length
   * no wider than the literal's family (32 for a dotted quad, 128 for an IPv6
   * literal, IPv4-mapped or not).
   */
  function ParseCidr(s: string, v6: V6Parser): (r: Option<Network>)
    ensures r.Some? ==> '/' in s && Valid(r.value)
  {
    var i := Text.FirstIndex(s, '/');
    if i < 0 then None
    else
      var mask := s[i + 1..];
      match ParseLiteral(s[..i], v6)
      case None => None
      case Some(a) =>
        if |mask| == 0 || !Text.AllDigits(mask) then None
        else
          var n := Text.DecimalValue(mask);
          if n > (if a.V4? then 32 else 128) then None else Some(NetworkOf(a, n))
  }

  lemma MaskByteTwice(b: Byte, keep: nat)
    requires keep <= 8
    ensures MaskByte(MaskByte(b, keep), keep) == MaskByte(b, keep)
  {
    var p := Pow2(8 - keep);
    var q := b / p;
    assert (q * p) / p == q;
  }

  lemma MaskTwice(o: seq<Byte>, n: nat)
    ensures MaskOctets(MaskOctets(o, n), n) == MaskOctets(o, n)
    ensures SamePrefix(MaskOctets(o, n), o, n)
  {
    forall i | 0 <= i < |o| {
      MaskByteTwice(o[i], KeptBits(n, i));
    }
  }

  lemma MaskTwiceV4(o: Octets4, n: nat)
    ensures MaskOctets(MaskOctets(o, n), n) == MaskOctets(o, n)
    ensures SamePrefix(MaskOctets(o, n), o, n)
  {
    MaskTwice(o, n);
  }

  /**
   * A network contains the address it was written with, except when that
   * address is IPv4-mapped and the prefix is shorter than 96 bits: Go then
   * keeps a 16-byte network but compares the address in its 4-byte form.
   */
  lemma NetworkOfContains(a: Addr, n: nat)
    requires a.V4? ==> n <= 32
    requires a.V6? ==> n <= 128
    ensures Contains(NetworkOf(a, n), a) <==> !(a.V6? && IsV4Mapped(a.o16) && n < 96)
  {
    match a
    case V4(o) => MaskTwice(o, n);
    case V6(o) =>
      if IsV4Mapped(o) && n >= 96 {
        MaskTwice(o[12..], n - 96);
      } else {
        MaskTwice(o, n);
      }
  }

  const Rfc1918A: Network := Net4([10, 0, 0, 0], 8)
  const Rfc1918B: Network := Net4([172, 16, 0, 0], 12)
  const Rfc1918C: Network := Net4([192, 168, 0, 0], 16)
  const UniqueLocal: Network := Net6([0xfc, 0, 0, 0, 0, 0, 0, 0, 0, 0, 0, 0, 0, 0, 0, 0], 7)
  const Loopback4: Network := Net4([127, 0, 0, 0], 8)

  /** Membership in an IPv4 /8 is equality of the first octet. */
  lemma InSlash8(o: Octets4, b0: Byte)
    ensures SamePrefix([b0, 0, 0, 0], o, 8) <==> o[0] == b0
  {
    assert KeptBits(8, 0) == 8 && KeptBits(8, 1) == 0 && KeptBits(8, 2) == 0 && KeptBits(8, 3) == 0;
  }

  lemma InRfc1918B(o: Octets4)
    ensures SamePrefix([172, 16, 0, 0], o, 12) <==> o[0] == 172 && o[1] / 16 == 1
  {
    assert KeptBits(12, 0) == 8 && KeptBits(12, 1) == 4 && KeptBits(12, 2) == 0 && KeptBits(12, 3) == 0;
    assert MaskByte(16, 4) == 16;
    assert MaskByte(o[1], 4) == o[1] / 16 * 16;
  }

  lemma InRfc1918C(o: Octets4)
    ensures SamePrefix([192, 168, 0, 0], o, 16) <==> o[0] == 192 && o[1] == 168
  {
    var b: Octets4 := [192, 168, 0, 0];
    assert KeptBits(16, 0) == 8 && KeptBits(16, 1) == 8 && KeptBits(16, 2) == 0 && KeptBits(16, 3) == 0;
    assert SamePrefix(b, o, 16) <==>
      && MaskByte(b[0], 8) == MaskByte(o[0], 8)
      && MaskByte(b[1], 8) == MaskByte(o[1], 8)
      && MaskByte(b[2], 0) == MaskByte(o[2], 0)
      && MaskByte(b[3], 0) == MaskByte(o[3], 0);
  }

  lemma InUniqueLocal(o: Octets16)
    ensures SamePrefix(UniqueLocal.base16, o, 7) <==> o[0] / 2 == 0xfc / 2
  {
    assert KeptBits(7, 0) == 7;
    assert forall i :: 1 <= i < 16 ==> KeptBits(7, i) == 0;
    assert MaskByte(0xfc, 7) == 0xfc;
    assert MaskByte(o[0], 7) == o[0] / 2 * 2;
  }

  /** `IsPrivate` is membership in the three blocks of section 3 of RFC 1918 or in `fc00::/7` of RFC 4193. */
  lemma PrivateIffReservedBlock(a: Addr)
    ensures IsPrivate(a) <==> Contains(Rfc1918A, a) || Contains(Rfc1918B, a) || Contains(Rfc1918C, a) || Contains(UniqueLocal, a)
  {
    match Unmap(a)
    case V4(o) =>
      InSlash8(o, 10);
      InRfc1918B(o);
      InRfc1918C(o);
    case V6(o) =>
      InUniqueLocal(o);
  }

  const Unspecified4: Network := Net4([0, 0, 0, 0], 32)
  const Broadcast4: Network := Net4([255, 255, 255, 255], 32)
  const Multicast4: Network := Net4([224, 0, 0, 0], 4)
  const LinkLocal4: Network := Net4([169, 254, 0, 0], 16)
  const Unspecified6Net: Network := Net6(Unspecified6, 128)
  const Loopback6Net: Network := Net6(Loopback6, 128)
  const Multicast6: Network := Net6([0xff, 0, 0, 0, 0, 0, 0, 0, 0, 0, 0, 0, 0, 0, 0, 0], 8)
  const LinkLocal6: Network := Net6([0xfe, 0x80, 0, 0, 0, 0, 0, 0, 0, 0, 0, 0, 0, 0, 0, 0], 10)

  /** A prefix as long as the address is equality with the address. */
  lemma InFullPrefix(b: seq<Byte>, o: seq<Byte>)
    requires |b| == |o|
    ensures SamePrefix(b, o, 8 * |o|) <==> o == b
  {
    assert forall i :: 0 <= i < |o| ==> KeptBits(8 * |o|, i) == 8;
    if SamePrefix(b, o, 8 * |o|) {
      assert forall i :: 0 <= i < |o| ==> o[i] == MaskByte(o[i], 8) == MaskByte(b[i], 8) == b[i];
    }
  }

  lemma InMulticast4(o: Octets4)
    ensures SamePrefix([224, 0, 0, 0], o, 4) <==> o[0] / 16 == 0xe
  {
    assert KeptBits(4, 0) == 4 && KeptBits(4, 1) == 0 && KeptBits(4, 2) == 0 && KeptBits(4, 3) == 0;
    assert MaskByte(224, 4) == 224;
    assert MaskByte(o[0], 4) == o[0] / 16 * 16;
  }

  lemma InLinkLocal4(o: Octets4)
    ensures SamePrefix([169, 254, 0, 0], o, 16) <==> o[0] == 169 && o[1] == 254
  {
    assert KeptBits(16, 0) == 8 && KeptBits(16, 1) == 8 && KeptBits(16, 2) == 0 && KeptBits(16, 3) == 0;
  }

  lemma InMulticast6(o: Octets16)
    ensures SamePrefix(Multicast6.base16, o, 8) <==> o[0] == 0xff
  {
    assert KeptBits(8, 0) == 8;
    assert forall i :: 1 <= i < 16 ==> KeptBits(8, i) == 0;
  }

  lemma InLinkLocal6(o: Octets16)
    ensures SamePrefix(LinkLocal6.base16, o, 10) <==> o[0] == 0xfe && o[1] / 64 == 2
  {
    assert KeptBits(10, 0) == 8 && KeptBits(10, 1) == 2;
    assert forall i :: 2 <= i < 16 ==> KeptBits(10, i) == 0;
    assert MaskByte(0x80, 2) == 0x80;
    assert MaskByte(o[1], 2) == o[1] / 64 * 64;
  }

  /**
   * `IsGlobalUnicast` is membership in none of the special-purpose blocks:
   * `0.0.0.0/32`, `255.255.255.255/32`, `127.0.0.0/8`, `224.0.0.0/4` and
   * `169.254.0.0/16` for IPv4; `::/128`, `::1/128`, `ff00::/8` and
   * `fe80::/10` for IPv6.
   */
  lemma GlobalUnicastIffOutsideBlocks(a: Addr)
    ensures IsGlobalUnicast(a) <==>
      !(|| Contains(Unspecified4, a) || Contains(Broadcast4, a) || Contains(Loopback4, a)
        || Contains(Multicast4, a) || Contains(LinkLocal4, a)
        || Contains(Unspecified6Net, a) || Contains(Loopback6Net, a)
        || Contains(Multicast6, a) || Contains(LinkLocal6, a))
  {
    match Unmap(a)
    case V4(o) =>
      InFullPrefix([0, 0, 0, 0], o);
      InFullPrefix([255, 255, 255, 255], o);
      InSlash8(o, 127);
      InMulticast4(o);
      InLinkLocal4(o);
    case V6(o) =>
      InFullPrefix(Unspecified6, o);
      InFullPrefix(Loopback6, o);
      InMulticast6(o);
      InLinkLocal6(o);
  }

  /** An IPv4 address is a loopback address exactly when it lies in `127.0.0.0/8`. */
  lemma LoopbackV4IffBlock(a: Addr)
    requires Unmap(a).V4?
    ensures IsLoopback(a) <==> Contains(Loopback4, a)
  {
    InSlash8(Unmap(a).o4, 127);
  }
}

=== FILE: cidr_protect.dfy ===
/**
 * `CIDRProtectMiddleware`: lets a request through to the inner handler only
 * when the client address is a loopback address or lies in one of the
 * configured networks, and writes a 401 "endpoint is protected" response
 * afterwards in every case.
 */
module CidrProtect {
  import opened Wrappers
  import Text
  import opened Ip
  import Cidr
  import HostPort
  import opened Http
  import Wrap
  import RemoteAddr

  /** The middleware's configuration: the allowed networks in the order given. */
  datatype Gate = Gate(networks: seq<Cidr.Network>)

  /** Each text parsed in order; the index of the first one that fails otherwise. */
  function ParseAll<T>(specs: seq<string>, parse: string -> Option<T>): (r: Result<seq<T>, nat>)
    ensures r.Ok? <==> forall i :: 0 <= i < |specs| ==> parse(specs[i]).Some?
    ensures r.Ok? ==> |r.value| == |specs| && forall i :: 0 <= i < |specs| ==> parse(specs[i]) == Some(r.value[i])
    ensures r.Err? ==> r.error < |specs| && parse(specs[r.error]).None?
    ensures r.Err? ==> forall j :: 0 <= j < r.error ==> parse(specs[j]).Some?
  {
    if |specs| == 0 then Ok([])
    else
      match parse(specs[0])
      case None => Err(0)
      case Some(n) =>
        match ParseAll(specs[1..], parse)
        case Ok(ns) => Ok([n] + ns)
        case Err(k) => Err(k + 1)
  }

  function CidrParser(v6: V6Parser): string -> Option<Cidr.Network> {
    spec => Cidr.ParseCidr(spec, v6)
  }

  /**
   * `NewCIDRProtectMiddleware`: every text must be a CIDR network; the first
   * one that is not stops construction with a panic naming it.
   */
  function New(specs: seq<string>, v6: V6Parser): (r: Result<Gate, string>)
    ensures r.Ok? <==> forall i :: 0 <= i < |specs| ==> Cidr.ParseCidr(specs[i], v6).Some?
    ensures r.Ok? ==> |r.value.networks| == |specs|
    ensures r.Ok? ==> forall i :: 0 <= i < |specs| ==> Cidr.ParseCidr(specs[i], v6) == Some(r.value.networks[i])
    ensures r.Err? ==> exists i :: && 0 <= i < |specs| && Cidr.ParseCidr(specs[i], v6).None?
                                 && (forall j :: 0 <= j < i ==> Cidr.ParseCidr(specs[j], v6).Some?)
                                 && r.error == "cannot parse network CIDR " + specs[i]
  {
    var parser := CidrParser(v6);
    match ParseAll(specs, parser)
    case Ok(networks) =>
      assert forall i :: 0 <= i < |specs| ==> parser(specs[i]) == Cidr.ParseCidr(specs[i], v6);
      Ok(Gate(networks))
    case Err(k) =>
      assert parser(specs[k]) == Cidr.ParseCidr(specs[k], v6);
      assert forall j :: 0 <= j < k ==> parser(specs[j]) == Cidr.ParseCidr(specs[j], v6);
      Err("cannot parse network CIDR " + specs[k])
  }

  /**
   * The address from the headers. Both headers are scanned and a hit in
   * `X-Real-Ip` replaces one from `X-Forwarded-For`.
   */
  function ClientIp(r: Request, v6: V6Parser): Option<Addr> {
    var ip := RemoteAddr.FromHeader(r, RemoteAddr.ForwardedFor, v6);
    var found := RemoteAddr.FromHeader(r, RemoteAddr.RealIp, v6);
    if found.Some? then found else ip
  }

  /** Go's `%s` of an error that may be nil. */
  function ErrText(err: Option<HostPort.AddrError>): string {
    match err
    case Some(e) => HostPort.ErrorText(e)
    case None => "%!s(<nil>)"
  }

  function SplitMessage(remoteAddr: string, e: HostPort.AddrError): string {
    "cannot parse host:port from '" + remoteAddr + "', error: " + HostPort.ErrorText(e)
  }

  function ParseMessage(host: string, err: Option<HostPort.AddrError>): string {
    "cannot parse IP address " + host + ", error: " + ErrText(err)
  }

  /**
   * `cidr_protect.go` lines 56-65: with no address from the headers, the remote address is
   * split and parsed; each failure writes a 500 error and execution goes on.
   * On a split failure the host is empty, which does not parse either.
   */
  function Locate(w: Wrap.Writer, r: Request, v6: V6Parser): (res: (Wrap.Writer, Option<Addr>))
    ensures ClientIp(r, v6).Some? ==> res == (w, ClientIp(r, v6))
    ensures ClientIp(r, v6).None? && HostPort.SplitHostPort(r.remoteAddr).Ok? && ParseIp(HostPort.SplitHostPort(r.remoteAddr).value.host, v6).Some? ==>
      res == (w, ParseIp(HostPort.SplitHostPort(r.remoteAddr).value.host, v6))
    ensures Wrap.Depth(res.0) == Wrap.Depth(w)
  {
    match ClientIp(r, v6)
    case Some(a) => (w, Some(a))
    case None =>
      var split := HostPort.SplitHostPort(r.remoteAddr);
      var w1 := if split.Err? then Wrap.Error(w, SplitMessage(r.remoteAddr, split.error), 500) else w;
      var host := if split.Ok? then split.value.host else "";
      var err := if split.Err? then Some(split.error) else None;
      var ip := ParseIp(host, v6);
      (if ip.None? then Wrap.Error(w1, ParseMessage(host, err), 500) else w1, ip)
  }

  /** A missing address is never allowed; a loopback address always is; otherwise some network must contain it. */
  predicate Allowed(g: Gate, ip: Option<Addr>) {
    ip.Some? && (IsLoopback(ip.value) || exists j :: 0 <= j < |g.networks| && Cidr.Contains(g.networks[j], ip.value))
  }

  /** `cidr_protect.go` lines 66-72: loopback first, then the networks in order until one contains the address. */
  method IsAllowed(g: Gate, ip: Option<Addr>) returns (allowed: bool)
    ensures allowed <==> Allowed(g, ip)
  {
    allowed := ip.Some? && IsLoopback(ip.value);
    var k := 0;
    while k < |g.networks|
      invariant 0 <= k <= |g.networks|
      invariant allowed ==> Allowed(g, ip)
      invariant !allowed ==> ip.None? || (!IsLoopback(ip.value) && forall j :: 0 <= j < k ==> !Cidr.Contains(g.networks[j], ip.value))
    {
      if allowed {
        break;
      }
      allowed := ip.Some? && Cidr.Contains(g.networks[k], ip.value);
      k := k + 1;
    }
  }

  /** Everything before the inner handler: the writer so far, and whether the inner handler runs. */
  function Before(g: Gate, w: Wrap.Writer, r: Request, v6: V6Parser): (res: (Wrap.Writer, bool))
    ensures res.1 <==> Allowed(g, Locate(w, r, v6).1)
    ensures Wrap.Depth(res.0) == Wrap.Depth(w)
  {
    var (w1, ip) := Locate(w, r, v6);
    (w1, Allowed(g, ip))
  }

  /** `cidr_protect.go` line 77: the 401 response written after the inner handler, or instead of it. */
  function After(w: Wrap.Writer): (r: Wrap.Writer)
    ensures Wrap.Root(r).body == Wrap.Root(w).body + (if Wrap.Delivers(w) then "endpoint is protected\n" else [])
    ensures Wrap.Root(r).panicked == Wrap.Root(w).panicked
    ensures w.Base? && !Wrap.Root(w).panicked ==> Wrap.Root(r).status == Some(Wrap.Root(w).status.GetOr(401))
    ensures w.Counting? ==> r.Counting? && r.status == 401
    ensures w.Counting? && !Wrap.Root(w).panicked ==> Wrap.Root(r).status == Some(Wrap.Root(w).status.GetOr(200))
    ensures Wrap.Depth(r) == Wrap.Depth(w)
  {
    Wrap.Error(w, "endpoint is protected", 401)
  }

  /** `ServeHTTP` around an inner handler given as what it does to the writer. */
  function Serve(g: Gate, w: Wrap.Writer, r: Request, v6: V6Parser, inner: Wrap.Writer -> Wrap.Writer): Wrap.Writer {
    var (w1, pass) := Before(g, w, r, v6);
    After(if pass then inner(w1) else w1)
  }

  /** An acceptable `X-Real-Ip` entry decides, even when `X-Forwarded-For` has one too. */
  lemma RealIpOverwrites(r: Request, v6: V6Parser)
    ensures RemoteAddr.FromHeader(r, RemoteAddr.RealIp, v6).Some? ==> ClientIp(r, v6) == RemoteAddr.FromHeader(r, RemoteAddr.RealIp, v6)
    ensures RemoteAddr.FromHeader(r, RemoteAddr.RealIp, v6).None? ==> ClientIp(r, v6) == RemoteAddr.FromHeader(r, RemoteAddr.ForwardedFor, v6)
  {
  }

  /** When both headers yield an address, the gate and `GetRemoteAddr` pick different headers. */
  lemma PrecedenceDiffersFromGetRemoteAddr(r: Request, v6: V6Parser)
    requires RemoteAddr.FromHeader(r, RemoteAddr.ForwardedFor, v6).Some?
    requires RemoteAddr.FromHeader(r, RemoteAddr.RealIp, v6).Some?
    ensures RemoteAddr.Resolve(r, v6).ip == RemoteAddr.FromHeader(r, RemoteAddr.ForwardedFor, v6)
    ensures ClientIp(r, v6) == RemoteAddr.FromHeader(r, RemoteAddr.RealIp, v6)
  {
  }

  /** With no networks configured only loopback addresses pass. */
  lemma EmptyAllowList(ip: Option<Addr>)
    ensures Allowed(Gate([]), ip) <==> ip.Some? && IsLoopback(ip.value)
  {
  }

  /**
   * The inner handler runs exactly when the address is allowed: otherwise
   * the response does not depend on it.
   */
  lemma InnerRunsIffAllowed(g: Gate, w: Wrap.Writer, r: Request, v6: V6Parser, inner: Wrap.Writer -> Wrap.Writer, other: Wrap.Writer -> Wrap.Writer)
    ensures Allowed(g, Locate(w, r, v6).1) ==> Serve(g, w, r, v6, inner) == After(inner(Locate(w, r, v6).0))
    ensures !Allowed(g, Locate(w, r, v6).1) ==> Serve(g, w, r, v6, inner) == Serve(g, w, r, v6, other)
  {
  }

  /**
   * A client that connects directly from a loopback IPv4 address, with no
   * address headers, reaches the inner handler whatever networks are
   * allowed, and nothing is written before it.
   */
  lemma DirectLoopbackAllowed(g: Gate, w: Wrap.Writer, r: Request, o: Octets4, port: string, v6: V6Parser, inner: Wrap.Writer -> Wrap.Writer)
    requires r.header == map[]
    requires o[0] == 127
    requires ':' !in port && '[' !in port && ']' !in port
    requires r.remoteAddr == HostPort.JoinHostPort(FormatDottedQuad(o), port)
    ensures Locate(w, r, v6) == (w, Some(V4(o)))
    ensures Serve(g, w, r, v6, inner) == After(inner(w))
  {
    RemoteAddr.NoHeaders(r, v6);
    var host := FormatDottedQuad(o);
    RemoteAddr.DottedQuadIsPlainHost(o);
    HostPort.SplitJoinHostPort(host, port);
    ParseIpOfDottedQuad(o, v6);
    assert IsLoopback(V4(o));
  }

  /**
   * On the server's writer, an allowed request whose inner handler sent a
   * status keeps it; the protection message is appended to the body anyway,
   * and an inner handler that sent nothing leaves the response at 401.
   */
  lemma AllowedKeepsInnerStatus(g: Gate, w: Wrap.Writer, r: Request, v6: V6Parser, inner: Wrap.Writer -> Wrap.Writer)
    requires Allowed(g, Locate(w, r, v6).1)
    requires inner(Locate(w, r, v6).0).Base? && !Wrap.Root(inner(Locate(w, r, v6).0)).panicked
    ensures Wrap.Root(Serve(g, w, r, v6, inner)).status == Some(Wrap.Root(inner(Locate(w, r, v6).0)).status.GetOr(401))
    ensures Wrap.Root(Serve(g, w, r, v6, inner)).body ==
      Wrap.Root(inner(Locate(w, r, v6).0)).body + (if Wrap.Delivers(inner(Locate(w, r, v6).0)) then "endpoint is protected\n" else [])
  {
    var iw := inner(Locate(w, r, v6).0);
    assert Serve(g, w, r, v6, inner) == After(iw);
  }

  /** `ParseIP("")` is nil, so a failed split is followed by a failed parse. */
  lemma EmptyHostIsNotAddress(v6: V6Parser)
    ensures ParseIp("", v6) == None
  {
    assert FirstSeparator("") == None;
  }

  /** `cidr_protect.go` lines 57-64 when the split fails: two 500 errors, and no address. */
  lemma LocateSplitFailure(w: Wrap.Writer, r: Request, v6: V6Parser)
    requires ClientIp(r, v6).None? && HostPort.SplitHostPort(r.remoteAddr).Err?
    ensures var e := HostPort.SplitHostPort(r.remoteAddr).error;
      Locate(w, r, v6) == (Wrap.Error(Wrap.Error(w, SplitMessage(r.remoteAddr, e), 500), ParseMessage("", Some(e)), 500), None)
  {
    EmptyHostIsNotAddress(v6);
  }

  /**
   * A remote address that does not split, with no address from the headers,
   * gives two 500 errors on a fresh response, then the protection message;
   * the inner handler does not run and the status stays 500.
   */
  lemma SplitFailureFallsThrough(g: Gate, r: Request, v6: V6Parser, inner: Wrap.Writer -> Wrap.Writer)
    requires ClientIp(r, v6).None? && HostPort.SplitHostPort(r.remoteAddr).Err?
    ensures var e := HostPort.SplitHostPort(r.remoteAddr).error;
      && !Allowed(g, Locate(Wrap.Base(Wrap.Fresh), r, v6).1)
      && Wrap.Root(Serve(g, Wrap.Base(Wrap.Fresh), r, v6, inner)).status == Some(500)
      && Wrap.Root(Serve(g, Wrap.Base(Wrap.Fresh), r, v6, inner)).body ==
         SplitMessage(r.remoteAddr, e) + "\n" + ParseMessage("", Some(e)) + "\n" + "endpoint is protected\n"
  {
    var w := Wrap.Base(Wrap.Fresh);
    LocateSplitFailure(w, r, v6);
    var e := HostPort.SplitHostPort(r.remoteAddr).error;
    var w2 := Wrap.Error(Wrap.Error(w, SplitMessage(r.remoteAddr, e), 500), ParseMessage("", Some(e)), 500);
    assert !Allowed(g, None);
    assert Serve(g, w, r, v6, inner) == After(w2);
    TwoErrorsThenProtected(SplitMessage(r.remoteAddr, e), ParseMessage("", Some(e)));
  }

  /** The client's body after a split failure, as the two format strings and the protection message spell it. */
  lemma SplitFailureText(g: Gate, r: Request, v6: V6Parser, inner: Wrap.Writer -> Wrap.Writer)
    requires ClientIp(r, v6).None? && HostPort.SplitHostPort(r.remoteAddr).Err?
    ensures var t := HostPort.ErrorText(HostPort.SplitHostPort(r.remoteAddr).error);
      Wrap.Root(Serve(g, Wrap.Base(Wrap.Fresh), r, v6, inner)).body ==
        "cannot parse host:port from '" + r.remoteAddr + "', error: " + t + "\n"
        + ("cannot parse IP address , error: " + t) + "\n"
        + "endpoint is protected\n"
  {
    var e := HostPort.SplitHostPort(r.remoteAddr).error;
    var body := Wrap.Root(Serve(g, Wrap.Base(Wrap.Fresh), r, v6, inner)).body;
    SplitFailureFallsThrough(g, r, v6, inner);
    SplitFailureMessage(e);
    Respell(body, SplitMessage(r.remoteAddr, e), "cannot parse host:port from '" + r.remoteAddr + "', error: " + HostPort.ErrorText(e),
      ParseMessage("", Some(e)), "cannot parse IP address , error: " + HostPort.ErrorText(e));
  }

  /** Two messages and the protection text, each message replaced by an equal spelling. */
  lemma Respell(body: string, m1: string, t1: string, m2: string, t2: string)
    requires body == m1 + "\n" + m2 + "\n" + "endpoint is protected\n"
    requires m1 == t1 && m2 == t2
    ensures body == t1 + "\n" + t2 + "\n" + "endpoint is protected\n"
  {
  }

  /** A fresh response, one 500 error, then the protection message. */
  lemma OneErrorThenProtected(m: string)
    ensures var w := Wrap.Error(Wrap.Base(Wrap.Fresh), m, 500);
      && w.Base? && !Wrap.Root(w).panicked && Wrap.Root(w).status == Some(500) && Wrap.Root(w).body == m + "\n"
      && Wrap.Root(After(w)).status == Some(500)
      && Wrap.Root(After(w)).body == m + "\n" + "endpoint is protected\n"
  {
    Wrap.ErrorOnBase(Wrap.Base(Wrap.Fresh), m, 500);
  }

  /** A fresh response, two 500 errors, then the protection message. */
  lemma TwoErrorsThenProtected(m1: string, m2: string)
    ensures var w := Wrap.Error(Wrap.Error(Wrap.Base(Wrap.Fresh), m1, 500), m2, 500);
      && Wrap.Root(After(w)).status == Some(500)
      && Wrap.Root(After(w)).body == m1 + "\n" + m2 + "\n" + "endpoint is protected\n"
  {
    OneErrorThenProtected(m1);
    var w1 := Wrap.Error(Wrap.Base(Wrap.Fresh), m1, 500);
    Wrap.ErrorOnBase(w1, m2, 500);
  }

  /** The second message of a split failure names an empty host and the split error. */
  lemma SplitFailureMessage(e: HostPort.AddrError)
    ensures ParseMessage("", Some(e)) == "cannot parse IP address , error: " + HostPort.ErrorText(e)
  {
  }

  /** A host that does not parse is reported with a nil error, as the formatter renders it. */
  lemma NilErrorMessage(host: string)
    ensures ParseMessage(host, None) == "cannot parse IP address " + host + ", error: %!s(<nil>)"
  {
  }

  /** `cidr_protect.go` lines 57-64 when the host does not parse: one 500 error naming it, and no address. */
  lemma LocateBadHost(w: Wrap.Writer, r: Request, v6: V6Parser)
    requires ClientIp(r, v6).None? && HostPort.SplitHostPort(r.remoteAddr).Ok?
    requires ParseIp(HostPort.SplitHostPort(r.remoteAddr).value.host, v6).None?
    ensures Locate(w, r, v6) == (Wrap.Error(w, ParseMessage(HostPort.SplitHostPort(r.remoteAddr).value.host, None), 500), None)
  {
  }

  /**
   * A host that splits but does not parse gives one 500 error naming it,
   * with a nil error rendered by the formatter, then the protection message.
   */
  lemma BadHostFallsThrough(g: Gate, r: Request, v6: V6Parser, inner: Wrap.Writer -> Wrap.Writer)
    requires ClientIp(r, v6).None? && HostPort.SplitHostPort(r.remoteAddr).Ok?
    requires ParseIp(HostPort.SplitHostPort(r.remoteAddr).value.host, v6).None?
    ensures var host := HostPort.SplitHostPort(r.remoteAddr).value.host;
      && !Allowed(g, Locate(Wrap.Base(Wrap.Fresh), r, v6).1)
      && Wrap.Root(Serve(g, Wrap.Base(Wrap.Fresh), r, v6, inner)).status == Some(500)
      && Wrap.Root(Serve(g, Wrap.Base(Wrap.Fresh), r, v6, inner)).body ==
         ParseMessage(host, None) + "\n" + "endpoint is protected\n"
  {
    var w := Wrap.Base(Wrap.Fresh);
    LocateBadHost(w, r, v6);
    var host := HostPort.SplitHostPort(r.remoteAddr).value.host;
    var w1 := Wrap.Error(w, ParseMessage(host, None), 500);
    assert !Allowed(g, None);
    assert Serve(g, w, r, v6, inner) == After(w1);
    OneErrorThenProtected(ParseMessage(host, None));
  }

  /** The client's body for a host that does not parse, with the nil error spelled as the formatter does. */
  lemma BadHostText(g: Gate, r: Request, v6: V6Parser, inner: Wrap.Writer -> Wrap.Writer)
    requires ClientIp(r, v6).None? && HostPort.SplitHostPort(r.remoteAddr).Ok?
    requires ParseIp(HostPort.SplitHostPort(r.remoteAddr).value.host, v6).None?
    ensures Wrap.Root(Serve(g, Wrap.Base(Wrap.Fresh), r, v6, inner)).body ==
      "cannot parse IP address " + HostPort.SplitHostPort(r.remoteAddr).value.host + ", error: " + "%!s(<nil>)" + "\n" + "endpoint is protected\n"
  {
    var host := HostPort.SplitHostPort(r.remoteAddr).value.host;
    var body := Wrap.Root(Serve(g, Wrap.Base(Wrap.Fresh), r, v6, inner)).body;
    BadHostFallsThrough(g, r, v6, inner);
    NilErrorMessage(host);
    assert body == ParseMessage(host, None) + "\n" + "endpoint is protected\n";
  }

  const SharedSpace: Cidr.Network := Cidr.Net4([100, 64, 0, 0], 10)

  /** Membership in the shared address space `100.64.0.0/10` of RFC 6598: first octet 100, top two bits of the second 01. */
  lemma InSharedSpace(o: Octets4)
    ensures Cidr.Contains(SharedSpace, V4(o)) <==> o[0] == 100 && o[1] / 64 == 1
  {
    var b: Octets4 := [100, 64, 0, 0];
    assert Cidr.KeptBits(10, 0) == 8 && Cidr.KeptBits(10, 1) == 2 && Cidr.KeptBits(10, 2) == 0 && Cidr.KeptBits(10, 3) == 0;
    assert Cidr.MaskByte(b[1], 2) == 64;
    assert Cidr.MaskByte(o[1], 2) == o[1] / 64 * 64;
    assert Cidr.SamePrefix(b, o, 10) <==>
      && Cidr.MaskByte(b[0], 8) == Cidr.MaskByte(o[0], 8)
      && Cidr.MaskByte(b[1], 2) == Cidr.MaskByte(o[1], 2)
      && Cidr.MaskByte(b[2], 0) == Cidr.MaskByte(o[2], 0)
      && Cidr.MaskByte(b[3], 0) == Cidr.MaskByte(o[3], 0);
  }

  /** `100.108.113.29` lies in `100.64.0.0/10` and `8.8.4.4` does not. */
  lemma SharedSpaceExample()
    ensures Cidr.Contains(SharedSpace, V4([100, 108, 113, 29]))
    ensures !Cidr.Contains(SharedSpace, V4([8, 8, 4, 4]))
  {
    InSharedSpace([100, 108, 113, 29]);
    InSharedSpace([8, 8, 4, 4]);
  }
}

=== FILE: controller.dfy ===
/**
 * The REST `APIController`: its defaults and options, and the handler
 * `registerRoute` builds around a handler that may return an error:
 * `handleErrors` innermost, then the JSON content type, then metrics when
 * a meter is set, then tracing when a tracer is set, then the route's own
 * middlewares with the first one listed outermost.
 */
module Controller {
  import opened Wrappers
  import opened Http
  import Wrap
  import ApiError
  import opened Pipeline

  const DefaultSecret := "notAVerySecureSecret"

  /**
   * The controller's settings. The authenticator, meter and tracer are
   * interfaces in the source; only whether one is set (and which) matters
   * here, so each is an optional identity. The logger may be nil.
   */
  datatype Controller = Controller(
    secret: string,
    authn: Option<nat>,
    meter: Option<nat>,
    tracer: Option<nat>,
    logger: Option<Logger>)

  datatype ControllerOpt =
    | WithLogger(l: Option<Logger>)
    | WithMeter(m: Option<nat>)
    | WithTracer(t: Option<nat>)
    | WithAuthenticator(a: Option<nat>)
    | WithSecret(s: string)

  function Defaults(): (c: Controller)
    ensures c.secret == "notAVerySecureSecret"
    ensures c.authn.None? && c.meter.None? && c.tracer.None?
    ensures c.logger == Some(DefaultLogger)
  {
    Controller(DefaultSecret, None, None, None, Some(DefaultLogger))
  }

  /** One option: it sets its own field, as given (a nil logger stays nil), and no other. */
  function Apply(c: Controller, o: ControllerOpt): (r: Controller)
    ensures o.WithLogger? ==> r.logger == o.l
    ensures o.WithMeter? ==> r.meter == o.m
    ensures o.WithTracer? ==> r.tracer == o.t
    ensures o.WithAuthenticator? ==> r.authn == o.a
    ensures o.WithSecret? ==> r.secret == o.s
    ensures !o.WithLogger? ==> r.logger == c.logger
    ensures !o.WithMeter? ==> r.meter == c.meter
    ensures !o.WithTracer? ==> r.tracer == c.tracer
    ensures !o.WithAuthenticator? ==> r.authn == c.authn
    ensures !o.WithSecret? ==> r.secret == c.secret
  {
    match o
    case WithLogger(l) => c.(logger := l)
    case WithMeter(m) => c.(meter := m)
    case WithTracer(t) => c.(tracer := t)
    case WithAuthenticator(a) => c.(authn := a)
    case WithSecret(s) => c.(secret := s)
  }

  function ApplyAll(c: Controller, opts: seq<ControllerOpt>): Controller
    decreases |opts|
  {
    if |opts| == 0 then c else ApplyAll(Apply(c, opts[0]), opts[1..])
  }

  /** `NewAPIController(opts...)`. */
  function NewController(opts: seq<ControllerOpt>): Controller {
    ApplyAll(Defaults(), opts)
  }

  /** A later option overrides an earlier one for the same field. */
  lemma LaterMeterWins(c: Controller, m1: Option<nat>, m2: Option<nat>)
    ensures ApplyAll(c, [WithMeter(m1), WithMeter(m2)]) == c.(meter := m2)
  {
    var opts := [WithMeter(m1), WithMeter(m2)];
    assert opts[1..] == [WithMeter(m2)];
    assert ApplyAll(c, opts) == ApplyAll(c.(meter := m1), [WithMeter(m2)]);
    assert ApplyAll(c.(meter := m1), [WithMeter(m2)]) == ApplyAll(c.(meter := m2), []);
  }

  /** Options that do not touch the logger leave it as it was. */
  lemma {:induction false} LoggerKept(c: Controller, opts: seq<ControllerOpt>)
    requires forall i :: 0 <= i < |opts| ==> !opts[i].WithLogger?
    ensures ApplyAll(c, opts).logger == c.logger
    decreases |opts|
  {
    if |opts| > 0 {
      LoggerKept(Apply(c, opts[0]), opts[1..]);
    }
  }

  /**
   * The layers `registerRoute` puts around `handleErrors` before the
   * route's own middlewares: the JSON header, then metrics if a meter is
   * set, then tracing if a tracer is set.
   */
  function Instrumented(meter: bool, tracer: bool, pattern: string, app: App, logger: Option<Logger>): Handler {
    var h := Layer(JsonHeader, Leaf(WithErrors(app, logger)));
    var h := if meter then Layer(Metrics(pattern), h) else h;
    if tracer then Layer(Tracing(pattern), h) else h
  }

  /** The instrumented handler's layers, outermost first. */
  lemma InstrumentedLayers(meter: bool, tracer: bool, pattern: string, app: App, logger: Option<Logger>)
    ensures Layers(Instrumented(meter, tracer, pattern, app, logger)) ==
      (if tracer then ["otelhttp"] else []) + (if meter then ["metrics"] else []) + ["setJSONHeader"]
  {
    var h := Layer(JsonHeader, Leaf(WithErrors(app, logger)));
    assert Layers(h) == ["setJSONHeader"];
    var h' := if meter then Layer(Metrics(pattern), h) else h;
    assert Layers(h') == (if meter then ["metrics"] else []) + ["setJSONHeader"];
  }

  /** The handler `registerRoute` registers for a pattern: the route's middlewares, the first one outermost. */
  function Route(c: Controller, pattern: string, app: App, mws: seq<Middleware>): (h: Handler)
    ensures Layers(h) == Labels(mws) + Layers(Instrumented(c.meter.Some?, c.tracer.Some?, pattern, app, c.logger))
  {
    var core := Instrumented(c.meter.Some?, c.tracer.Some?, pattern, app, c.logger);
    LayersNest(mws, core);
    Nest(mws, core)
  }

  /** `registerRoute`'s loop, from the last middleware to the first. */
  method RegisterRoute(c: Controller, pattern: string, app: App, mws: seq<Middleware>) returns (h: Handler)
    ensures h == Route(c, pattern, app, mws)
    ensures |mws| > 0 ==> h.Layer? && h.mw == mws[0]
  {
    var core := Instrumented(c.meter.Some?, c.tracer.Some?, pattern, app, c.logger);
    h := core;
    var i := |mws|;
    while i > 0
      invariant 0 <= i <= |mws|
      invariant h == Nest(mws[i..], core)
      decreases i
    {
      i := i - 1;
      assert mws[i..][1..] == mws[i + 1..];
      h := Layer(mws[i], h);
    }
    assert mws[0..] == mws;
  }

  /** A writer handed through the tracing layer comes back as the layer underneath left it. */
  lemma TracingKeepsWriter(pattern: string, next: Handler, w: Wrap.Writer, r: Request)
    ensures Serve(Layer(Tracing(pattern), next), w, r).w == Serve(next, w, r).w
    ensures Serve(Layer(Tracing(pattern), next), w, r).logs == Serve(next, w, r).logs
    ensures Serve(Layer(Tracing(pattern), next), w, r).panicked == Serve(next, w, r).panicked
  {
  }

  /** The JSON header layer above an error-returning handler: the header first, then `handleErrors`. */
  lemma JsonOverErrors(app: App, logger: Option<Logger>, w: Wrap.Writer, r: Request)
    ensures Serve(Layer(JsonHeader, Leaf(WithErrors(app, logger))), w, r).w ==
      Run(WithErrors(app, logger), Wrap.SetHeader(w, ContentType, ApplicationJson)).w
    ensures Serve(Layer(JsonHeader, Leaf(WithErrors(app, logger))), w, r).logs ==
      Run(WithErrors(app, logger), Wrap.SetHeader(w, ContentType, ApplicationJson)).logs
    ensures Serve(Layer(JsonHeader, Leaf(WithErrors(app, logger))), w, r).panicked ==
      Run(WithErrors(app, logger), Wrap.SetHeader(w, ContentType, ApplicationJson)).panicked
  {
  }

  /** Without a meter and without route middlewares, the client sees what the JSON header layer wrote. */
  lemma UnmeteredRoute(c: Controller, pattern: string, app: App, r: Request)
    requires c.meter.None?
    ensures var o := Serve(Route(c, pattern, app, []), Wrap.Base(Wrap.Fresh), r);
      var i := Run(WithErrors(app, c.logger), Wrap.SetHeader(Wrap.Base(Wrap.Fresh), ContentType, ApplicationJson));
      o.w == i.w && o.logs == i.logs && o.panicked == i.panicked
  {
    var base := Layer(JsonHeader, Leaf(WithErrors(app, c.logger)));
    JsonOverErrors(app, c.logger, Wrap.Base(Wrap.Fresh), r);
    if c.tracer.Some? {
      TracingKeepsWriter(pattern, base, Wrap.Base(Wrap.Fresh), r);
    }
  }

  /** The headers an error response carries: `http.Error` replaces the JSON content type with plain text. */
  const ErrorHeaders := map["Content-Type" := "text/plain; charset=utf-8", "X-Content-Type-Options" := "nosniff"]

  /**
   * An error carrying an `apiError` on its chain: the error's text is
   * logged; an invalid status panics; otherwise the client gets that status
   * (200 after an informational one), the headers `http.Error` sets in
   * place of the JSON content type, and the marshalled error followed by a
   * newline unless the status forbids a body.
   */
  lemma ApiErrorReachesClient(c: Controller, pattern: string, e: ApiError.Error, a: ApiError.Error, r: Request)
    requires c.meter.None? && c.logger.Some?
    requires ApiError.As(e) == Some(a) && ApiError.ErrorString(a).Some?
    ensures var o := Serve(Route(c, pattern, App([], Some(e)), []), Wrap.Base(Wrap.Fresh), r);
      var s := if Wrap.Informational(a.status) then 200 else a.status;
      && o.logs == [ApiError.ErrorString(a).value]
      && (o.panicked <==> !Wrap.ValidCode(a.status))
      && (!o.panicked ==>
            Wrap.Root(o.w) == Wrap.Recorder(ErrorHeaders, Some(s), if Wrap.BodyAllowed(s) then ApiError.Marshal(a) + "\n" else "", false))
  {
    var o := Serve(Route(c, pattern, App([], Some(e)), []), Wrap.Base(Wrap.Fresh), r);
    var i := Run(WithErrors(App([], Some(e)), c.logger), JsonWriter);
    assert o.w == i.w && o.logs == i.logs && o.panicked == i.panicked by {
      UnmeteredRoute(c, pattern, App([], Some(e)), r);
      assert Wrap.SetHeader(Wrap.Base(Wrap.Fresh), ContentType, ApplicationJson) == JsonWriter;
    }
    var ew := Wrap.Error(JsonWriter, ApiError.Marshal(a), a.status);
    assert i == Outcome(ew, [Reached], [ApiError.ErrorString(a).value], Wrap.Root(ew).panicked) by {
      RunApiError(e, c.logger.value, JsonWriter);
    }
    ErrorAfterJsonHeader(ApiError.Marshal(a), a.status);
  }

  /** A fresh response after the JSON header layer. */
  const JsonWriter := Wrap.Base(Wrap.Recorder(map[ContentType := ApplicationJson], None, "", false))

  /**
   * `http.Error` after the JSON header layer: the JSON content type gives
   * way to plain text, an invalid code panics, and otherwise the text is
   * sent with the code (200 after an informational one) unless it forbids
   * a body.
   */
  lemma ErrorAfterJsonHeader(msg: string, code: int)
    ensures var w := Wrap.Error(JsonWriter, msg, code);
      var s := if Wrap.Informational(code) then 200 else code;
      && (Wrap.Root(w).panicked <==> !Wrap.ValidCode(code))
      && (Wrap.ValidCode(code) ==> Wrap.Root(w) == Wrap.Recorder(ErrorHeaders, Some(s), if Wrap.BodyAllowed(s) then msg + "\n" else "", false))
  {
    var h := Wrap.ErrorHeader(map[ContentType := ApplicationJson]);
    assert h.Keys == ErrorHeaders.Keys;
    assert h == ErrorHeaders;
  }

  /** The 500 answer after the JSON header layer. */
  lemma EmptyObjectAfterJsonHeader()
    ensures Wrap.Root(Wrap.Error(JsonWriter, "{}", 500)) == Wrap.Recorder(ErrorHeaders, Some(500), "{}\n", false)
  {
    ErrorAfterJsonHeader("{}", 500);
    assert Wrap.ValidCode(500) && !Wrap.Informational(500) && Wrap.BodyAllowed(500);
  }

  /**
   * Any other error, when every join inside it holds at least one error,
   * reaches the client as status 500 with the headers `http.Error` sets
   * and the body `{}` and a newline; its text is logged.
   */
  lemma OtherErrorReachesClient(c: Controller, pattern: string, e: ApiError.Error, r: Request)
    requires c.meter.None? && c.logger.Some?
    requires ApiError.As(e).None? && ApiError.NoEmptyJoin(e)
    ensures ApiError.ErrorString(e).Some?
    ensures var o := Serve(Route(c, pattern, App([], Some(e)), []), Wrap.Base(Wrap.Fresh), r);
      && Wrap.Root(o.w) == Wrap.Recorder(ErrorHeaders, Some(500), "{}\n", false)
      && o.logs == [ApiError.ErrorString(e).value]
      && !o.panicked
  {
    var o := Serve(Route(c, pattern, App([], Some(e)), []), Wrap.Base(Wrap.Fresh), r);
    var i := Run(WithErrors(App([], Some(e)), c.logger), JsonWriter);
    assert o.w == i.w && o.logs == i.logs && o.panicked == i.panicked by {
      UnmeteredRoute(c, pattern, App([], Some(e)), r);
      assert Wrap.SetHeader(Wrap.Base(Wrap.Fresh), ContentType, ApplicationJson) == JsonWriter;
    }
    ApiError.TextWithoutApi(e);
    assert i == Outcome(Wrap.Error(JsonWriter, "{}", 500), [Reached], [ApiError.ErrorString(e).value], false) by {
      assert Wrap.Replay(JsonWriter, []).0 == JsonWriter;
    }
    EmptyObjectAfterJsonHeader();
  }

  /**
   * A handler returning nil keeps exactly what it wrote, nothing is logged,
   * and it panics only by passing an invalid status code.
   */
  lemma NilErrorKeepsOutput(c: Controller, pattern: string, ops: seq<Wrap.Op>, r: Request)
    requires c.meter.None?
    ensures var o := Serve(Route(c, pattern, App(ops, None), []), Wrap.Base(Wrap.Fresh), r);
      && o.w == Wrap.Replay(Wrap.SetHeader(Wrap.Base(Wrap.Fresh), ContentType, ApplicationJson), ops).0
      && o.logs == []
      && o.panicked == Wrap.Root(o.w).panicked
      && (Wrap.ValidCodes(ops) ==> !o.panicked)
  {
    UnmeteredRoute(c, pattern, App(ops, None), r);
    Wrap.PanicsOnlyOnInvalidCode(Wrap.SetHeader(Wrap.Base(Wrap.Fresh), ContentType, ApplicationJson), ops);
  }

  /** With the logger set to nil, an error makes the handler panic when it tries to log. */
  lemma NilLoggerPanics(c: Controller, pattern: string, ops: seq<Wrap.Op>, e: ApiError.Error, r: Request)
    requires c.meter.None? && c.logger.None?
    ensures Serve(Route(c, pattern, App(ops, Some(e)), []), Wrap.Base(Wrap.Fresh), r).panicked
  {
    UnmeteredRoute(c, pattern, App(ops, Some(e)), r);
  }

  /**
   * With a meter set, the metrics layer's counting wrapper keeps the
   * error's `WriteHeader` to itself, so the client receives status 200
   * although the error's JSON body is written.
   */
  lemma MeteredApiErrorIsOk(c: Controller, pattern: string, e: ApiError.Error, a: ApiError.Error, r: Request)
    requires c.meter.Some? && c.tracer.None? && c.logger.Some?
    requires ApiError.As(e) == Some(a) && ApiError.ErrorString(a).Some?
    ensures var o := Serve(Route(c, pattern, App([], Some(e)), []), Wrap.Base(Wrap.Fresh), r);
      && Wrap.Root(o.w).status == Some(200)
      && Wrap.Root(o.w).body == ApiError.Marshal(a) + "\n"
  {
    var base := Layer(JsonHeader, Leaf(WithErrors(App([], Some(e)), c.logger)));
    assert Route(c, pattern, App([], Some(e)), []) == Layer(Metrics(pattern), base);
    MetricsOverApiError(pattern, e, a, c.logger.value, r);
  }

  /** The metrics layer around the JSON header and the error handler, for an endpoint failing with an `apiError`. */
  lemma MetricsOverApiError(pattern: string, e: ApiError.Error, a: ApiError.Error, logger: Logger, r: Request)
    requires ApiError.As(e) == Some(a) && ApiError.ErrorString(a).Some?
    ensures var o := Serve(Layer(Metrics(pattern), Layer(JsonHeader, Leaf(WithErrors(App([], Some(e)), Some(logger))))), Wrap.Base(Wrap.Fresh), r);
      && Wrap.Root(o.w).status == Some(200)
      && Wrap.Root(o.w).body == ApiError.Marshal(a) + "\n"
  {
    var app := App([], Some(e));
    var base := Layer(JsonHeader, Leaf(WithErrors(app, Some(logger))));
    var cw := Wrap.NewWrapper(Wrap.Base(Wrap.Fresh));
    var w1 := Wrap.SetHeader(cw, ContentType, ApplicationJson);
    var ew := Wrap.Error(w1, ApiError.Marshal(a), a.status);
    var o1 := Serve(base, cw, r);
    assert o1.w == ew && !o1.panicked by {
      JsonOverErrors(app, Some(logger), cw, r);
      RunApiError(e, logger, w1);
    }
    assert Wrap.Root(ew.inner).status == Some(200) && Wrap.Root(ew.inner).body == ApiError.Marshal(a) + "\n" by {
      Wrap.ErrorThroughCounting(w1, ApiError.Marshal(a), a.status);
      assert Wrap.Root(ew.inner) == Wrap.Root(ew);
    }
    ServeMetrics(pattern, base, Wrap.Base(Wrap.Fresh), r);
  }
}

=== FILE: hostport.dfy ===
/**
 * `net.SplitHostPort` and `net.JoinHostPort` of the Go library, which the
 * toolkit uses to take the host out of a request's remote address. An IPv6
 * host is written between brackets (section 3.2.2 of RFC 3986).
 */
module HostPort {
  import opened Wrappers
  import Text

  /** The reasons `net.SplitHostPort` gives for refusing an address. */
  datatype Reason = MissingPort | TooManyColons | MissingRBracket | UnexpectedLBracket | UnexpectedRBracket

  /** Go's `*net.AddrError`. */
  datatype AddrError = AddrError(reason: Reason, addr: string)

  datatype HostAndPort = HostAndPort(host: string, port: string)

  function ReasonText(r: Reason): string {
    match r
    case MissingPort => "missing port in address"
    case TooManyColons => "too many colons in address"
    case MissingRBracket => "missing ']' in address"
    case UnexpectedLBracket => "unexpected '[' in address"
    case UnexpectedRBracket => "unexpected ']' in address"
  }

  /** `AddrError.Error()`: the address is named in front of the reason when there is one. */
  function ErrorText(e: AddrError): string {
    if e.addr == "" then ReasonText(e.reason) else "address " + e.addr + ": " + ReasonText(e.reason)
  }

  /** The last checks: no bracket where none may appear, then the port after the last colon. */
  function CheckBrackets(hostport: string, host: string, j: nat, k: nat, i: nat): (r: Result<HostAndPort, AddrError>)
    requires j <= |hostport| && k <= |hostport| && i < |hostport|
    ensures r.Err? ==> r.error.addr == hostport
    ensures r.Ok? ==> r.value == HostAndPort(host, hostport[i + 1..])
    ensures r.Ok? ==> '[' !in hostport[j..] && ']' !in hostport[k..]
  {
    if '[' in hostport[j..] then Err(AddrError(UnexpectedLBracket, hostport))
    else if ']' in hostport[k..] then Err(AddrError(UnexpectedRBracket, hostport))
    else Ok(HostAndPort(host, hostport[i + 1..]))
  }

  /** The port of an accepted address is what follows its last colon. */
  predicate PortAfterLastColon(hostport: string, port: string) {
    && |port| < |hostport|
    && hostport[|hostport| - |port| - 1] == ':'
    && hostport[|hostport| - |port|..] == port
    && ':' !in port
  }

  /** An address starting with '[': the bracket must close right before the last colon. */
  function SplitBracketed(hostport: string, i: nat): (r: Result<HostAndPort, AddrError>)
    requires i < |hostport| && hostport[i] == ':' && ':' !in hostport[i + 1..]
    requires hostport[0] == '['
    ensures r.Err? ==> r.error.addr == hostport
    ensures r.Ok? ==> PortAfterLastColon(hostport, r.value.port)
    ensures r.Ok? ==> '[' !in r.value.host && ']' !in r.value.host
  {
    var end := Text.FirstIndex(hostport, ']');
    if end < 0 then Err(AddrError(MissingRBracket, hostport))
    else if end + 1 == |hostport| then Err(AddrError(MissingPort, hostport))
    else if end + 1 != i then
      if hostport[end + 1] == ':' then Err(AddrError(TooManyColons, hostport))
      else Err(AddrError(MissingPort, hostport))
    else
      var r := CheckBrackets(hostport, hostport[1..end], 1, end + 1, i);
      assert r.Ok? ==> hostport[1..end] == hostport[1..][..end - 1];
      r
  }

  /** An address not starting with '[': the host is everything before the last colon and may not hold one. */
  function SplitPlain(hostport: string, i: nat): (r: Result<HostAndPort, AddrError>)
    requires i < |hostport| && hostport[i] == ':' && ':' !in hostport[i + 1..]
    ensures r.Err? ==> r.error.addr == hostport
    ensures r.Ok? ==> PortAfterLastColon(hostport, r.value.port)
    ensures r.Ok? ==> '[' !in r.value.host && ']' !in r.value.host && ':' !in r.value.host
  {
    var host := hostport[..i];
    if ':' in host then Err(AddrError(TooManyColons, hostport))
    else
      var r := CheckBrackets(hostport, host, 0, 0, i);
      assert r.Ok? ==> hostport[0..] == hostport;
      r
  }

  /**
   * `net.SplitHostPort`: the port is what follows the last colon; a host in
   * brackets must close right before that colon; an unbracketed host may not
   * hold a colon; no stray bracket may appear.
   */
  function SplitHostPort(hostport: string): (r: Result<HostAndPort, AddrError>)
    ensures r.Err? ==> r.error.addr == hostport
    ensures ':' !in hostport ==> r == Err(AddrError(MissingPort, hostport))
    ensures r.Ok? ==> PortAfterLastColon(hostport, r.value.port)
    ensures r.Ok? ==> '[' !in r.value.host && ']' !in r.value.host
  {
    var i := Text.LastIndex(hostport, ':');
    if i < 0 then Err(AddrError(MissingPort, hostport))
    else if hostport[0] == '[' then SplitBracketed(hostport, i)
    else SplitPlain(hostport, i)
  }

  /** `net.JoinHostPort`: a host holding a colon is put between brackets. */
  function JoinHostPort(host: string, port: string): string {
    if ':' in host then "[" + host + "]:" + port else host + ":" + port
  }

  lemma SplitJoinPlain(host: string, port: string)
    requires '[' !in host && ']' !in host && ':' !in host
    requires ':' !in port && '[' !in port && ']' !in port
    ensures SplitHostPort(host + ":" + port) == Ok(HostAndPort(host, port))
  {
    var s := host + ":" + port;
    assert s == host + [':'] + port;
    Text.LastIndexOfJoin(host, ':', port);
    assert s[0] != '[' by {
      if |host| > 0 { assert s[0] == host[0]; } else { assert s[0] == ':'; }
    }
    assert s[..|host|] == host;
    assert s[|host| + 1..] == port;
    assert s[0..] == s;
    assert '[' !in s && ']' !in s;
  }

  lemma BracketedShape(host: string, port: string)
    ensures "[" + host + "]:" + port == ("[" + host + "]") + [':'] + port
    ensures "[" + host + "]:" + port == ("[" + host) + [']'] + (":" + port)
  {
  }

  lemma BracketedIndexes(host: string, port: string)
    requires ']' !in host && ':' !in port
    ensures Text.LastIndex("[" + host + "]:" + port, ':') == |host| + 2
    ensures Text.FirstIndex("[" + host + "]:" + port, ']') == |host| + 1
  {
    BracketedShape(host, port);
    Text.LastIndexOfJoin("[" + host + "]", ':', port);
    Text.FirstIndexOfJoin("[" + host, ']', ":" + port);
  }

  lemma BracketedChecks(host: string, port: string)
    requires '[' !in host && ']' !in host
    requires ':' !in port && '[' !in port && ']' !in port
    ensures var s := "[" + host + "]:" + port;
      CheckBrackets(s, s[1..|host| + 1], 1, |host| + 2, |host| + 2) == Ok(HostAndPort(host, port))
  {
    var s := "[" + host + "]:" + port;
    var n := |host|;
    assert s[1..n + 1] == host;
    assert s[1..] == host + "]:" + port;
    assert s[n + 2..] == ":" + port;
    assert s[n + 3..] == port;
  }

  lemma SplitJoinBracketed(host: string, port: string)
    requires '[' !in host && ']' !in host
    requires ':' !in port && '[' !in port && ']' !in port
    ensures SplitHostPort("[" + host + "]:" + port) == Ok(HostAndPort(host, port))
  {
    var s := "[" + host + "]:" + port;
    BracketedIndexes(host, port);
    BracketedChecks(host, port);
    assert s[0] == '[';
  }

  /** Splitting a joined address gives back its host and port, when neither holds a character the syntax reserves. */
  lemma SplitJoinHostPort(host: string, port: string)
    requires '[' !in host && ']' !in host
    requires ':' !in port && '[' !in port && ']' !in port
    ensures SplitHostPort(JoinHostPort(host, port)) == Ok(HostAndPort(host, port))
  {
    if ':' in host {
      SplitJoinBracketed(host, port);
    } else {
      SplitJoinPlain(host, port);
    }
  }
}

=== FILE: http.dfy ===
/** The parts of an incoming HTTP request that the toolkit reads. */
module Http {
  /**
   * A request. Header names are stored in their canonical form and each
   * header holds one value.
   */
  datatype Request = Request(verb: string, path: string, header: map<string, string>, remoteAddr: string)

  /** `Header.Get`: the value, or the empty string when the header is absent. */
  function HeaderGet(r: Request, key: string): string {
    if key in r.header then r.header[key] else ""
  }

  /** The same request with one header set. */
  function WithHeader(r: Request, key: string, value: string): Request {
    r.(header := r.header[key := value])
  }
}

=== FILE: ip.dfy ===
/**
 * Go's `net.IP` as the web toolkit uses it: parsing (`net.ParseIP`) and the
 * classification methods `IsLoopback`, `IsPrivate` and `IsGlobalUnicast`.
 * IPv4 dotted-quad parsing is concrete; IPv6 literal parsing is a parameter.
 */
module Ip {
  import opened Wrappers
  import Text

  type Byte = x: int | 0 <= x < 256
  type Octets4 = s: seq<Byte> | |s| == 4 witness [0, 0, 0, 0]
  type Octets16 = s: seq<Byte> | |s| == 16 witness [0, 0, 0, 0, 0, 0, 0, 0, 0, 0, 0, 0, 0, 0, 0, 0]

  /** A parsed address: 4 bytes for IPv4, 16 bytes for IPv6. A nil `net.IP` is `None`. */
  datatype Addr = V4(o4: Octets4) | V6(o16: Octets16)

  /** The IPv6 literal parser of the Go library (zones rejected), left abstract. */
  type V6Parser = string -> Option<Octets16>

  const Loopback6: Octets16 := [0, 0, 0, 0, 0, 0, 0, 0, 0, 0, 0, 0, 0, 0, 0, 1]
  const Unspecified6: Octets16 := [0, 0, 0, 0, 0, 0, 0, 0, 0, 0, 0, 0, 0, 0, 0, 0]

  /** The IPv4-mapped IPv6 form `::ffff:a.b.c.d`. */
  predicate IsV4Mapped(o: Octets16) {
    (forall k :: 0 <= k < 10 ==> o[k] == 0) && o[10] == 255 && o[11] == 255
  }

  /** Go's `To4` normalisation: an IPv4-mapped IPv6 address is treated as its IPv4 address. */
  function Unmap(a: Addr): (r: Addr)
    ensures r.V6? ==> !IsV4Mapped(r.o16)
    ensures a.V4? ==> r == a
  {
    if a.V6? && IsV4Mapped(a.o16) then V4(a.o16[12..]) else a
  }

  predicate IsLoopback(a: Addr) {
    match Unmap(a)
    case V4(o) => o[0] == 127
    case V6(o) => o == Loopback6
  }

  /** Section 3 of RFC 1918 for IPv4, section 3.1 of RFC 4193 for IPv6 (`o[0] & 0xfe == 0xfc`). */
  predicate IsPrivate(a: Addr) {
    match Unmap(a)
    case V4(o) => o[0] == 10 || (o[0] == 172 && o[1] / 16 == 1) || (o[0] == 192 && o[1] == 168)
    case V6(o) => o[0] / 2 == 0xfc / 2
  }

  predicate IsUnspecified(a: Addr) {
    match Unmap(a)
    case V4(o) => o == [0, 0, 0, 0]
    case V6(o) => o == Unspecified6
  }

  /** `224.0.0.0/4` (`o[0] & 0xf0 == 0xe0`) and `ff00::/8`. */
  predicate IsMulticast(a: Addr) {
    match Unmap(a)
    case V4(o) => o[0] / 16 == 0xe
    case V6(o) => o[0] == 0xff
  }

  /** `169.254.0.0/16` and `fe80::/10` (`o[1] & 0xc0 == 0x80`). */
  predicate IsLinkLocalUnicast(a: Addr) {
    match Unmap(a)
    case V4(o) => o[0] == 169 && o[1] == 254
    case V6(o) => o[0] == 0xfe && o[1] / 64 == 2
  }

  predicate IsBroadcast(a: Addr) {
    Unmap(a) == V4([255, 255, 255, 255])
  }

  /** Go's `IsGlobalUnicast`: none of the special-purpose classes above. */
  predicate IsGlobalUnicast(a: Addr) {
    && !IsBroadcast(a)
    && !IsUnspecified(a)
    && !IsLoopback(a)
    && !IsMulticast(a)
    && !IsLinkLocalUnicast(a)
  }

  /** One field of a dotted quad: decimal digits, no superfluous leading zero, at most 255. */
  predicate ValidOctetText(f: string) {
    && 1 <= |f|
    && Text.AllDigits(f)
    && (|f| > 1 ==> f[0] != '0')
    && Text.DecimalValue(f) <= 255
  }

  /** The dotted-quad parser of the Go library: exactly four valid fields separated by '.'. */
  function ParseDottedQuad(s: string): Option<Octets4> {
    var fields := Text.Split(s, '.');
    if |fields| == 4 && forall k :: 0 <= k < 4 ==> ValidOctetText(fields[k]) then
      Some([Text.DecimalValue(fields[0]), Text.DecimalValue(fields[1]),
            Text.DecimalValue(fields[2]), Text.DecimalValue(fields[3])])
    else
      None
  }

  /** The canonical dotted-quad text of an IPv4 address. */
  function FormatDottedQuad(o: Octets4): string {
    Text.Join([Text.NatToString(o[0]), Text.NatToString(o[1]), Text.NatToString(o[2]), Text.NatToString(o[3])], '.')
  }

  /** The canonical text of one octet is a valid dotted-quad field with that value. */
  lemma OctetTextValid(x: Byte)
    ensures ValidOctetText(Text.NatToString(x))
    ensures Text.DecimalValue(Text.NatToString(x)) == x
    ensures '.' !in Text.NatToString(x)
  {
    Text.DecimalValueOfNatToString(x);
    NoSeparatorInDigits(Text.NatToString(x));
  }

  /** Four valid dot-free fields joined with '.' parse to their values. */
  lemma ParseJoinedFields(fields: seq<string>)
    requires |fields| == 4
    requires ValidOctetText(fields[0]) && ValidOctetText(fields[1]) && ValidOctetText(fields[2]) && ValidOctetText(fields[3])
    requires forall k :: 0 <= k < 4 ==> '.' !in fields[k]
    ensures ParseDottedQuad(Text.Join(fields, '.')) ==
      Some([Text.DecimalValue(fields[0]), Text.DecimalValue(fields[1]),
            Text.DecimalValue(fields[2]), Text.DecimalValue(fields[3])])
  {
    Text.SplitJoin(fields, '.');
  }

  /** Parsing the canonical text of an address gives the address back. */
  lemma ParseFormatDottedQuad(o: Octets4)
    ensures ParseDottedQuad(FormatDottedQuad(o)) == Some(o)
  {
    var parts := [Text.NatToString(o[0]), Text.NatToString(o[1]), Text.NatToString(o[2]), Text.NatToString(o[3])];
    OctetTextValid(o[0]);
    OctetTextValid(o[1]);
    OctetTextValid(o[2]);
    OctetTextValid(o[3]);
    assert FormatDottedQuad(o) == Text.Join(parts, '.');
    ParseJoinedFields(parts);
    var v := [Text.DecimalValue(parts[0]), Text.DecimalValue(parts[1]), Text.DecimalValue(parts[2]), Text.DecimalValue(parts[3])];
    assert v == o;
  }

  /** A text the parser accepts is the canonical text of what it parsed to. */
  lemma FormatParseDottedQuad(s: string)
    requires ParseDottedQuad(s).Some?
    ensures FormatDottedQuad(ParseDottedQuad(s).value) == s
  {
    var fields := Text.Split(s, '.');
    assert fields == [fields[0], fields[1], fields[2], fields[3]];
    forall k | 0 <= k < 4
      ensures Text.NatToString(Text.DecimalValue(fields[k])) == fields[k]
    {
      Text.NatToStringOfDecimalValue(fields[k]);
    }
  }

  /** The first character among '.', ':' and '%', which decides how Go parses an address literal. */
  function FirstSeparator(s: string): (r: Option<char>)
    ensures r.Some? ==> r.value in {'.', ':', '%'} && r.value in s
    ensures r.None? ==> '.' !in s && ':' !in s && '%' !in s
  {
    if |s| == 0 then None
    else if s[0] in {'.', ':', '%'} then Some(s[0])
    else
      var r := FirstSeparator(s[1..]);
      assert s == [s[0]] + s[1..];
      r
  }

  /**
   * `netip.ParseAddr` with zones refused: the first '.' selects the IPv4
   * parser, the first ':' the IPv6 parser, anything else fails. The IPv6
   * result is kept as written, IPv4-mapped or not.
   */
  function ParseLiteral(s: string, v6: V6Parser): (r: Option<Addr>)
    ensures r.Some? && r.value.V4? ==> '.' in s
    ensures r.Some? && r.value.V6? ==> ':' in s
  {
    match FirstSeparator(s)
    case Some(c) =>
      if c == '.' then
        match ParseDottedQuad(s)
        case Some(o) => Some(V4(o))
        case None => None
      else if c == ':' then
        match v6(s)
        case Some(o) => Some(V6(o))
        case None => None
      else None
    case None => None
  }

  /** `net.ParseIP`: an address, or `None` for a text that is not one. */
  function ParseIp(s: string, v6: V6Parser): (r: Option<Addr>)
    ensures r.Some? ==> Unmap(r.value) == r.value
    ensures r.Some? <==> ParseLiteral(s, v6).Some?
  {
    match ParseLiteral(s, v6)
    case Some(a) => Some(Unmap(a))
    case None => None
  }

  /** The canonical text of an IPv4 address parses back to it, whatever the IPv6 parser. */
  lemma ParseIpOfDottedQuad(o: Octets4, v6: V6Parser)
    ensures ParseIp(FormatDottedQuad(o), v6) == Some(V4(o))
  {
    var s := FormatDottedQuad(o);
    ParseFormatDottedQuad(o);
    var parts := [Text.NatToString(o[0]), Text.NatToString(o[1]), Text.NatToString(o[2]), Text.NatToString(o[3])];
    NoSeparatorInDigits(parts[0]);
    assert s == parts[0] + ['.'] + Text.Join(parts[1..], '.');
    FirstSeparatorAfterDigits(parts[0], Text.Join(parts[1..], '.'));
  }

  lemma NoSeparatorInDigits(d: string)
    requires Text.AllDigits(d)
    ensures '.' !in d && ':' !in d && '%' !in d
  {
  }

  lemma {:induction false} FirstSeparatorAfterDigits(d: string, rest: string)
    requires Text.AllDigits(d)
    ensures FirstSeparator(d + ['.'] + rest) == Some('.')
    decreases |d|
  {
    if |d| > 0 {
      assert (d + ['.'] + rest)[1..] == d[1..] + ['.'] + rest;
      FirstSeparatorAfterDigits(d[1..], rest);
    }
  }
}

=== FILE: json.dfy ===
/**
 * JSON string quoting as Go's `encoding/json` performs it when it marshals a
 * string with HTML escaping on (the default of `json.Marshal`), and a
 * decoder for the escapes it produces.
 */
module Json {
  import opened Wrappers

  function HexDigit(d: nat): (c: char)
    requires d < 16
    ensures '0' <= c <= '9' || 'a' <= c <= 'f'
  {
    "0123456789abcdef"[d]
  }

  function HexValue(c: char): Option<nat> {
    if '0' <= c <= '9' then Some(c as int - '0' as int)
    else if 'a' <= c <= 'f' then Some(c as int - 'a' as int + 10)
    else if 'A' <= c <= 'F' then Some(c as int - 'A' as int + 10)
    else None
  }

  /** The characters written as `\uXXXX`: other control characters, the HTML-significant `<`, `>`, `&`, and the two line separators. */
  predicate NeedsUnicodeEscape(c: char) {
    (c < ' ' && c !in "\n\r\t\U{0008}\U{000C}") || c == '<' || c == '>' || c == '&' || c == '\U{2028}' || c == '\U{2029}'
  }

  /** `\u` and four lower-case hex digits of a code point below 0x10000. */
  function UnicodeEscape(n: nat): (r: string)
    requires n < 0x10000
    ensures |r| == 6
  {
    "\\u" + [HexDigit(n / 16 / 16 / 16), HexDigit(n / 16 / 16 % 16), HexDigit(n / 16 % 16), HexDigit(n % 16)]
  }

  /** The letter of the two-character escape Go writes for a character, if it has one. */
  function ShortCode(c: char): (r: Option<char>)
    ensures r.Some? ==> ShortEscape(r.value) == Some(c)
  {
    if c == '"' then Some('"')
    else if c == '\\' then Some('\\')
    else if c == '\n' then Some('n')
    else if c == '\r' then Some('r')
    else if c == '\t' then Some('t')
    else if c == '\U{0008}' then Some('b')
    else if c == '\U{000C}' then Some('f')
    else None
  }

  /** How one character appears inside a quoted JSON string. */
  function EscapeChar(c: char): (r: string)
    ensures |r| >= 1
    ensures r[0] == '\\' || (|r| == 1 && r[0] == c && c != '"')
  {
    if ShortCode(c).Some? then ['\\', ShortCode(c).value]
    else if NeedsUnicodeEscape(c) then UnicodeEscape(c as int)
    else [c]
  }

  /** The characters of a string, each escaped, without the surrounding quotes. */
  function QuoteBody(s: string): (r: string)
    ensures |r| >= |s|
  {
    if |s| == 0 then [] else EscapeChar(s[0]) + QuoteBody(s[1..])
  }

  /** A string as a JSON string literal. */
  function Quote(s: string): string {
    "\"" + QuoteBody(s) + "\""
  }

  /** The value of four hex digits. */
  function Hex4(t: string): Option<nat>
    requires |t| == 4
  {
    match (HexValue(t[0]), HexValue(t[1]), HexValue(t[2]), HexValue(t[3]))
    case (Some(a), Some(b), Some(c), Some(d)) => Some(((a * 16 + b) * 16 + c) * 16 + d)
    case _ => None
  }

  /** The character a one-letter escape stands for. */
  function ShortEscape(c: char): Option<char> {
    if c == '"' then Some('"')
    else if c == '\\' then Some('\\')
    else if c == '/' then Some('/')
    else if c == 'n' then Some('\n')
    else if c == 'r' then Some('\r')
    else if c == 't' then Some('\t')
    else if c == 'b' then Some('\U{0008}')
    else if c == 'f' then Some('\U{000C}')
    else None
  }

  /**
   * Reads the inside of a JSON string literal up to its unescaped closing
   * quote: the decoded text and what follows the quote.
   */
  function DecodeString(t: string): (r: Option<(string, string)>)
    ensures r.Some? ==> |r.value.1| < |t|
    decreases |t|
  {
    if |t| == 0 then None
    else if t[0] == '"' then Some(([], t[1..]))
    else if t[0] != '\\' then
      match DecodeString(t[1..])
      case Some((v, rest)) => Some(([t[0]] + v, rest))
      case None => None
    else if |t| >= 2 && ShortEscape(t[1]).Some? then
      match DecodeString(t[2..])
      case Some((v, rest)) => Some(([ShortEscape(t[1]).value] + v, rest))
      case None => None
    else if |t| >= 6 && t[1] == 'u' && Hex4(t[2..6]).Some? && (Hex4(t[2..6]).value < 0xD800 || Hex4(t[2..6]).value >= 0xE000) then
      match DecodeString(t[6..])
      case Some((v, rest)) => Some(([Hex4(t[2..6]).value as char] + v, rest))
      case None => None
    else None
  }

  lemma HexDigitValue(d: nat)
    requires d < 16
    ensures HexValue(HexDigit(d)) == Some(d)
  {
  }

  lemma UnicodeEscapeDecodes(n: nat)
    requires n < 0x10000
    ensures Hex4(UnicodeEscape(n)[2..6]) == Some(n)
  {
    var q1 := n / 16;
    var q2 := q1 / 16;
    var q3 := q2 / 16;
    assert n == q1 * 16 + n % 16;
    assert q1 == q2 * 16 + q1 % 16;
    assert q2 == q3 * 16 + q2 % 16;
    assert q3 < 16;
    var t := UnicodeEscape(n)[2..6];
    assert t == [HexDigit(q3), HexDigit(q2 % 16), HexDigit(q1 % 16), HexDigit(n % 16)];
    HexDigitValue(q3);
    HexDigitValue(q2 % 16);
    HexDigitValue(q1 % 16);
    HexDigitValue(n % 16);
  }

  /** The decoded text with one more character in front. */
  function Prepend(c: char, d: Option<(string, string)>): Option<(string, string)> {
    match d
    case Some((v, rest)) => Some(([c] + v, rest))
    case None => None
  }

  /** One step of `DecodeString` over a `\u` escape. */
  lemma DecodeUnicodeStep(u: string, n: nat)
    requires |u| >= 6 && u[0] == '\\' && u[1] == 'u'
    requires Hex4(u[2..6]) == Some(n) && (n < 0xD800 || 0xE000 <= n < 0x110000)
    ensures DecodeString(u) == Prepend(n as char, DecodeString(u[6..]))
  {
    assert ShortEscape(u[1]).None?;
  }

  lemma UnicodeEscapeCharDecodes(c: char, t: string)
    requires NeedsUnicodeEscape(c)
    ensures DecodeString(UnicodeEscape(c as int) + t) == Prepend(c, DecodeString(t))
  {
    var e := UnicodeEscape(c as int);
    var u := e + t;
    UnicodeEscapeDecodes(c as int);
    assert u[0] == '\\' && u[1] == 'u';
    assert u[2..6] == e[2..6];
    assert u[6..] == t;
    DecodeUnicodeStep(u, c as int);
  }

  lemma ShortEscapeDecodes(c: char, t: string)
    requires ShortCode(c).Some?
    ensures DecodeString(['\\', ShortCode(c).value] + t) == Prepend(c, DecodeString(t))
  {
    var u := ['\\', ShortCode(c).value] + t;
    assert u[2..] == t;
  }

  lemma PlainDecodes(c: char, t: string)
    requires c != '"' && c != '\\'
    ensures DecodeString([c] + t) == Prepend(c, DecodeString(t))
  {
    assert ([c] + t)[1..] == t;
  }

  /** Decoding one escaped character followed by more input reads the character back and goes on. */
  lemma EscapeCharDecodes(c: char, t: string)
    ensures DecodeString(EscapeChar(c) + t) == Prepend(c, DecodeString(t))
  {
    if ShortCode(c).Some? {
      ShortEscapeDecodes(c, t);
    } else if NeedsUnicodeEscape(c) {
      assert EscapeChar(c) == UnicodeEscape(c as int);
      UnicodeEscapeCharDecodes(c, t);
    } else {
      assert EscapeChar(c) == [c];
      PlainDecodes(c, t);
    }
  }

  /** The quoted body of any string, followed by the closing quote, decodes to the string. */
  lemma {:induction false} DecodeQuoteBody(s: string, rest: string)
    ensures DecodeString(QuoteBody(s) + "\"" + rest) == Some((s, rest))
    decreases |s|
  {
    if |s| == 0 {
      assert QuoteBody(s) + "\"" + rest == "\"" + rest;
    } else {
      DecodeQuoteBody(s[1..], rest);
      assert QuoteBody(s) + "\"" + rest == EscapeChar(s[0]) + (QuoteBody(s[1..]) + "\"" + rest);
      EscapeCharDecodes(s[0], QuoteBody(s[1..]) + "\"" + rest);
      assert [s[0]] + s[1..] == s;
    }
  }

  /** A quoted string is read back by skipping its opening quote and decoding. */
  lemma QuoteRoundTrip(s: string, rest: string)
    ensures |Quote(s)| >= 2 && Quote(s)[0] == '"'
    ensures DecodeString((Quote(s) + rest)[1..]) == Some((s, rest))
  {
    DecodeQuoteBody(s, rest);
    assert (Quote(s) + rest)[1..] == QuoteBody(s) + "\"" + rest;
  }

  /** No HTML-significant character appears in the escaped form of a character. */
  lemma EscapeCharSafe(c: char)
    ensures forall k :: 0 <= k < |EscapeChar(c)| ==> EscapeChar(c)[k] !in "<>&"
  {
    if ShortCode(c).None? && NeedsUnicodeEscape(c) {
      var e := UnicodeEscape(c as int);
      assert forall k :: 2 <= k < 6 ==> '0' <= e[k] <= '9' || 'a' <= e[k] <= 'f';
    }
  }

  /** No HTML-significant character appears unescaped in a quoted body. */
  lemma {:induction false} QuoteBodySafe(s: string)
    ensures forall k :: 0 <= k < |QuoteBody(s)| ==> QuoteBody(s)[k] !in "<>&"
    decreases |s|
  {
    if |s| > 0 {
      QuoteBodySafe(s[1..]);
      EscapeCharSafe(s[0]);
      var e := EscapeChar(s[0]);
      var b := QuoteBody(s[1..]);
      assert QuoteBody(s) == e + b;
      assert forall k :: 0 <= k < |e| + |b| ==> (e + b)[k] == if k < |e| then e[k] else b[k - |e|];
    }
  }

  /** A character `Quote` writes as itself. */
  predicate Plain(c: char) {
    ' ' <= c && c != '"' && c != '\\' && !NeedsUnicodeEscape(c)
  }

  /** A string of plain characters is quoted unchanged. */
  lemma {:induction false} QuoteBodyPlain(s: string)
    requires forall k :: 0 <= k < |s| ==> Plain(s[k])
    ensures QuoteBody(s) == s
    decreases |s|
  {
    if |s| > 0 {
      QuoteBodyPlain(s[1..]);
      assert s == [s[0]] + s[1..];
    }
  }
}

=== FILE: jwt.dfy ===
/**
 * `JWTAuthMiddleware`: the `Authorization` header must be present, must look
 * like "scheme token", and its second space-separated field must verify as
 * a JSON Web Token; otherwise a 401 or 400 response is written instead of
 * calling the inner handler. Signature and claims checking belongs to a
 * library and is a parameter here.
 */
module Jwt {
  import Text
  import opened Http

  const Authorization: string := "Authorization"

  /** `\s` of Go's regular expressions: tab, newline, form feed, carriage return, space. */
  predicate IsRegexSpace(c: char) {
    c == '\t' || c == '\n' || c == '\U{000C}' || c == '\r' || c == ' '
  }

  /**
   * Somewhere in `s`, a non-empty run of non-space characters, one space
   * character, and one non-space character: a match of the unanchored
   * pattern `[^\s]+\s[^\s]`.
   */
  ghost predicate RegexMatch(s: string) {
    exists i, j :: MatchAt(s, i, j)
  }

  /** `s[i..j]` is a non-empty run of non-space characters, `s[j]` a space character, `s[j + 1]` not. */
  predicate MatchAt(s: string, i: int, j: int) {
    && 0 <= i < j && j + 1 < |s|
    && (forall m :: i <= m < j ==> !IsRegexSpace(s[m]))
    && IsRegexSpace(s[j]) && !IsRegexSpace(s[j + 1])
  }

  /** A space character at `j` with a non-space character on each side. */
  predicate SpaceBetween(s: string, j: int) {
    1 <= j && j + 1 < |s| && !IsRegexSpace(s[j - 1]) && IsRegexSpace(s[j]) && !IsRegexSpace(s[j + 1])
  }

  /** Some space character sits between two non-space characters. */
  predicate HasSpaceBetween(s: string) {
    exists j :: 1 <= j < |s| && SpaceBetween(s, j)
  }

  /** The pattern matches exactly when some space character sits between two non-space characters. */
  lemma RegexMatchIffSpaceBetween(s: string)
    ensures RegexMatch(s) <==> HasSpaceBetween(s)
  {
    if RegexMatch(s) {
      var i, j :| MatchAt(s, i, j);
      assert SpaceBetween(s, j);
    }
    if HasSpaceBetween(s) {
      var j :| 1 <= j < |s| && SpaceBetween(s, j);
      assert MatchAt(s, j - 1, j);
    }
  }

  /** `authHeaderRegex.Match`: a scan for a space character between two non-space characters. */
  method MatchAuthHeader(s: string) returns (matched: bool)
    ensures matched <==> RegexMatch(s)
  {
    RegexMatchIffSpaceBetween(s);
    var j := 1;
    while j + 1 < |s|
      invariant 1 <= j
      invariant forall k :: 1 <= k < j ==> !SpaceBetween(s, k)
    {
      if !IsRegexSpace(s[j - 1]) && IsRegexSpace(s[j]) && !IsRegexSpace(s[j + 1]) {
        assert SpaceBetween(s, j);
        return true;
      }
      j := j + 1;
    }
    return false;
  }

  /** The error kinds the library reports, as `errors.Is` sees them. */
  datatype ErrKind = SignatureInvalid | TokenExpired | TokenNotValidYet | TokenMalformed | OtherKind

  /** What the library's parser says of a token: an error of some kinds with its text, or a parsed token. */
  datatype Verdict = Rejected(kinds: set<ErrKind>, text: string) | Parsed(valid: bool)

  /** The library's `ParseWithClaims` with the configured secret key. */
  type Verifier = string -> Verdict

  /** What the middleware does with a request. */
  datatype Outcome = Deny(code: int, msg: string) | Pass | Panic

  /** The verdict kinds answered with 401 rather than 400. */
  predicate Unauthorized(kinds: set<ErrKind>) {
    SignatureInvalid in kinds || TokenExpired in kinds || TokenNotValidYet in kinds
  }

  /**
   * `strings.Split(header, " ")[1]`: the second space-separated field, when
   * there is one.
   */
  function TokenField(header: string): (t: string)
    requires ' ' in header
    ensures ' ' !in t
  {
    SecondFieldExists(header, ' ');
    Text.Split(header, ' ')[1]
  }

  /**
   * The handler's decision from the header value. A header that matches the
   * pattern but holds no plain space (a tab, say) has no second field, and
   * the indexing panics.
   */
  function Decide(header: string, verify: Verifier): (o: Outcome)
    ensures o == Pass <==> header != "" && RegexMatch(header) && ' ' in header && verify(TokenField(header)) == Parsed(true)
    ensures o == Panic <==> header != "" && RegexMatch(header) && ' ' !in header
    ensures o.Deny? ==> o.code == 401 || o.code == 400
    ensures header == "" ==> o == Deny(401, "authentication required")
    ensures header != "" && !RegexMatch(header) ==> o == Deny(400, "header authorization not containing a bearer token")
    ensures header != "" && RegexMatch(header) && ' ' in header && verify(TokenField(header)) == Parsed(false) ==>
      o == Deny(401, "invalid token")
  {
    RegexMatchIffSpaceBetween(header);
    if header == "" then Deny(401, "authentication required")
    else if !HasSpaceBetween(header) then Deny(400, "header authorization not containing a bearer token")
    else if ' ' !in header then Panic
    else
      match verify(TokenField(header))
      case Rejected(kinds, text) => if Unauthorized(kinds) then Deny(401, text) else Deny(400, text)
      case Parsed(valid) => if valid then Pass else Deny(401, "invalid token")
  }

  /** The split has a second field exactly when the separator occurs. */
  lemma SecondFieldExists(s: string, sep: char)
    ensures |Text.Split(s, sep)| >= 2 <==> sep in s
  {
    var parts := Text.Split(s, sep);
    if |parts| == 1 {
      assert Text.Join(parts, sep) == parts[0];
    } else {
      var tail := Text.Join(parts[1..], sep);
      assert s == parts[0] + [sep] + tail;
      assert s[|parts[0]|] == sep;
    }
  }

  /** Verification errors map to 401 for a bad signature or validity window and to 400 for anything else. */
  lemma RejectionStatus(header: string, verify: Verifier)
    requires header != "" && RegexMatch(header) && ' ' in header
    requires verify(TokenField(header)).Rejected?
    ensures var v := verify(TokenField(header));
      Decide(header, verify) == Deny(if Unauthorized(v.kinds) then 401 else 400, v.text)
  {
    RegexMatchIffSpaceBetween(header);
  }

  /** The scheme word is never looked at: any first field followed by a valid token passes. */
  lemma SchemeIgnored(scheme: string, token: string, verify: Verifier)
    requires scheme != [] && ' ' !in scheme && ' ' !in token && token != []
    requires !IsRegexSpace(scheme[|scheme| - 1]) && !IsRegexSpace(token[0])
    requires verify(token) == Parsed(true)
    ensures Decide(scheme + " " + token, verify) == Pass
  {
    var h := scheme + " " + token;
    assert h == scheme + [' '] + token;
    assert SpaceBetween(h, |scheme|);
    RegexMatchIffSpaceBetween(h);
    Text.SplitJoin([scheme, token], ' ');
    assert Text.Join([scheme, token], ' ') == h;
  }

  /** `Bearer<TAB>token` passes the pattern but has no second field: the handler panics. */
  lemma TabSeparatorPanics(verify: Verifier)
    ensures Decide("Bearer\tx", verify) == Panic
  {
    var h := "Bearer\tx";
    assert |h| == 8 && h[5] == 'r' && h[6] == '\t' && h[7] == 'x';
    assert SpaceBetween(h, 6);
    assert ' ' !in h by {
      assert forall k :: 0 <= k < 8 ==> h[k] != ' ';
    }
    RegexMatchIffSpaceBetween(h);
  }

  /** A header with no space character at all, such as `BadlyFormattedHeader`, is a 400. */
  lemma NoSpaceIsBadRequest(header: string, verify: Verifier)
    requires header != "" && forall k :: 0 <= k < |header| ==> !IsRegexSpace(header[k])
    ensures Decide(header, verify) == Deny(400, "header authorization not containing a bearer token")
  {
    RegexMatchIffSpaceBetween(header);
  }

  /** The request is handled by this middleware with its own header. */
  function DecideRequest(r: Request, verify: Verifier): Outcome {
    Decide(HeaderGet(r, Authorization), verify)
  }

  /** A request without the header is a 401, whatever the verifier. */
  lemma MissingHeader(r: Request, verify: Verifier)
    requires Authorization !in r.header
    ensures DecideRequest(r, verify) == Deny(401, "authentication required")
  {
  }
}

=== FILE: pipeline.dfy ===
/**
 * Handlers built from layers of middleware around an endpoint, as the web
 * toolkit and the REST controllers assemble them, and what serving a
 * request through such a stack does: the response written, the order in
 * which the layers ran, the lines logged, and whether a panic escaped.
 */
module Pipeline {
  import opened Wrappers
  import opened Http
  import Text
  import Ip
  import Wrap
  import Jwt
  import CidrProtect
  import ApiError

  /** A `*slog.Logger`: the process default or one supplied by the caller. */
  datatype Logger = DefaultLogger | GivenLogger(id: nat)

  /** A handler that returns an error: the calls it makes on the writer, then the error it returns. */
  datatype App = App(ops: seq<Wrap.Op>, result: Option<ApiError.Error>)

  /** What sits at the bottom of a stack. */
  datatype Endpoint =
    | Static(ops: seq<Wrap.Op>)
      // a plain `http.Handler` making these calls
    | Health
      // the `/health` responder of `baseHandler`
    | WithErrors(app: App, logger: Option<Logger>)
      // `handleErrors(app)` with the controller's logger, which may be nil

  /** One middleware layer. */
  datatype Middleware =
    | Custom(name: string, before: seq<Wrap.Op>)
      // a caller-supplied middleware making these calls, then calling the next handler
    | JsonHeader
      // `setJSONHeader`
    | Metrics(pattern: string)
      // the metrics middleware: a counting wrapper around the writer
    | Tracing(pattern: string)
      // `otelhttp.NewHandler`, which passes the request on
    | CidrGuard(gate: CidrProtect.Gate, v6: Ip.V6Parser)
      // the CIDR allow-list middleware
    | JwtGuard(verify: Jwt.Verifier)
      // the JWT middleware with its token verifier

  datatype Handler = Leaf(endpoint: Endpoint) | Layer(mw: Middleware, next: Handler)

  /** What can be observed of a layer while a request passes. */
  datatype Event =
    | Enter(name: string)
    | Leave(name: string)
    | Measured(route: string, status: int, written: int)
    | Reached

  datatype Outcome = Outcome(w: Wrap.Writer, trace: seq<Event>, logs: seq<string>, panicked: bool)

  const ContentType := "Content-Type"
  const ApplicationJson := "application/json"
  const HealthBody := "{\"ok\":true}\n"

  function Label(mw: Middleware): string {
    match mw
    case Custom(name, _) => name
    case JsonHeader => "setJSONHeader"
    case Metrics(_) => "metrics"
    case Tracing(_) => "otelhttp"
    case CidrGuard(_, _) => "cidrProtect"
    case JwtGuard(_) => "jwtAuth"
  }

  /** `cmp.Or(pattern, path)`: the route key the metrics are recorded under. */
  function RouteKey(pattern: string, path: string): (k: string)
    ensures pattern != "" ==> k == pattern
    ensures pattern == "" ==> k == path
  {
    if pattern != "" then pattern else path
  }

  /** A layer's events around what happened inside it; a panic unwinds without leaving. */
  function Frame(name: string, o: Outcome): (r: Outcome)
    ensures r.w == o.w && r.logs == o.logs && r.panicked == o.panicked
  {
    if o.panicked then o.(trace := [Enter(name)] + o.trace)
    else o.(trace := [Enter(name)] + o.trace + [Leave(name)])
  }

  /** An endpoint serving a request; a call on the writer may panic. */
  function Run(e: Endpoint, w: Wrap.Writer): (o: Outcome)
    ensures Wrap.Depth(o.w) == Wrap.Depth(w)
    ensures o.trace == [Reached]
  {
    match e
    case Static(ops) =>
      var w1 := Wrap.Replay(w, ops).0;
      Outcome(w1, [Reached], [], Wrap.Root(w1).panicked)
    case Health =>
      var w1 := Wrap.SetHeader(w, ContentType, ApplicationJson);
      Outcome(Wrap.Write(w1, HealthBody).0, [Reached], [], false)
    case WithErrors(app, logger) =>
      var w1 := Wrap.Replay(w, app.ops).0;
      if Wrap.Root(w1).panicked then Outcome(w1, [Reached], [], true)
      else if app.result.None? then Outcome(w1, [Reached], [], false)
      else if logger.None? then Outcome(w1, [Reached], [], true)
      else
        var h := ApiError.HandleErrors(w1, app.result);
        Outcome(h.w, [Reached], h.logs, h.panicked)
  }

  /**
   * Serving a request through a handler. Every layer passes the request on
   * unchanged; the writer it passes may be wrapped or already written to.
   * Every layer that wraps the writer unwraps it again, so the writer that
   * comes back has as many wrappers as the one handed in.
   */
  function Serve(h: Handler, w: Wrap.Writer, r: Request): (o: Outcome)
    ensures Wrap.Depth(o.w) == Wrap.Depth(w)
    decreases h
  {
    match h
    case Leaf(e) => Run(e, w)
    case Layer(mw, next) =>
      match mw
      case Custom(name, before) =>
        var w1 := Wrap.Replay(w, before).0;
        if Wrap.Root(w1).panicked then Outcome(w1, [Enter(name)], [], true)
        else Frame(name, Serve(next, w1, r))
      case JsonHeader => Frame(Label(mw), Serve(next, Wrap.SetHeader(w, ContentType, ApplicationJson), r))
      case Tracing(_) => Frame(Label(mw), Serve(next, w, r))
      case Metrics(pattern) =>
        var o := Serve(next, Wrap.NewWrapper(w), r);
        if o.panicked then Outcome(o.w.inner, [Enter(Label(mw))] + o.trace, o.logs, true)
        else
          var m := Measured(RouteKey(pattern, r.path), o.w.status, o.w.written);
          Outcome(o.w.inner, [Enter(Label(mw))] + o.trace + [m, Leave(Label(mw))], o.logs, false)
      case CidrGuard(g, v6) =>
        var (w1, pass) := CidrProtect.Before(g, w, r, v6);
        if !pass then Outcome(CidrProtect.After(w1), [Enter(Label(mw)), Leave(Label(mw))], [], false)
        else
          var o := Serve(next, w1, r);
          if o.panicked then Frame(Label(mw), o)
          else Frame(Label(mw), o.(w := CidrProtect.After(o.w)))
      case JwtGuard(verify) =>
        match Jwt.DecideRequest(r, verify)
        case Deny(code, msg) => Outcome(Wrap.Error(w, msg, code), [Enter(Label(mw)), Leave(Label(mw))], [], false)
        case Panic => Outcome(w, [Enter(Label(mw))], [], true)
        case Pass => Frame(Label(mw), Serve(next, w, r))
  }

  /** The stack with `ms[0]` outermost around `h`. */
  function Nest(ms: seq<Middleware>, h: Handler): (r: Handler)
    ensures |ms| > 0 ==> r == Layer(ms[0], Nest(ms[1..], h))
    ensures |ms| == 0 ==> r == h
  {
    if |ms| == 0 then h else Layer(ms[0], Nest(ms[1..], h))
  }

  function Reverse<T>(s: seq<T>): (r: seq<T>)
    ensures |r| == |s|
    ensures forall i :: 0 <= i < |s| ==> r[i] == s[|s| - 1 - i]
  {
    if |s| == 0 then [] else Reverse(s[1..]) + [s[0]]
  }

  /** The labels of a stack's layers, outermost first. */
  function Layers(h: Handler): seq<string> {
    match h
    case Leaf(_) => []
    case Layer(mw, next) => [Label(mw)] + Layers(next)
  }

  function Labels(ms: seq<Middleware>): (r: seq<string>)
    ensures |r| == |ms|
    ensures forall i :: 0 <= i < |ms| ==> r[i] == Label(ms[i])
  {
    if |ms| == 0 then [] else [Label(ms[0])] + Labels(ms[1..])
  }

  /** Nesting puts the given layers, in list order, above the layers already there. */
  lemma {:induction false} LayersNest(ms: seq<Middleware>, h: Handler)
    ensures Layers(Nest(ms, h)) == Labels(ms) + Layers(h)
    decreases |ms|
  {
    if |ms| > 0 {
      LayersNest(ms[1..], h);
      assert Labels(ms) == [Label(ms[0])] + Labels(ms[1..]);
    }
  }

  /** Nesting below the last layer of a list is nesting one layer more. */
  lemma {:induction false} NestSnoc(ms: seq<Middleware>, m: Middleware, h: Handler)
    ensures Nest(ms + [m], h) == Nest(ms, Layer(m, h))
    decreases |ms|
  {
    if |ms| > 0 {
      assert (ms + [m])[1..] == ms[1..] + [m];
      NestSnoc(ms[1..], m, h);
    }
  }

  predicate AllCustom(ms: seq<Middleware>) {
    forall i :: 0 <= i < |ms| ==> ms[i].Custom?
  }

  function Enters(ms: seq<Middleware>): seq<Event> {
    if |ms| == 0 then [] else [Enter(Label(ms[0]))] + Enters(ms[1..])
  }

  function Leaves(ms: seq<Middleware>): seq<Event> {
    if |ms| == 0 then [] else Leaves(ms[1..]) + [Leave(Label(ms[0]))]
  }

  /**
   * One caller-supplied layer: its calls, then the next handler, framed by
   * its events; when one of its calls panics, the next handler is never
   * reached.
   */
  lemma ServeCustom(name: string, before: seq<Wrap.Op>, next: Handler, w: Wrap.Writer, r: Request)
    ensures var w1 := Wrap.Replay(w, before).0;
      Serve(Layer(Custom(name, before), next), w, r) ==
        if Wrap.Root(w1).panicked then Outcome(w1, [Enter(name)], [], true)
        else Frame(name, Serve(next, w1, r))
  {
  }

  /** Every caller-supplied layer passes only valid status codes. */
  predicate ValidBefores(ms: seq<Middleware>)
    requires AllCustom(ms)
  {
    forall i :: 0 <= i < |ms| ==> Wrap.ValidCodes(ms[i].before)
  }

  /**
   * Through a stack of caller-supplied middlewares, each runs its
   * before-part from the outermost inwards, the endpoint is reached once,
   * and each is left again from the innermost outwards.
   */
  lemma {:induction false} NestTrace(ms: seq<Middleware>, ops: seq<Wrap.Op>, w: Wrap.Writer, r: Request)
    requires AllCustom(ms) && ValidBefores(ms) && Wrap.ValidCodes(ops)
    requires !Wrap.Root(w).panicked
    ensures Serve(Nest(ms, Leaf(Static(ops))), w, r).trace == Enters(ms) + [Reached] + Leaves(ms)
    ensures !Serve(Nest(ms, Leaf(Static(ops))), w, r).panicked
    decreases |ms|
  {
    if |ms| > 0 {
      var m := ms[0];
      var w1 := Wrap.Replay(w, m.before).0;
      Wrap.PanicsOnlyOnInvalidCode(w, m.before);
      assert AllCustom(ms[1..]) && ValidBefores(ms[1..]) by {
        assert forall i :: 0 <= i < |ms[1..]| ==> ms[1..][i] == ms[i + 1];
      }
      NestTrace(ms[1..], ops, w1, r);
      var o := Serve(Nest(ms[1..], Leaf(Static(ops))), w1, r);
      ServeCustom(m.name, m.before, Nest(ms[1..], Leaf(Static(ops))), w, r);
      assert Nest(ms, Leaf(Static(ops))) == Layer(Custom(m.name, m.before), Nest(ms[1..], Leaf(Static(ops))));
      assert Enters(ms) == [Enter(m.name)] + Enters(ms[1..]);
      assert Leaves(ms) == Leaves(ms[1..]) + [Leave(m.name)];
    } else {
      Wrap.PanicsOnlyOnInvalidCode(w, ops);
    }
  }

  /**
   * Around a plain handler, the metrics layer measures the last status the
   * handler set (200 if none) and the bytes it wrote, while the writer
   * underneath sees every call except `WriteHeader`.
   */
  lemma MetricsMeasuresInner(pattern: string, ops: seq<Wrap.Op>, w: Wrap.Writer, r: Request)
    requires !Wrap.Root(w).panicked
    ensures var o := Serve(Layer(Metrics(pattern), Leaf(Static(ops))), w, r);
      && o.w == Wrap.Replay(w, Wrap.Forwarded(ops)).0
      && o.trace == [Enter("metrics"), Reached, Measured(RouteKey(pattern, r.path), Wrap.LastStatus(ops, 200), MeasuredBytes(w, ops)), Leave("metrics")]
      && !o.panicked
  {
    Wrap.CountingReplay(w, ops);
    if Wrap.Delivers(w) {
      Wrap.BodyReplay(Wrap.NewWrapper(w), ops);
    } else {
      Wrap.NoDelivery(Wrap.NewWrapper(w), ops);
    }
  }

  /**
   * The bytes that reach the client for these calls: their UTF-8 length,
   * or none when the writer no longer delivers.
   */
  function MeasuredBytes(w: Wrap.Writer, ops: seq<Wrap.Op>): nat {
    if Wrap.Delivers(w) then Text.Utf8Len(Wrap.Concat(ops)) else 0
  }

  /** A handler that writes nothing and returns an error with an `apiError` on its chain answers as `handleErrors` does. */
  lemma RunApiError(e: ApiError.Error, l: Logger, w: Wrap.Writer)
    requires ApiError.As(e).Some? && ApiError.ErrorString(ApiError.As(e).value).Some?
    requires !Wrap.Root(w).panicked
    ensures var a := ApiError.As(e).value;
      var ew := Wrap.Error(w, ApiError.Marshal(a), a.status);
      Run(WithErrors(App([], Some(e)), Some(l)), w) ==
        Outcome(ew, [Reached], [ApiError.ErrorString(a).value], Wrap.Root(ew).panicked)
  {
    assert Wrap.Replay(w, []).0 == w;
  }

  /** The metrics layer: a counting wrapper handed down, measured and removed afterwards. */
  lemma ServeMetrics(pattern: string, next: Handler, w: Wrap.Writer, r: Request)
    ensures var o := Serve(next, Wrap.NewWrapper(w), r);
      !o.panicked ==>
        Serve(Layer(Metrics(pattern), next), w, r) ==
          Outcome(o.w.inner, [Enter("metrics")] + o.trace + [Measured(RouteKey(pattern, r.path), o.w.status, o.w.written), Leave("metrics")], o.logs, false)
  {
  }

  /** Around an endpoint that does not panic, the metrics layer records what the counting wrapper saw. */
  lemma MetricsAroundEndpoint(pattern: string, e: Endpoint, w: Wrap.Writer, r: Request)
    requires !Run(e, Wrap.NewWrapper(w)).panicked
    ensures var i := Run(e, Wrap.NewWrapper(w));
      var o := Serve(Layer(Metrics(pattern), Leaf(e)), w, r);
      && o.w == i.w.inner
      && o.trace == [Enter("metrics"), Reached, Measured(RouteKey(pattern, r.path), i.w.status, i.w.written), Leave("metrics")]
  {
    ServeMetrics(pattern, Leaf(e), w, r);
  }

  /**
   * Because the counting wrapper keeps `WriteHeader` to itself, an error
   * response produced under the metrics layer reaches the client with
   * status 200.
   */
  lemma MetricsHidesErrorStatus(pattern: string, e: ApiError.Error, l: Logger, r: Request)
    requires ApiError.As(e).Some? && ApiError.ErrorString(ApiError.As(e).value).Some?
    ensures Wrap.Root(Serve(Layer(Metrics(pattern), Leaf(WithErrors(App([], Some(e)), Some(l)))), Wrap.Base(Wrap.Fresh), r).w).status == Some(200)
  {
    var a := ApiError.As(e).value;
    var cw := Wrap.NewWrapper(Wrap.Base(Wrap.Fresh));
    var ew := Wrap.Error(cw, ApiError.Marshal(a), a.status);
    RunApiError(e, l, cw);
    MetricsAroundEndpoint(pattern, WithErrors(App([], Some(e)), Some(l)), Wrap.Base(Wrap.Fresh), r);
    assert Wrap.Root(ew.inner) == Wrap.Root(ew);
  }

  /** Under the metrics layer the error's own status and the length of its body are what gets measured. */
  lemma MetricsRecordsErrorStatus(pattern: string, e: ApiError.Error, a: ApiError.Error, l: Logger, r: Request)
    requires ApiError.As(e) == Some(a) && ApiError.ErrorString(a).Some?
    ensures Serve(Layer(Metrics(pattern), Leaf(WithErrors(App([], Some(e)), Some(l)))), Wrap.Base(Wrap.Fresh), r).trace ==
      [Enter("metrics"), Reached, Measured(RouteKey(pattern, r.path), a.status, Text.Utf8Len(ApiError.Marshal(a)) + 1), Leave("metrics")]
  {
    var ep := WithErrors(App([], Some(e)), Some(l));
    var cw := Wrap.NewWrapper(Wrap.Base(Wrap.Fresh));
    RunApiError(e, l, cw);
    var ew := Wrap.Error(cw, ApiError.Marshal(a), a.status);
    assert Wrap.Delivers(cw) && !Wrap.Root(ew).panicked;
    assert ew.status == a.status && ew.written == Text.Utf8Len(ApiError.Marshal(a)) + 1;
    MeasuredTrace(pattern, ep, Wrap.Base(Wrap.Fresh), r, a.status, Text.Utf8Len(ApiError.Marshal(a)) + 1);
  }

  /** The metrics layer around an endpoint records whatever status and byte count the counting writer ended with. */
  lemma MeasuredTrace(pattern: string, ep: Endpoint, w: Wrap.Writer, r: Request, status: int, written: int)
    requires !Run(ep, Wrap.NewWrapper(w)).panicked
    requires Run(ep, Wrap.NewWrapper(w)).w.status == status && Run(ep, Wrap.NewWrapper(w)).w.written == written
    ensures Serve(Layer(Metrics(pattern), Leaf(ep)), w, r).trace == [Enter("metrics"), Reached, Measured(RouteKey(pattern, r.path), status, written), Leave("metrics")]
  {
    MetricsAroundEndpoint(pattern, ep, w, r);
  }

  /**
   * Without the metrics layer the same error reaches the client with its
   * own status; an invalid status panics, and an informational one is
   * followed by 200.
   */
  lemma ErrorStatusWithoutMetrics(e: ApiError.Error, l: Logger, r: Request)
    requires ApiError.As(e).Some? && ApiError.ErrorString(ApiError.As(e).value).Some?
    ensures var o := Serve(Leaf(WithErrors(App([], Some(e)), Some(l))), Wrap.Base(Wrap.Fresh), r);
      var s := ApiError.As(e).value.status;
      && (o.panicked <==> !Wrap.ValidCode(s))
      && (!o.panicked ==> Wrap.Root(o.w).status == Some(if Wrap.Informational(s) then 200 else s))
  {
    RunApiError(e, l, Wrap.Base(Wrap.Fresh));
  }
}

=== FILE: remote_addr.dfy ===
/**
 * `GetRemoteAddr`: the client address of a request, taken from the
 * `X-Forwarded-For` header, then from `X-Real-Ip`, and otherwise from the
 * host part of the connection's remote address.
 */
module RemoteAddr {
  import opened Wrappers
  import Text
  import opened Ip
  import HostPort
  import opened Http

  const ForwardedFor: string := "X-Forwarded-For"
  const RealIp: string := "X-Real-Ip"

  /** An address a proxy header may name: globally routable and not private. */
  predicate Acceptable(a: Addr) {
    IsGlobalUnicast(a) && !IsPrivate(a)
  }

  /** One comma-separated entry of a header, trimmed, if it is an acceptable address. */
  function Candidate(entry: string, v6: V6Parser): (r: Option<Addr>)
    ensures r.Some? ==> Acceptable(r.value) && ParseIp(Text.TrimSpace(entry), v6) == r
    ensures r.None? <==> ParseIp(Text.TrimSpace(entry), v6).None? || !Acceptable(ParseIp(Text.TrimSpace(entry), v6).value)
  {
    match ParseIp(Text.TrimSpace(entry), v6)
    case Some(a) => if Acceptable(a) then Some(a) else None
    case None => None
  }

  /** `Candidate` as a value, for the header scan. */
  function Picker(v6: V6Parser): string -> Option<Addr> {
    entry => Candidate(entry, v6)
  }

  /** Entry `i` yields `a`, and no entry right of it yields anything. */
  predicate RightmostPick<T(==)>(entries: seq<string>, i: int, a: T, pick: string -> Option<T>) {
    && 0 <= i < |entries|
    && pick(entries[i]) == Some(a)
    && forall j :: i < j < |entries| ==> pick(entries[j]).None?
  }

  /** Entries scanned from the right: the first that yields something. */
  function ScanFromRight<T(==)>(entries: seq<string>, pick: string -> Option<T>): (r: Option<T>)
    ensures r.None? <==> forall i :: 0 <= i < |entries| ==> pick(entries[i]).None?
    ensures r.Some? ==> exists i :: RightmostPick(entries, i, r.value, pick)
  {
    if |entries| == 0 then None
    else
      var last := |entries| - 1;
      match pick(entries[last])
      case Some(a) =>
        assert RightmostPick(entries, last, a, pick);
        Some(a)
      case None =>
        var r := ScanFromRight(entries[..last], pick);
        if r.Some? then
          var i :| RightmostPick(entries[..last], i, r.value, pick);
          assert RightmostPick(entries, i, r.value, pick);
          r
        else
          r
  }

  /** The rightmost entry that yields something is the one the scan finds. */
  lemma {:induction false} ScanFindsRightmost<T>(entries: seq<string>, i: int, a: T, pick: string -> Option<T>)
    requires RightmostPick(entries, i, a, pick)
    ensures ScanFromRight(entries, pick) == Some(a)
    decreases |entries|
  {
    var last := |entries| - 1;
    if i < last {
      assert RightmostPick(entries[..last], i, a, pick);
      ScanFindsRightmost(entries[..last], i, a, pick);
    }
  }

  /** The entries of a header: its value split at commas. */
  function Entries(r: Request, key: string): seq<string> {
    Text.Split(HeaderGet(r, key), ',')
  }

  /** The acceptable address a header yields, if any. */
  function FromHeader(r: Request, key: string, v6: V6Parser): Option<Addr> {
    ScanFromRight(Entries(r, key), Picker(v6))
  }

  /** Why no address could be resolved. */
  datatype ResolveError = SplitFailed(cause: HostPort.AddrError) | InvalidIp(host: string)

  /**
   * The error text. The invalid-address error is formatted with a nil
   * wrapped error, which Go's formatter renders as `%!w(<nil>)`.
   */
  function Message(e: ResolveError): string {
    match e
    case SplitFailed(cause) => HostPort.ErrorText(cause)
    case InvalidIp(host) => "IP address format of '" + host + "' is invalid. error: %!w(<nil>)"
  }

  /** Go's `(net.IP, error)` pair. */
  datatype Resolution = Resolution(ip: Option<Addr>, err: Option<ResolveError>)

  /** The host of the remote address, unfiltered. */
  function Fallback(remoteAddr: string, v6: V6Parser): (res: Resolution)
    ensures res.ip.Some? != res.err.Some?
    ensures HostPort.SplitHostPort(remoteAddr).Err? <==> res.err.Some? && res.err.value.SplitFailed?
    ensures res.ip.Some? ==> HostPort.SplitHostPort(remoteAddr).Ok? && ParseIp(HostPort.SplitHostPort(remoteAddr).value.host, v6) == res.ip
  {
    match HostPort.SplitHostPort(remoteAddr)
    case Err(e) => Resolution(None, Some(SplitFailed(e)))
    case Ok(hp) =>
      match ParseIp(hp.host, v6)
      case None => Resolution(None, Some(InvalidIp(hp.host)))
      case Some(a) => Resolution(Some(a), None)
  }

  /** `GetRemoteAddr`: exactly one of address and error. */
  function Resolve(r: Request, v6: V6Parser): (res: Resolution)
    ensures res.ip.Some? != res.err.Some?
  {
    match FromHeader(r, ForwardedFor, v6)
    case Some(a) => Resolution(Some(a), None)
    case None =>
      match FromHeader(r, RealIp, v6)
      case Some(a) => Resolution(Some(a), None)
      case None => Fallback(r.remoteAddr, v6)
  }

  /**
   * The inner loop of `GetRemoteAddr`: entries right to left, the first one
   * `pick` accepts. `GetRemoteAddr` passes the parse-and-filter step as `pick`.
   */
  method ScanEntries<T(==)>(addresses: seq<string>, pick: string -> Option<T>) returns (found: Option<T>)
    ensures found == ScanFromRight(addresses, pick)
  {
    var i := |addresses| - 1;
    while i >= 0
      invariant -1 <= i < |addresses|
      invariant forall j :: i < j < |addresses| ==> pick(addresses[j]).None?
    {
      var got := pick(addresses[i]);
      if got.Some? {
        ScanFindsRightmost(addresses, i, got.value, pick);
        return got;
      }
      i := i - 1;
    }
    return None;
  }

  /** `GetRemoteAddr`: the two headers in order, then the remote address. */
  method GetRemoteAddr(r: Request, v6: V6Parser) returns (ip: Option<Addr>, err: Option<ResolveError>)
    ensures Resolution(ip, err) == Resolve(r, v6)
  {
    var found := ScanEntries(Entries(r, ForwardedFor), Picker(v6));
    if found.Some? {
      return found, None;
    }
    found := ScanEntries(Entries(r, RealIp), Picker(v6));
    if found.Some? {
      return found, None;
    }
    var res := Fallback(r.remoteAddr, v6);
    return res.ip, res.err;
  }

  /** An acceptable `X-Forwarded-For` entry wins, whatever `X-Real-Ip` holds. */
  lemma ForwardedForFirst(r: Request, i: int, a: Addr, v6: V6Parser)
    requires RightmostPick(Entries(r, ForwardedFor), i, a, Picker(v6))
    ensures Resolve(r, v6) == Resolution(Some(a), None)
  {
    ScanFindsRightmost(Entries(r, ForwardedFor), i, a, Picker(v6));
  }

  /** Setting `X-Real-Ip` does not change the outcome once `X-Forwarded-For` has an acceptable entry. */
  lemma RealIpIgnoredAfterForwardedFor(r: Request, i: int, a: Addr, v6: V6Parser, realIp: string)
    requires RightmostPick(Entries(r, ForwardedFor), i, a, Picker(v6))
    ensures Resolve(WithHeader(r, RealIp, realIp), v6) == Resolution(Some(a), None)
  {
    var r' := WithHeader(r, RealIp, realIp);
    assert Entries(r', ForwardedFor) == Entries(r, ForwardedFor) by {
      assert HeaderGet(r', ForwardedFor) == HeaderGet(r, ForwardedFor);
    }
    ForwardedForFirst(r', i, a, v6);
  }

  /** With no acceptable `X-Forwarded-For` entry, the rightmost acceptable `X-Real-Ip` entry is used. */
  lemma RealIpSecond(r: Request, i: int, a: Addr, v6: V6Parser)
    requires forall j :: 0 <= j < |Entries(r, ForwardedFor)| ==> Candidate(Entries(r, ForwardedFor)[j], v6).None?
    requires RightmostPick(Entries(r, RealIp), i, a, Picker(v6))
    ensures Resolve(r, v6) == Resolution(Some(a), None)
  {
    var xff := Entries(r, ForwardedFor);
    assert forall j :: 0 <= j < |xff| ==> Picker(v6)(xff[j]).None?;
    ScanFindsRightmost(Entries(r, RealIp), i, a, Picker(v6));
  }

  /**
   * An address taken from a header is acceptable and is an entry of that
   * header; when neither header yields one, the remote address decides,
   * without the filter.
   */
  lemma HeaderResultsAcceptable(r: Request, v6: V6Parser)
    ensures Resolve(r, v6).ip.Some? && (FromHeader(r, ForwardedFor, v6).Some? || FromHeader(r, RealIp, v6).Some?) ==>
      Acceptable(Resolve(r, v6).ip.value)
    ensures FromHeader(r, ForwardedFor, v6).None? && FromHeader(r, RealIp, v6).None? ==> Resolve(r, v6) == Fallback(r.remoteAddr, v6)
  {
    var xff := Entries(r, ForwardedFor);
    var xri := Entries(r, RealIp);
    if FromHeader(r, ForwardedFor, v6).Some? {
      var i :| RightmostPick(xff, i, FromHeader(r, ForwardedFor, v6).value, Picker(v6));
      assert Candidate(xff[i], v6).Some?;
    } else if FromHeader(r, RealIp, v6).Some? {
      var i :| RightmostPick(xri, i, FromHeader(r, RealIp, v6).value, Picker(v6));
      assert Candidate(xri[i], v6).Some?;
    }
  }

  /** A request without headers yields nothing from them. */
  lemma NoHeaders(r: Request, v6: V6Parser)
    requires r.header == map[]
    ensures FromHeader(r, ForwardedFor, v6).None? && FromHeader(r, RealIp, v6).None?
    ensures Resolve(r, v6) == Fallback(r.remoteAddr, v6)
  {
    assert Text.Split("", ',') == [""];
    assert Text.TrimSpace("") == "";
    assert FirstSeparator("") == None;
    assert Picker(v6)("") == None;
  }

  /**
   * With no acceptable header entry, the host of `host:port` is returned
   * whenever it is an IPv4 address, private or not.
   */
  lemma FallbackUnfiltered(r: Request, o: Octets4, port: string, v6: V6Parser)
    requires FromHeader(r, ForwardedFor, v6).None? && FromHeader(r, RealIp, v6).None?
    requires ':' !in port && '[' !in port && ']' !in port
    requires r.remoteAddr == HostPort.JoinHostPort(FormatDottedQuad(o), port)
    ensures Resolve(r, v6) == Resolution(Some(V4(o)), None)
  {
    var host := FormatDottedQuad(o);
    DottedQuadIsPlainHost(o);
    HostPort.SplitJoinHostPort(host, port);
    ParseIpOfDottedQuad(o, v6);
  }

  lemma DottedQuadIsPlainHost(o: Octets4)
    ensures '[' !in FormatDottedQuad(o) && ']' !in FormatDottedQuad(o) && ':' !in FormatDottedQuad(o)
  {
    var parts := [Text.NatToString(o[0]), Text.NatToString(o[1]), Text.NatToString(o[2]), Text.NatToString(o[3])];
    forall k | 0 <= k < 4
      ensures '[' !in parts[k] && ']' !in parts[k] && ':' !in parts[k]
    {
      NoBracketInDigits(parts[k]);
    }
    Text.JoinExcludes(parts, '.', '[');
    Text.JoinExcludes(parts, '.', ']');
    Text.JoinExcludes(parts, '.', ':');
  }

  lemma NoBracketInDigits(d: string)
    requires Text.AllDigits(d)
    ensures '[' !in d && ']' !in d && ':' !in d
  {
  }

  /** A remote address that does not split into host and port is an error and no address. */
  lemma RemoteAddrNotHostPort(r: Request, v6: V6Parser)
    requires FromHeader(r, ForwardedFor, v6).None? && FromHeader(r, RealIp, v6).None?
    requires HostPort.SplitHostPort(r.remoteAddr).Err?
    ensures Resolve(r, v6) == Resolution(None, Some(SplitFailed(HostPort.SplitHostPort(r.remoteAddr).error)))
  {
  }

  /** An empty remote address, with no headers, is an error and no address. */
  lemma EmptyRemoteAddr(v6: V6Parser)
    ensures Resolve(Request("GET", "/", map[], ""), v6) == Resolution(None, Some(SplitFailed(HostPort.AddrError(HostPort.MissingPort, ""))))
  {
    NoHeaders(Request("GET", "/", map[], ""), v6);
  }

  /** Four decimal fields, the last above 255 as in `11.12.13.256`, do not make an address. */
  lemma FieldAbove255(parts: seq<string>, d: nat, v6: V6Parser)
    requires |parts| == 4 && parts[3] == Text.NatToString(d) && d > 255
    requires forall k :: 0 <= k < 4 ==> Text.AllDigits(parts[k])
    ensures ParseIp(Text.Join(parts, '.'), v6) == None
  {
    FieldAbove255NotDottedQuad(parts, d);
    DottedFirstSeparator(parts);
  }

  /** A join of decimal fields with '.' is sent to the dotted-quad parser. */
  lemma DottedFirstSeparator(parts: seq<string>)
    requires |parts| == 4 && forall k :: 0 <= k < 4 ==> Text.AllDigits(parts[k])
    ensures FirstSeparator(Text.Join(parts, '.')) == Some('.')
  {
    assert Text.Join(parts, '.') == parts[0] + ['.'] + Text.Join(parts[1..], '.');
    FirstSeparatorAfterDigits(parts[0], Text.Join(parts[1..], '.'));
  }

  lemma FieldAbove255NotDottedQuad(parts: seq<string>, d: nat)
    requires |parts| == 4 && parts[3] == Text.NatToString(d) && d > 255
    requires forall k :: 0 <= k < 4 ==> Text.AllDigits(parts[k])
    ensures ParseDottedQuad(Text.Join(parts, '.')) == None
  {
    forall k | 0 <= k < 4
      ensures '.' !in parts[k]
    {
      NoSeparatorInDigits(parts[k]);
    }
    Text.SplitJoin(parts, '.');
    Text.DecimalValueOfNatToString(d);
    assert !ValidOctetText(parts[3]);
  }

  /** A remote host that is not an address gives an error naming that host. */
  lemma InvalidRemoteHost(r: Request, host: string, port: string, v6: V6Parser)
    requires FromHeader(r, ForwardedFor, v6).None? && FromHeader(r, RealIp, v6).None?
    requires '[' !in host && ']' !in host && ':' !in host
    requires ':' !in port && '[' !in port && ']' !in port
    requires r.remoteAddr == HostPort.JoinHostPort(host, port)
    requires ParseIp(host, v6).None?
    ensures Resolve(r, v6) == Resolution(None, Some(InvalidIp(host)))
  {
    HostPort.SplitJoinHostPort(host, port);
  }
}

=== FILE: resource.dfy ===
/**
 * The parameter list the Cypher graph exporter's `MergeResource` builds
 * from a telemetry resource before sending it to the graph database: one
 * record per configured key attribute the resource carries, with the
 * resource type as label, the attribute's value as id, the additional
 * properties found, and at most one containing resource.
 *
 * Go visits the encoder's map of key attributes in an unspecified order;
 * here that order is a parameter, and the result is shown to be the same
 * multiset of records whichever order is taken.
 */
module Resource {
  import Text

  /** A telemetry attribute value, as far as its string form goes. */
  datatype Value = Empty | Str(s: string) | Bool(b: bool) | Int(i: int)

  /** `pcommon.Value.AsString`. */
  function AsString(v: Value): (s: string)
    ensures v.Str? ==> s == v.s
    ensures v.Empty? ==> s == ""
    ensures v.Bool? ==> s == (if v.b then "true" else "false")
    ensures v.Int? ==> s == Text.IntToString(v.i)
  {
    match v
    case Empty => ""
    case Str(s) => s
    case Bool(b) => if b then "true" else "false"
    case Int(i) => Text.IntToString(i)
  }

  type Attributes = map<string, Value>

  /** How a resource identified by one key attribute is labelled, and which further attributes it carries. */
  datatype ResourceEncoder = ResourceEncoder(resourceType: string, additionalPropKeys: seq<string>)

  /**
   * The encoder's three maps: resource encoders by key attribute, the
   * types that may contain each resource type (in order of preference),
   * and the key attribute of each resource type.
   */
  datatype Encoder = Encoder(
    resourceByAttrKeys: map<string, ResourceEncoder>,
    containmentOrder: map<string, seq<string>>,
    attributesByLabels: map<string, string>)

  /** A reference to a containing resource: its `label` and its `id`. */
  datatype Ref = Ref(typeLabel: string, id: string)

  /** One entry of the query parameter: `label` (here `typeLabel`, as `label` is a keyword), `id`, `props` and `contained_in`. */
  datatype Record = Record(typeLabel: string, id: string, props: map<string, string>, containedIn: seq<Ref>)

  /** The additional properties the resource carries, as strings. */
  function Props(keys: seq<string>, attrs: Attributes): (p: map<string, string>)
    ensures forall k :: k in p <==> k in keys && k in attrs
    ensures forall k :: k in p ==> p[k] == AsString(attrs[k])
  {
    if |keys| == 0 then map[]
    else
      var p := Props(keys[..|keys| - 1], attrs);
      var k := keys[|keys| - 1];
      assert forall x :: x in keys <==> x in keys[..|keys| - 1] || x == k;
      if k in attrs then p[k := AsString(attrs[k])] else p
  }

  /** The containing type is known and the resource carries its key attribute. */
  predicate Resolves(enc: Encoder, attrs: Attributes, d: string) {
    d in enc.attributesByLabels && enc.attributesByLabels[d] in attrs
  }

  function RefOf(enc: Encoder, attrs: Attributes, d: string): Ref
    requires Resolves(enc, attrs, d)
  {
    Ref(d, AsString(attrs[enc.attributesByLabels[d]]))
  }

  /** `deps[j]` is the first containing type that resolves. */
  predicate FirstResolvingAt(enc: Encoder, attrs: Attributes, deps: seq<string>, j: int) {
    && 0 <= j < |deps|
    && Resolves(enc, attrs, deps[j])
    && forall i :: 0 <= i < j ==> !Resolves(enc, attrs, deps[i])
  }

  /** The scan of the containing types, which stops at the first that resolves. */
  function Container(enc: Encoder, attrs: Attributes, deps: seq<string>): (c: seq<Ref>)
    ensures |c| <= 1
    ensures |c| == 0 <==> forall j :: 0 <= j < |deps| ==> !Resolves(enc, attrs, deps[j])
    ensures |c| == 1 ==> exists j :: FirstResolvingAt(enc, attrs, deps, j) && c[0] == RefOf(enc, attrs, deps[j])
  {
    if |deps| == 0 then []
    else if Resolves(enc, attrs, deps[0]) then
      assert FirstResolvingAt(enc, attrs, deps, 0);
      [RefOf(enc, attrs, deps[0])]
    else
      var c := Container(enc, attrs, deps[1..]);
      if |c| == 1 then
        var j :| FirstResolvingAt(enc, attrs, deps[1..], j) && c[0] == RefOf(enc, attrs, deps[1..][j]);
        assert FirstResolvingAt(enc, attrs, deps, j + 1);
        c
      else
        assert forall j :: 1 <= j < |deps| ==> deps[j] == deps[1..][j - 1];
        c
  }

  /** `contained_in`: empty when the type has no containment entry, otherwise the result of the scan. */
  function ContainedIn(enc: Encoder, attrs: Attributes, resourceType: string): (c: seq<Ref>)
    ensures |c| <= 1
    ensures resourceType !in enc.containmentOrder ==> c == []
    ensures |c| == 1 ==>
      && resourceType in enc.containmentOrder
      && exists j :: FirstResolvingAt(enc, attrs, enc.containmentOrder[resourceType], j) && c[0] == RefOf(enc, attrs, enc.containmentOrder[resourceType][j])
  {
    if resourceType in enc.containmentOrder then Container(enc, attrs, enc.containmentOrder[resourceType]) else []
  }

  /** The record for a key attribute the resource carries. */
  function RecordFor(enc: Encoder, attrs: Attributes, k: string): (rec: Record)
    requires k in enc.resourceByAttrKeys && k in attrs
    ensures rec.typeLabel == enc.resourceByAttrKeys[k].resourceType
    ensures rec.id == AsString(attrs[k])
    ensures forall p :: p in rec.props <==> p in enc.resourceByAttrKeys[k].additionalPropKeys && p in attrs
    ensures |rec.containedIn| <= 1
  {
    var re := enc.resourceByAttrKeys[k];
    Record(re.resourceType, AsString(attrs[k]), Props(re.additionalPropKeys, attrs), ContainedIn(enc, attrs, re.resourceType))
  }

  predicate Known(enc: Encoder, order: seq<string>) {
    forall i :: 0 <= i < |order| ==> order[i] in enc.resourceByAttrKeys
  }

  /** `order` lists every key of the set exactly once. */
  predicate IsEnumeration(order: seq<string>, keys: set<string>) {
    && (forall i, j :: 0 <= i < j < |order| ==> order[i] != order[j])
    && (forall i :: 0 <= i < |order| ==> order[i] in keys)
    && (forall k :: k in keys ==> k in order)
  }

  /** The records, in the order the key attributes are visited. */
  function MergeParams(enc: Encoder, attrs: Attributes, order: seq<string>): (rs: seq<Record>)
    requires Known(enc, order)
    ensures |rs| <= |order|
  {
    if |order| == 0 then []
    else
      var k := order[|order| - 1];
      MergeParams(enc, attrs, order[..|order| - 1]) + (if k in attrs then [RecordFor(enc, attrs, k)] else [])
  }

  /** `rec` is the record of the key visited at position `j`. */
  predicate RecordOfKeyAt(enc: Encoder, attrs: Attributes, order: seq<string>, j: int, rec: Record)
    requires Known(enc, order)
  {
    0 <= j < |order| && order[j] in attrs && rec == RecordFor(enc, attrs, order[j])
  }

  /** Every record comes from a visited key attribute the resource carries, and each such key gives a record. */
  lemma {:induction false} RecordsAreOfPresentKeys(enc: Encoder, attrs: Attributes, order: seq<string>)
    requires Known(enc, order)
    ensures forall rec :: rec in MergeParams(enc, attrs, order) ==> exists j :: RecordOfKeyAt(enc, attrs, order, j, rec)
    ensures forall j :: 0 <= j < |order| && order[j] in attrs ==> RecordFor(enc, attrs, order[j]) in MergeParams(enc, attrs, order)
    decreases |order|
  {
    if |order| > 0 {
      var init := order[..|order| - 1];
      var k := order[|order| - 1];
      RecordsAreOfPresentKeys(enc, attrs, init);
      var rs := MergeParams(enc, attrs, order);
      forall rec | rec in rs ensures exists j :: RecordOfKeyAt(enc, attrs, order, j, rec) {
        if rec in MergeParams(enc, attrs, init) {
          var j :| RecordOfKeyAt(enc, attrs, init, j, rec);
          assert RecordOfKeyAt(enc, attrs, order, j, rec);
        } else {
          assert RecordOfKeyAt(enc, attrs, order, |order| - 1, rec);
        }
      }
      forall j | 0 <= j < |order| && order[j] in attrs ensures RecordFor(enc, attrs, order[j]) in rs {
        if j < |order| - 1 {
          assert order[j] == init[j];
        }
      }
    }
  }

  /** The records of two visit sequences, one after the other. */
  lemma {:induction false} MergeParamsAppend(enc: Encoder, attrs: Attributes, a: seq<string>, b: seq<string>)
    requires Known(enc, a) && Known(enc, b)
    ensures Known(enc, a + b)
    ensures MergeParams(enc, attrs, a + b) == MergeParams(enc, attrs, a) + MergeParams(enc, attrs, b)
    decreases |b|
  {
    if |b| == 0 {
      assert a + b == a;
    } else {
      var ab := a + b;
      assert ab[..|ab| - 1] == a + b[..|b| - 1];
      MergeParamsAppend(enc, attrs, a, b[..|b| - 1]);
    }
  }

  /** Visiting the same keys in another order gives the same records, up to their order. */
  lemma {:induction false} MergeParamsPermutation(enc: Encoder, attrs: Attributes, a: seq<string>, b: seq<string>)
    requires Known(enc, a) && Known(enc, b)
    requires multiset(a) == multiset(b)
    ensures multiset(MergeParams(enc, attrs, a)) == multiset(MergeParams(enc, attrs, b))
    decreases |a|
  {
    if |a| == 0 {
      assert |b| == |multiset(b)| == 0;
    } else {
      var init := a[..|a| - 1];
      var x := a[|a| - 1];
      assert a == init + [x];
      var i := RemoveLast(a, b);
      var pre, post := b[..i], b[i + 1..];
      assert b == pre + [x] + post;
      MergeParamsPermutation(enc, attrs, init, pre + post);
      assert Known(enc, [x]);
      MergeParamsAppend(enc, attrs, pre, [x]);
      MergeParamsAppend(enc, attrs, pre + [x], post);
      MergeParamsAppend(enc, attrs, pre, post);
      MergeParamsAppend(enc, attrs, init, [x]);
      Shuffle(MergeParams(enc, attrs, init), MergeParams(enc, attrs, [x]), MergeParams(enc, attrs, pre), MergeParams(enc, attrs, post));
    }
  }

  /** Where the last element of `a` sits in `b`, and what the two are without it. */
  lemma RemoveLast(a: seq<string>, b: seq<string>) returns (i: int)
    requires |a| > 0 && multiset(a) == multiset(b)
    ensures 0 <= i < |b| && b[i] == a[|a| - 1]
    ensures multiset(a[..|a| - 1]) == multiset(b[..i] + b[i + 1..])
  {
    var x := a[|a| - 1];
    assert a == a[..|a| - 1] + [x];
    assert x in multiset(b);
    i :| 0 <= i < |b| && b[i] == x;
    assert b == b[..i] + [x] + b[i + 1..];
    assert multiset(a) == multiset(a[..|a| - 1]) + multiset{x};
    assert multiset(b) == multiset(b[..i]) + multiset{x} + multiset(b[i + 1..]);
    assert multiset(b[..i] + b[i + 1..]) == multiset(b[..i]) + multiset(b[i + 1..]);
    assert multiset(a[..|a| - 1]) == multiset(a) - multiset{x};
    assert multiset(b[..i] + b[i + 1..]) == multiset(b) - multiset{x};
  }

  /** Putting the same block after one sequence and amid another keeps two equal multisets equal. */
  lemma Shuffle(s: seq<Record>, x: seq<Record>, p: seq<Record>, q: seq<Record>)
    requires multiset(s) == multiset(p + q)
    ensures multiset(s + x) == multiset(p + x + q)
  {
    assert multiset(p + x + q) == multiset(p) + multiset(x) + multiset(q);
  }

  /** In a sequence without repetitions, every element occurs once. */
  lemma {:induction false} DistinctOccursOnce(s: seq<string>, x: string)
    requires forall i, j :: 0 <= i < j < |s| ==> s[i] != s[j]
    ensures multiset(s)[x] == if x in s then 1 else 0
    decreases |s|
  {
    if |s| > 0 {
      var init := s[..|s| - 1];
      assert s == init + [s[|s| - 1]];
      DistinctOccursOnce(init, x);
      assert s[|s| - 1] !in init;
    }
  }

  /** Two enumerations of the same keys hold the same keys as a multiset. */
  lemma EnumerationsAgree(a: seq<string>, b: seq<string>, keys: set<string>)
    requires IsEnumeration(a, keys) && IsEnumeration(b, keys)
    ensures multiset(a) == multiset(b)
  {
    forall x ensures multiset(a)[x] == multiset(b)[x] {
      DistinctOccursOnce(a, x);
      DistinctOccursOnce(b, x);
    }
  }

  /**
   * `MergeResource`'s records do not depend on the order Go happens to
   * visit the encoder's map in: any two visits give the same records, up
   * to their order.
   */
  lemma OrderIndependent(enc: Encoder, attrs: Attributes, a: seq<string>, b: seq<string>)
    requires IsEnumeration(a, enc.resourceByAttrKeys.Keys) && IsEnumeration(b, enc.resourceByAttrKeys.Keys)
    ensures multiset(MergeParams(enc, attrs, a)) == multiset(MergeParams(enc, attrs, b))
  {
    EnumerationsAgree(a, b, enc.resourceByAttrKeys.Keys);
    MergeParamsPermutation(enc, attrs, a, b);
  }

  /** The number of visited keys the resource carries. */
  lemma {:induction false} MergeParamsCount(enc: Encoder, attrs: Attributes, order: seq<string>)
    requires Known(enc, order)
    requires forall i, j :: 0 <= i < j < |order| ==> order[i] != order[j]
    ensures |MergeParams(enc, attrs, order)| == |set k | k in order && k in attrs|
    decreases |order|
  {
    if |order| > 0 {
      var init := order[..|order| - 1];
      var k := order[|order| - 1];
      MergeParamsCount(enc, attrs, init);
      assert order == init + [k];
      assert k !in init;
      FilterSnoc(init, k, attrs.Keys);
    }
  }

  /** The members of `s + [k]` in `p`: those of `s`, and `k` too if it is in `p`. */
  lemma FilterSnoc(s: seq<string>, k: string, p: set<string>)
    requires k !in s
    ensures |set x | x in s + [k] && x in p| == |set x | x in s && x in p| + (if k in p then 1 else 0)
  {
    var s0 := set x | x in s && x in p;
    var s1 := set x | x in s + [k] && x in p;
    if k in p {
      assert s1 == s0 + {k};
    } else {
      assert s1 == s0;
    }
  }

  /** One record for each configured key attribute the resource carries, and no others. */
  lemma OneRecordPerPresentKey(enc: Encoder, attrs: Attributes, order: seq<string>)
    requires IsEnumeration(order, enc.resourceByAttrKeys.Keys)
    ensures |MergeParams(enc, attrs, order)| == |enc.resourceByAttrKeys.Keys * attrs.Keys|
    ensures |MergeParams(enc, attrs, order)| <= |enc.resourceByAttrKeys|
    ensures forall k :: k in enc.resourceByAttrKeys && k in attrs ==> RecordFor(enc, attrs, k) in MergeParams(enc, attrs, order)
  {
    MergeParamsCount(enc, attrs, order);
    assert (set k | k in order && k in attrs) == enc.resourceByAttrKeys.Keys * attrs.Keys;
    RecordsAreOfPresentKeys(enc, attrs, order);
    forall k | k in enc.resourceByAttrKeys && k in attrs ensures RecordFor(enc, attrs, k) in MergeParams(enc, attrs, order) {
      var j :| 0 <= j < |order| && order[j] == k;
    }
    assert enc.resourceByAttrKeys.Keys * attrs.Keys <= enc.resourceByAttrKeys.Keys;
    SubsetCard(enc.resourceByAttrKeys.Keys * attrs.Keys, enc.resourceByAttrKeys.Keys);
  }

  lemma SubsetCard(a: set<string>, b: set<string>)
    requires a <= b
    ensures |a| <= |b|
  {
    assert b == a + (b - a);
  }
}

=== FILE: server.dfy ===
/**
 * The web toolkit's `Server`: its defaults, the options that adjust it,
 * the `WithMiddlewares` fold that stacks middleware around the main
 * handler, and `baseHandler`, which answers `/health` itself and passes
 * every other path to the main handler.
 */
module Server {
  import opened Wrappers
  import opened Http
  import Wrap
  import opened Pipeline

  /** `time.Second`, in nanoseconds. */
  const Second: int := 1_000_000_000
  const DefaultReadTimeout: int := 30 * Second
  const DefaultWriteTimeout: int := 30 * Second
  const DefaultIdleTimeout: int := 60 * Second
  const HealthPath := "/health"

  /**
   * The fields of `Server` and of the `http.Server` inside it that the
   * options touch. `errorLog` is the server's error logger, set only by
   * `WithLogger`.
   */
  datatype Server = Server(
    addr: string,
    readTimeout: int,
    writeTimeout: int,
    idleTimeout: int,
    main: Handler,
    logger: Logger,
    errorLog: Option<Logger>)

  datatype ServerOpt =
    | WithLogger(l: Option<Logger>)
    | WithReadTimeout(t: int)
    | WithWriteTimeout(t: int)
    | WithIdleTimeout(t: int)
    | WithMiddlewares(mws: seq<Middleware>)

  /** The server before any option is applied. */
  function Defaults(addr: string, mux: Handler): (s: Server)
    ensures s.addr == addr && s.main == mux
    ensures s.readTimeout == 30_000_000_000 && s.writeTimeout == 30_000_000_000 && s.idleTimeout == 60_000_000_000
    ensures s.logger == DefaultLogger && s.errorLog.None?
  {
    Server(addr, DefaultReadTimeout, DefaultWriteTimeout, DefaultIdleTimeout, mux, DefaultLogger, None)
  }

  /** The `WithMiddlewares` loop: each middleware in turn becomes the new outermost layer. */
  function Chain(mws: seq<Middleware>, h: Handler): Handler {
    if |mws| == 0 then h else Chain(mws[1..], Layer(mws[0], h))
  }

  /** One option applied to the server. */
  function Apply(s: Server, o: ServerOpt): (r: Server)
    ensures r.addr == s.addr
    ensures !o.WithLogger? ==> r.logger == s.logger && r.errorLog == s.errorLog
    ensures o.WithLogger? ==> r.logger == o.l.GetOr(DefaultLogger) && r.errorLog == Some(r.logger)
    ensures !o.WithReadTimeout? ==> r.readTimeout == s.readTimeout
    ensures !o.WithWriteTimeout? ==> r.writeTimeout == s.writeTimeout
    ensures !o.WithIdleTimeout? ==> r.idleTimeout == s.idleTimeout
    ensures !o.WithMiddlewares? ==> r.main == s.main
    ensures o.WithReadTimeout? ==> r.readTimeout == o.t
    ensures o.WithWriteTimeout? ==> r.writeTimeout == o.t
    ensures o.WithIdleTimeout? ==> r.idleTimeout == o.t
  {
    match o
    case WithLogger(l) =>
      var l' := if l.None? then DefaultLogger else l.value;
      s.(logger := l', errorLog := Some(l'))
    case WithReadTimeout(t) => s.(readTimeout := t)
    case WithWriteTimeout(t) => s.(writeTimeout := t)
    case WithIdleTimeout(t) => s.(idleTimeout := t)
    case WithMiddlewares(mws) => s.(main := Chain(mws, s.main))
  }

  /** The options applied from the first to the last, each to the previous result. */
  function ApplyAll(s: Server, opts: seq<ServerOpt>): Server
    decreases |opts|
  {
    if |opts| == 0 then s else ApplyAll(Apply(s, opts[0]), opts[1..])
  }

  /** `NewServer(addr, mux, opts...)`. */
  function NewServer(addr: string, mux: Handler, opts: seq<ServerOpt>): Server {
    ApplyAll(Defaults(addr, mux), opts)
  }

  /** Applying two lists of options is applying the first, then the second. */
  lemma {:induction false} ApplyAllAppend(s: Server, a: seq<ServerOpt>, b: seq<ServerOpt>)
    ensures ApplyAll(s, a + b) == ApplyAll(ApplyAll(s, a), b)
    decreases |a|
  {
    if |a| > 0 {
      assert (a + b)[0] == a[0];
      assert (a + b)[1..] == a[1..] + b;
      ApplyAllAppend(Apply(s, a[0]), a[1..], b);
    } else {
      assert a + b == b;
    }
  }

  /** The read timeout set by the last `WithReadTimeout` among the options, if there is one. */
  function LastReadTimeout(opts: seq<ServerOpt>): Option<int> {
    if |opts| == 0 then None
    else if opts[|opts| - 1].WithReadTimeout? then Some(opts[|opts| - 1].t)
    else LastReadTimeout(opts[..|opts| - 1])
  }

  /** The server's read timeout is the one the last `WithReadTimeout` gave, or the default when none did. */
  lemma {:induction false} ReadTimeoutIsLast(addr: string, mux: Handler, opts: seq<ServerOpt>)
    ensures NewServer(addr, mux, opts).readTimeout == LastReadTimeout(opts).GetOr(30 * Second)
    decreases |opts|
  {
    if |opts| > 0 {
      var init := opts[..|opts| - 1];
      var last := opts[|opts| - 1];
      ReadTimeoutIsLast(addr, mux, init);
      assert opts == init + [last];
      ApplyAllAppend(Defaults(addr, mux), init, [last]);
      assert ApplyAll(NewServer(addr, mux, init), [last]) == Apply(NewServer(addr, mux, init), last);
    }
  }

  /** Options other than the middleware one leave the main handler as given. */
  lemma {:induction false} MainUnlessMiddlewares(s: Server, opts: seq<ServerOpt>)
    requires forall i :: 0 <= i < |opts| ==> !opts[i].WithMiddlewares?
    ensures ApplyAll(s, opts).main == s.main
    decreases |opts|
  {
    if |opts| > 0 {
      MainUnlessMiddlewares(Apply(s, opts[0]), opts[1..]);
    }
  }

  /** `WithLogger(nil)` falls back to the default logger, which also becomes the server's error logger. */
  lemma NilLoggerIsDefault(s: Server)
    ensures Apply(s, WithLogger(None)).logger == DefaultLogger
    ensures Apply(s, WithLogger(None)).errorLog == Some(DefaultLogger)
  {
  }

  /**
   * `WithMiddlewares([m1, …, mn])` wraps `mn(…m1(h))`: the list reversed,
   * with its last element outermost.
   */
  lemma {:induction false} ChainIsReversedNest(mws: seq<Middleware>, h: Handler)
    ensures Chain(mws, h) == Nest(Reverse(mws), h)
    decreases |mws|
  {
    if |mws| > 0 {
      ChainIsReversedNest(mws[1..], Layer(mws[0], h));
      assert Reverse(mws) == Reverse(mws[1..]) + [mws[0]];
      NestSnoc(Reverse(mws[1..]), mws[0], h);
    }
  }

  /** The layers of the chained handler: the listed middlewares, last first, above the old ones. */
  lemma ChainLayers(mws: seq<Middleware>, h: Handler)
    ensures Layers(Chain(mws, h)) == Labels(Reverse(mws)) + Layers(h)
    ensures |mws| > 0 ==> Layers(Chain(mws, h))[0] == Label(mws[|mws| - 1])
  {
    ChainIsReversedNest(mws, h);
    LayersNest(Reverse(mws), h);
  }

  /** An empty middleware list leaves the handler unchanged. */
  lemma ChainEmpty(h: Handler)
    ensures Chain([], h) == h
  {
  }

  /**
   * Through caller-supplied middlewares added by `WithMiddlewares`, the
   * last one listed runs its part first, and each is left in the opposite
   * order once the handler underneath has been reached.
   */
  lemma ChainTrace(mws: seq<Middleware>, ops: seq<Wrap.Op>, w: Wrap.Writer, r: Request)
    requires AllCustom(mws) && ValidBefores(mws) && Wrap.ValidCodes(ops)
    requires !Wrap.Root(w).panicked
    ensures Serve(Chain(mws, Leaf(Static(ops))), w, r).trace == Enters(Reverse(mws)) + [Reached] + Leaves(Reverse(mws))
    ensures |mws| > 0 ==> Serve(Chain(mws, Leaf(Static(ops))), w, r).trace[0] == Enter(mws[|mws| - 1].name)
  {
    ChainIsReversedNest(mws, Leaf(Static(ops)));
    var rev := Reverse(mws);
    assert AllCustom(rev) && ValidBefores(rev) by {
      forall i | 0 <= i < |rev| ensures rev[i].Custom? && Wrap.ValidCodes(rev[i].before) {
        assert rev[i] == mws[|mws| - 1 - i];
      }
    }
    NestTrace(rev, ops, w, r);
  }

  /** `baseHandler`: `/health` is answered by the health responder, every other path by the main handler. */
  function Route(main: Handler, path: string): (h: Handler)
    ensures path == "/health" ==> h == Leaf(Health)
    ensures path != "/health" ==> h == main
  {
    if path == HealthPath then Leaf(Health) else main
  }

  /** What the server answers to a request, on a fresh response. */
  function Handle(s: Server, r: Request): Outcome {
    Serve(Route(s.main, r.path), Wrap.Base(Wrap.Fresh), r)
  }

  /** `/health` answers 200 with a JSON content type and the body `{"ok":true}` and a newline, whatever the main handler is. */
  lemma HealthAnswers(s: Server, r: Request)
    requires r.path == "/health"
    ensures Wrap.Root(Handle(s, r).w) == Wrap.Recorder(map["Content-Type" := "application/json"], Some(200), "{\"ok\":true}\n", false)
    ensures !Handle(s, r).panicked
  {
  }

  /** Any other path is served by the main handler exactly. */
  lemma OtherPathsReachMain(s: Server, r: Request)
    requires r.path != "/health"
    ensures Handle(s, r) == Serve(s.main, Wrap.Base(Wrap.Fresh), r)
  {
  }
}

=== FILE: text.dfy ===
/**
 * The Go string primitives the web toolkit builds on: `strings.Split`,
 * `strings.TrimSpace`, `strings.IndexByte`/`LastIndexByte`, and decimal
 * rendering as `strconv.Itoa` performs it. Strings are `seq<char>`.
 */
module Text {

  /** `unicode.IsSpace`: the Latin-1 spaces plus the Unicode White_Space property. */
  predicate IsSpace(c: char) {
    || c == ' ' || c == '\t' || c == '\n' || c == '\r'
    || c == '\U{000B}' || c == '\U{000C}' || c == '\U{0085}' || c == '\U{00A0}'
    || c == '\U{1680}' || ('\U{2000}' <= c <= '\U{200A}')
    || c == '\U{2028}' || c == '\U{2029}' || c == '\U{202F}' || c == '\U{205F}' || c == '\U{3000}'
  }

  predicate AllSpace(s: string) {
    forall i :: 0 <= i < |s| ==> IsSpace(s[i])
  }

  /** Leading white space removed. */
  function TrimLeft(s: string): (r: string)
    ensures |r| <= |s| && r == s[|s| - |r|..]
    ensures AllSpace(s[..|s| - |r|])
    ensures r != [] ==> !IsSpace(r[0])
  {
    if |s| > 0 && IsSpace(s[0]) then
      var t := s[1..];
      var r := TrimLeft(t);
      assert t[|t| - |r|..] == s[|s| - |r|..];
      assert s[..|s| - |r|] == [s[0]] + t[..|t| - |r|];
      AllSpaceCons(s[0], t[..|t| - |r|]);
      r
    else s
  }

  lemma AllSpaceSnoc(u: string, c: char)
    requires IsSpace(c) && AllSpace(u)
    ensures AllSpace(u + [c])
  {
    assert forall i :: 0 <= i < |u| ==> (u + [c])[i] == u[i];
  }

  lemma AllSpaceCons(c: char, u: string)
    requires IsSpace(c) && AllSpace(u)
    ensures AllSpace([c] + u)
  {
    assert forall i :: 1 <= i < |u| + 1 ==> ([c] + u)[i] == u[i - 1];
  }

  /** Trailing white space removed. */
  function TrimRight(s: string): (r: string)
    ensures |r| <= |s| && r == s[..|r|]
    ensures AllSpace(s[|r|..])
    ensures r != [] ==> !IsSpace(r[|r| - 1])
  {
    if |s| > 0 && IsSpace(s[|s| - 1]) then
      var p := s[..|s| - 1];
      var r := TrimRight(p);
      assert p[..|r|] == s[..|r|];
      assert s[|r|..] == p[|r|..] + [s[|s| - 1]];
      AllSpaceSnoc(p[|r|..], s[|s| - 1]);
      r
    else s
  }

  /** `strings.TrimSpace`: the longest middle part of `s` that neither starts nor ends with white space. */
  function TrimSpace(s: string): (r: string)
    ensures exists i, j :: 0 <= i <= j <= |s| && r == s[i..j] && AllSpace(s[..i]) && AllSpace(s[j..])
    ensures r != [] ==> !IsSpace(r[0]) && !IsSpace(r[|r| - 1])
  {
    var l := TrimLeft(s);
    var r := TrimRight(l);
    TrimBothEnds(s, l, r);
    r
  }

  /** The two trims compose into one middle slice with white space on both sides cut off. */
  lemma TrimBothEnds(s: string, l: string, r: string)
    requires |l| <= |s| && l == s[|s| - |l|..] && AllSpace(s[..|s| - |l|])
    requires l != [] ==> !IsSpace(l[0])
    requires |r| <= |l| && r == l[..|r|] && AllSpace(l[|r|..])
    requires r != [] ==> !IsSpace(r[|r| - 1])
    ensures exists i, j :: 0 <= i <= j <= |s| && r == s[i..j] && AllSpace(s[..i]) && AllSpace(s[j..])
    ensures r != [] ==> !IsSpace(r[0]) && !IsSpace(r[|r| - 1])
  {
    var i := |s| - |l|;
    var j := i + |r|;
    assert r == s[i..j];
    assert s[j..] == l[|r|..];
    assert r != [] ==> r[0] == l[0];
  }

  /** A string without white space at either end is its own trimmed form. */
  lemma TrimSpaceKeepsTrimmed(s: string)
    requires s != [] ==> !IsSpace(s[0]) && !IsSpace(s[|s| - 1])
    ensures TrimSpace(s) == s
  {
  }

  /** `strings.IndexByte`: the first position of `c`, or -1. */
  function FirstIndex(s: string, c: char): (i: int)
    ensures -1 <= i < |s|
    ensures i == -1 <==> c !in s
    ensures 0 <= i ==> s[i] == c && c !in s[..i]
  {
    if |s| == 0 then -1
    else if s[0] == c then 0
    else
      var j := FirstIndex(s[1..], c);
      if j < 0 then -1
      else
        assert s[..j + 1] == [s[0]] + s[1..][..j];
        j + 1
  }

  /** `strings.LastIndexByte`: the last position of `c`, or -1. */
  function LastIndex(s: string, c: char): (i: int)
    ensures -1 <= i < |s|
    ensures i == -1 <==> c !in s
    ensures 0 <= i ==> s[i] == c && c !in s[i + 1..]
  {
    if |s| == 0 then -1
    else if s[|s| - 1] == c then |s| - 1
    else
      var j := LastIndex(s[..|s| - 1], c);
      assert j >= 0 ==> s[j + 1..] == s[..|s| - 1][j + 1..] + [s[|s| - 1]];
      j
  }

  /** The inverse of `Split`: the parts glued back with the separator between them. */
  function Join(parts: seq<string>, sep: char): string
    requires |parts| >= 1
  {
    if |parts| == 1 then parts[0] else parts[0] + [sep] + Join(parts[1..], sep)
  }

  /**
   * `strings.Split` with a one-character separator: the maximal separator-free
   * pieces, in order. An empty string gives one empty piece.
   */
  function Split(s: string, sep: char): (parts: seq<string>)
    ensures |parts| >= 1
    ensures forall k :: 0 <= k < |parts| ==> sep !in parts[k]
    ensures Join(parts, sep) == s
    decreases |s|
  {
    var i := FirstIndex(s, sep);
    if i < 0 then [s]
    else
      var rest := Split(s[i + 1..], sep);
      assert ([s[..i]] + rest)[1..] == rest;
      assert s == s[..i] + [sep] + s[i + 1..];
      [s[..i]] + rest
  }

  /** The separator occurs at the end of the first part and nowhere before it. */
  lemma FirstIndexOfJoin(p: string, sep: char, tail: string)
    requires sep !in p
    ensures FirstIndex(p + [sep] + tail, sep) == |p|
  {
    var s := p + [sep] + tail;
    var i := FirstIndex(s, sep);
    assert s[|p|] == sep;
    assert s[..|p|] == p;
  }

  /** The separator occurs right after the first part and nowhere after it. */
  lemma LastIndexOfJoin(head: string, sep: char, p: string)
    requires sep !in p
    ensures LastIndex(head + [sep] + p, sep) == |head|
  {
    var s := head + [sep] + p;
    assert s[|head|] == sep;
    assert s[|head| + 1..] == p;
  }

  /** A character other than the separator occurs in a join only if it occurs in a part. */
  lemma {:induction false} JoinExcludes(parts: seq<string>, sep: char, c: char)
    requires |parts| >= 1 && c != sep
    requires forall k :: 0 <= k < |parts| ==> c !in parts[k]
    ensures c !in Join(parts, sep)
  {
    if |parts| > 1 {
      JoinExcludes(parts[1..], sep, c);
    }
  }

  /** Splitting a separator-free part, the separator and a tail gives the part and the tail's pieces. */
  lemma SplitCons(p: string, sep: char, tail: string)
    requires sep !in p
    ensures Split(p + [sep] + tail, sep) == [p] + Split(tail, sep)
  {
    var s := p + [sep] + tail;
    FirstIndexOfJoin(p, sep, tail);
    assert s[..|p|] == p;
    assert s[|p| + 1..] == tail;
  }

  /** Splitting what `Join` glued gives the parts back, when no part holds the separator. */
  lemma {:induction false} SplitJoin(parts: seq<string>, sep: char)
    requires |parts| >= 1
    requires forall k :: 0 <= k < |parts| ==> sep !in parts[k]
    ensures Split(Join(parts, sep), sep) == parts
  {
    if |parts| == 1 {
      assert Join(parts, sep) == parts[0];
    } else {
      var tail := Join(parts[1..], sep);
      assert Join(parts, sep) == parts[0] + [sep] + tail;
      SplitCons(parts[0], sep, tail);
      SplitJoin(parts[1..], sep);
      assert parts == [parts[0]] + parts[1..];
    }
  }

  predicate IsDigit(c: char) {
    '0' <= c <= '9'
  }

  predicate AllDigits(s: string) {
    forall i :: 0 <= i < |s| ==> IsDigit(s[i])
  }

  function DigitChar(d: nat): (c: char)
    requires d < 10
    ensures IsDigit(c)
  {
    ['0', '1', '2', '3', '4', '5', '6', '7', '8', '9'][d]
  }

  function DigitValue(c: char): (d: nat)
    requires IsDigit(c)
    ensures d < 10 && DigitChar(d) == c
  {
    (c as int) - ('0' as int)
  }

  /** `strconv.Itoa` for a non-negative value: shortest decimal, no leading zero. */
  function NatToString(n: nat): (s: string)
    ensures |s| >= 1 && AllDigits(s)
    ensures |s| > 1 ==> s[0] != '0'
    decreases n
  {
    if n < 10 then [DigitChar(n)] else NatToString(n / 10) + [DigitChar(n % 10)]
  }

  /** `strconv.Itoa` for any value: a minus sign in front of a negative one. */
  function IntToString(n: int): (s: string)
    ensures |s| >= 1
    ensures s[0] == '-' <==> n < 0
    ensures n < 0 ==> AllDigits(s[1..])
    ensures n >= 0 ==> AllDigits(s)
  {
    if n < 0 then "-" + NatToString(-n) else NatToString(n)
  }

  /** The value of a string of decimal digits (leading zeros allowed). */
  function DecimalValue(s: string): nat
    requires AllDigits(s)
  {
    if |s| == 0 then 0 else DecimalValue(s[..|s| - 1]) * 10 + DigitValue(s[|s| - 1])
  }

  /** Reading back what `NatToString` wrote gives the number. */
  lemma {:induction false} DecimalValueOfNatToString(n: nat)
    ensures DecimalValue(NatToString(n)) == n
    decreases n
  {
    if n >= 10 {
      var s := NatToString(n);
      DecimalValueOfNatToString(n / 10);
      assert s[..|s| - 1] == NatToString(n / 10);
    }
  }

  /** A decimal text without a superfluous leading zero whose first digit is not '0' has a positive value. */
  lemma {:induction false} DecimalValuePositive(f: string)
    requires AllDigits(f) && |f| >= 1 && f[0] != '0'
    ensures DecimalValue(f) >= 1
    decreases |f|
  {
    if |f| > 1 {
      var p := f[..|f| - 1];
      assert p[0] == f[0];
      DecimalValuePositive(p);
    }
  }

  /** A decimal text without a superfluous leading zero is exactly what `NatToString` writes for its value. */
  lemma {:induction false} NatToStringOfDecimalValue(f: string)
    requires AllDigits(f) && |f| >= 1 && (|f| > 1 ==> f[0] != '0')
    ensures NatToString(DecimalValue(f)) == f
    decreases |f|
  {
    if |f| > 1 {
      var p := f[..|f| - 1];
      var d := DigitValue(f[|f| - 1]);
      assert p[0] == f[0];
      DecimalValuePositive(p);
      NatToStringOfDecimalValue(p);
      var v := DecimalValue(f);
      assert v == DecimalValue(p) * 10 + d;
      assert v / 10 == DecimalValue(p) && v % 10 == d;
      assert f == p + [f[|f| - 1]];
    }
  }

  /** The number of bytes one character takes in UTF-8. */
  function Utf8Width(c: char): (n: nat)
    ensures 1 <= n <= 4
    ensures n == 1 <==> (c as int) < 0x80
  {
    if (c as int) < 0x80 then 1
    else if (c as int) < 0x800 then 2
    else if (c as int) < 0x1_0000 then 3
    else 4
  }

  /** The length of a string's UTF-8 encoding: what Go's `len` counts. */
  function Utf8Len(s: string): (n: nat)
    ensures n >= |s|
  {
    if |s| == 0 then 0 else Utf8Len(s[..|s| - 1]) + Utf8Width(s[|s| - 1])
  }

  lemma {:induction false} Utf8LenAppend(a: string, b: string)
    ensures Utf8Len(a + b) == Utf8Len(a) + Utf8Len(b)
    decreases |b|
  {
    if |b| > 0 {
      var b' := b[..|b| - 1];
      assert (a + b)[..|a + b| - 1] == a + b' && (a + b)[|a + b| - 1] == b[|b| - 1];
      Utf8LenAppend(a, b');
    } else {
      assert a + b == a;
    }
  }

  /** A string counts one byte per character exactly when every character is ASCII. */
  lemma {:induction false} Utf8LenAscii(s: string)
    ensures Utf8Len(s) == |s| <==> forall k :: 0 <= k < |s| ==> (s[k] as int) < 0x80
  {
    if |s| > 0 {
      var s' := s[..|s| - 1];
      Utf8LenAscii(s');
      assert forall k :: 0 <= k < |s'| ==> s'[k] == s[k];
    }
  }
}

=== FILE: wrap.dfy ===
/**
 * Response writers and the counting wrappers of the web toolkit: the
 * server-side writer that delivers status, headers and body to the client,
 * `respWriterWrapper` that records the status and counts the bytes written,
 * and `bodyWrapper` that counts the bytes read from a request body.
 * The atomic counters are plain integers here.
 */
module Wrap {
  import opened Wrappers
  import Text

  /**
   * What the client receives: headers, the status line once it is sent, and
   * the body; and whether a call on the writer panicked, after which nothing
   * more reaches the client.
   */
  datatype Recorder = Recorder(header: map<string, string>, status: Option<int>, body: string, panicked: bool)

  const Fresh: Recorder := Recorder(map[], None, "", false)

  /**
   * A response writer: the server's own, or `respWriterWrapper` around
   * another writer, with its recorded status and its byte counter.
   */
  datatype Writer =
    | Base(rec: Recorder)
    | Counting(inner: Writer, status: int, written: int)

  /** The server's writer underneath any number of wrappers. */
  function Root(w: Writer): Recorder {
    match w
    case Base(rec) => rec
    case Counting(inner, _, _) => Root(inner)
  }

  /** How many wrappers sit above the server's writer. */
  function Depth(w: Writer): (d: nat)
    ensures d > 0 <==> w.Counting?
  {
    match w
    case Base(_) => 0
    case Counting(inner, _, _) => 1 + Depth(inner)
  }

  /** The server's writer panics on a status code outside 100..999. */
  predicate ValidCode(code: int) {
    100 <= code <= 999
  }

  /** A 1xx code other than 101 is sent ahead of the final status and does not replace it. */
  predicate Informational(code: int) {
    100 <= code <= 199 && code != 101
  }

  /** A response with a 1xx, 204 or 304 status carries no body. */
  predicate BodyAllowed(status: int) {
    !(100 <= status <= 199) && status != 204 && status != 304
  }

  /** A `Write` on `w` reaches the client's body: no panic, and the status sent (or 200 to come) allows a body. */
  predicate Delivers(w: Writer) {
    !Root(w).panicked && BodyAllowed(Root(w).status.GetOr(200))
  }

  /** `newRespWriterWrapper`: status 200, nothing written yet. */
  function NewWrapper(w: Writer): (r: Writer)
    ensures r.Counting? && r.inner == w
    ensures r.status == 200 && r.written == 0
    ensures Root(r) == Root(w)
  {
    Counting(w, 200, 0)
  }

  /**
   * `WriteHeader`. The server's writer panics on an invalid code, sends an
   * informational 1xx code ahead without settling the status, sends any
   * other code as the status, and ignores every call once a status was
   * sent. The counting wrapper only records the code and does not pass it
   * on.
   */
  function WriteHeader(w: Writer, code: int): (r: Writer)
    ensures w.Counting? ==> r.Counting? && r.status == code && r.inner == w.inner && r.written == w.written
    ensures Root(r).body == Root(w).body && Root(r).header == Root(w).header
    ensures Root(r).panicked <==> Root(w).panicked || (w.Base? && Root(w).status.None? && !ValidCode(code))
    ensures Root(r).status ==
      if w.Base? && !Root(w).panicked && Root(w).status.None? && ValidCode(code) && !Informational(code)
      then Some(code) else Root(w).status
    ensures Depth(r) == Depth(w)
  {
    match w
    case Base(rec) =>
      if rec.panicked || rec.status.Some? || Informational(code) then w
      else if !ValidCode(code) then Base(rec.(panicked := true))
      else Base(rec.(status := Some(code)))
    case Counting(inner, _, written) => Counting(inner, code, written)
  }

  /**
   * `Write`: a status of 200 is sent first if none was; the bytes reach the
   * client's body when the status allows one, and otherwise nothing is
   * written and the count is 0. Each counting wrapper on the way adds the
   * byte count returned from below. Returns the new writer and that count.
   */
  function Write(w: Writer, p: string): (r: (Writer, nat))
    ensures r.1 == if Delivers(w) then Text.Utf8Len(p) else 0
    ensures Root(r.0).body == Root(w).body + (if Delivers(w) then p else [])
    ensures Root(r.0).header == Root(w).header && Root(r.0).panicked == Root(w).panicked
    ensures Root(r.0).status == if Root(w).panicked then Root(w).status else Some(Root(w).status.GetOr(200))
    ensures w.Counting? ==> r.0.Counting? && r.0.status == w.status && r.0.written == w.written + r.1
    ensures Depth(r.0) == Depth(w)
  {
    match w
    case Base(rec) =>
      if rec.panicked then (w, 0)
      else
        var status := rec.status.GetOr(200);
        if BodyAllowed(status) then (Base(rec.(status := Some(status), body := rec.body + p)), Text.Utf8Len(p))
        else (Base(rec.(status := Some(status))), 0)
    case Counting(inner, status, written) =>
      var (inner', n) := Write(inner, p);
      (Counting(inner', status, written + n), n)
  }

  /**
   * `Header().Set(key, value)`: wrappers hand out the server's header map;
   * a change after the status was sent no longer reaches the client.
   */
  function SetHeader(w: Writer, key: string, value: string): (r: Writer)
    ensures Root(r).header == if Root(w).status.None? && !Root(w).panicked then Root(w).header[key := value] else Root(w).header
    ensures Root(r).status == Root(w).status && Root(r).body == Root(w).body && Root(r).panicked == Root(w).panicked
    ensures w.Counting? ==> r.Counting? && r.status == w.status && r.written == w.written
    ensures Depth(r) == Depth(w)
  {
    match w
    case Base(rec) => if rec.status.None? && !rec.panicked then Base(rec.(header := rec.header[key := value])) else w
    case Counting(inner, status, written) => Counting(SetHeader(inner, key, value), status, written)
  }

  /** `Header().Del(key)`, which likewise stops mattering once the status was sent. */
  function DelHeader(w: Writer, key: string): (r: Writer)
    ensures Root(r).header == if Root(w).status.None? && !Root(w).panicked then Root(w).header - {key} else Root(w).header
    ensures Root(r).status == Root(w).status && Root(r).body == Root(w).body && Root(r).panicked == Root(w).panicked
    ensures w.Counting? ==> r.Counting? && r.status == w.status && r.written == w.written
    ensures Depth(r) == Depth(w)
  {
    match w
    case Base(rec) => if rec.status.None? && !rec.panicked then Base(rec.(header := rec.header - {key})) else w
    case Counting(inner, status, written) => Counting(DelHeader(inner, key), status, written)
  }

  const ContentLength := "Content-Length"
  const ContentType := "Content-Type"
  const PlainText := "text/plain; charset=utf-8"
  const ContentTypeOptions := "X-Content-Type-Options"
  const NoSniff := "nosniff"

  /** The headers `http.Error` leaves: no length, and a plain-text body that must not be sniffed. */
  function ErrorHeader(h: map<string, string>): (r: map<string, string>)
    ensures ContentLength !in r && ContentType in r && ContentTypeOptions in r
    ensures r[ContentType] == PlainText && r[ContentTypeOptions] == NoSniff
    ensures forall k :: k in h && k !in {ContentLength, ContentType, ContentTypeOptions} ==> k in r && r[k] == h[k]
    ensures forall k :: k in r ==> k in h || k in {ContentType, ContentTypeOptions}
  {
    (h - {ContentLength})[ContentType := PlainText][ContentTypeOptions := NoSniff]
  }

  /**
   * `http.Error(w, msg, code)`: the headers are reset for a plain-text
   * body, `code` is sent, then `msg` and a newline are written. Sending
   * the code may panic; a status already sent stays; a 1xx code leaves the
   * status to the write, which sends 200; the text reaches the client
   * unless the status forbids a body.
   */
  function Error(w: Writer, msg: string, code: int): (r: Writer)
    ensures Root(r).panicked <==> Root(w).panicked || (w.Base? && Root(w).status.None? && !ValidCode(code))
    ensures Root(r).status ==
      if Root(r).panicked then Root(w).status
      else if w.Base? && Root(w).status.None? && !Informational(code) then Some(code)
      else Some(Root(w).status.GetOr(200))
    ensures Root(r).body == Root(w).body + (if !Root(r).panicked && BodyAllowed(Root(r).status.value) then msg + "\n" else [])
    ensures Root(r).header == if Root(w).status.None? && !Root(w).panicked then ErrorHeader(Root(w).header) else Root(w).header
    ensures w.Counting? ==> r.Counting? && r.status == code
    ensures w.Counting? ==> r.written == w.written + (if Delivers(w) then Text.Utf8Len(msg) + 1 else 0)
    ensures Depth(r) == Depth(w)
  {
    var w1 := SetHeader(SetHeader(DelHeader(w, ContentLength), ContentType, PlainText), ContentTypeOptions, NoSniff);
    Text.Utf8LenAppend(msg, "\n");
    Write(WriteHeader(w1, code), msg + "\n").0
  }

  /**
   * `http.Error` on the server's writer with a final code that allows a
   * body, before or after a status was sent: the status sent first stays
   * and the text is appended.
   */
  lemma ErrorOnBase(w: Writer, msg: string, code: int)
    requires w.Base? && !Root(w).panicked
    requires ValidCode(code) && !Informational(code) && BodyAllowed(Root(w).status.GetOr(code))
    ensures var r := Error(w, msg, code);
      && r.Base? && !Root(r).panicked
      && Root(r).status == Some(Root(w).status.GetOr(code))
      && Root(r).body == Root(w).body + msg + "\n"
  {
  }

  /**
   * `http.Error` through a counting wrapper before any status was sent:
   * the code stays with the wrapper, and the text is sent with status 200.
   */
  lemma ErrorThroughCounting(w: Writer, msg: string, code: int)
    requires w.Counting? && !Root(w).panicked && Root(w).status.None?
    ensures var r := Error(w, msg, code);
      && r.Counting? && r.status == code && !Root(r).panicked
      && Root(r).status == Some(200)
      && Root(r).body == Root(w).body + msg + "\n"
  {
  }

  /** One call made on a writer by a handler. */
  datatype Op = SetHeaderOp(key: string, value: string) | WriteHeaderOp(code: int) | WriteOp(data: string)

  /** One call: the new writer, and the counts returned so far extended by a `Write`'s count. */
  function Step(w: Writer, ns: seq<nat>, op: Op): (r: (Writer, seq<nat>))
    ensures w.Counting? ==> r.0.Counting?
    ensures w.Counting? || !op.WriteHeaderOp? ==> Root(r.0).panicked == Root(w).panicked
    ensures Depth(r.0) == Depth(w)
  {
    match op
    case SetHeaderOp(k, v) => (SetHeader(w, k, v), ns)
    case WriteHeaderOp(c) => (WriteHeader(w, c), ns)
    case WriteOp(p) =>
      var (w', n) := Write(w, p);
      (w', ns + [n])
  }

  /** The writer after the calls in order, and the counts the `Write` calls returned. */
  function Replay(w: Writer, ops: seq<Op>): (r: (Writer, seq<nat>))
    ensures w.Counting? ==> r.0.Counting? && Root(r.0).panicked == Root(w).panicked
    ensures Depth(r.0) == Depth(w)
  {
    if |ops| == 0 then (w, [])
    else
      var (w', ns) := Replay(w, ops[..|ops| - 1]);
      Step(w', ns, ops[|ops| - 1])
  }

  function Sum(ns: seq<nat>): nat {
    if |ns| == 0 then 0 else Sum(ns[..|ns| - 1]) + ns[|ns| - 1]
  }

  /** Every `WriteHeader` among the calls passes a valid code. */
  predicate ValidCodes(ops: seq<Op>) {
    forall i :: 0 <= i < |ops| ==> ops[i].WriteHeaderOp? ==> ValidCode(ops[i].code)
  }

  /**
   * Calls that pass only valid codes never panic, and a single invalid
   * code panics the server's writer when no status was sent yet.
   */
  lemma {:induction false} PanicsOnlyOnInvalidCode(w: Writer, ops: seq<Op>)
    requires !Root(w).panicked
    ensures ValidCodes(ops) ==> !Root(Replay(w, ops).0).panicked
    ensures w.Base? && Root(w).status.None? && ops == [WriteHeaderOp(0)] ==> Root(Replay(w, ops).0).panicked
  {
    if |ops| > 0 {
      var init := ops[..|ops| - 1];
      assert forall i :: 0 <= i < |init| ==> init[i] == ops[i];
      PanicsOnlyOnInvalidCode(w, init);
    }
  }

  /** The status code of the last `WriteHeader` call, or `dflt` when there was none. */
  function LastStatus(ops: seq<Op>, dflt: int): int {
    if |ops| == 0 then dflt
    else if ops[|ops| - 1].WriteHeaderOp? then ops[|ops| - 1].code
    else LastStatus(ops[..|ops| - 1], dflt)
  }

  /** The calls other than `WriteHeader`, in order. */
  function Forwarded(ops: seq<Op>): (r: seq<Op>)
    ensures |r| <= |ops|
    ensures forall i :: 0 <= i < |r| ==> !r[i].WriteHeaderOp?
  {
    if |ops| == 0 then []
    else
      var last := ops[|ops| - 1];
      Forwarded(ops[..|ops| - 1]) + (if last.WriteHeaderOp? then [] else [last])
  }

  /**
   * After any calls on a fresh counting wrapper: its status is the last one
   * recorded (200 if none), its counter is the sum of the counts `Write`
   * returned, and the writer underneath is exactly what it would be had the
   * `WriteHeader` calls never been made.
   */
  lemma {:induction false} CountingReplay(w: Writer, ops: seq<Op>)
    ensures Replay(NewWrapper(w), ops).0.status == LastStatus(ops, 200)
    ensures Replay(NewWrapper(w), ops).0.written == Sum(Replay(NewWrapper(w), ops).1)
    ensures Replay(NewWrapper(w), ops).0.inner == Replay(w, Forwarded(ops)).0
    ensures Replay(NewWrapper(w), ops).1 == Replay(w, Forwarded(ops)).1
  {
    if |ops| > 0 {
      var init := ops[..|ops| - 1];
      var last := ops[|ops| - 1];
      CountingReplay(w, init);
      var f := Forwarded(init);
      var (cw, ns) := Replay(NewWrapper(w), init);
      var (iw, ms) := Replay(w, f);
      assert cw == Counting(iw, cw.status, cw.written);
      if !last.WriteHeaderOp? {
        assert (f + [last])[..|f + [last]| - 1] == f;
        assert Replay(w, Forwarded(ops)) == Step(iw, ms, last);
        StepThroughCounting(iw, ms, cw.status, cw.written, last);
      } else {
        assert Forwarded(ops) == f;
        assert Replay(NewWrapper(w), ops) == (Counting(iw, last.code, cw.written), ns);
      }
    }
  }

  /** A call other than `WriteHeader` on a counting wrapper is the same call on the writer inside. */
  lemma StepThroughCounting(iw: Writer, ns: seq<nat>, status: int, written: int, op: Op)
    requires !op.WriteHeaderOp?
    ensures Step(Counting(iw, status, written), ns, op).0.inner == Step(iw, ns, op).0
    ensures Step(Counting(iw, status, written), ns, op).1 == Step(iw, ns, op).1
    ensures Step(Counting(iw, status, written), ns, op).0.status == status
    ensures Step(Counting(iw, status, written), ns, op).0.written - written == Sum(Step(iw, ns, op).1) - Sum(ns)
  {
    if op.WriteOp? {
      var n := Write(iw, op.data).1;
      assert (ns + [n])[..|ns|] == ns;
    }
  }

  /** The bytes each `Write` hands over reach the client's body in order. */
  function Concat(ops: seq<Op>): string {
    if |ops| == 0 then []
    else Concat(ops[..|ops| - 1]) + (if ops[|ops| - 1].WriteOp? then ops[|ops| - 1].data else [])
  }

  /** No `WriteHeader` among the calls. */
  predicate NoWriteHeader(ops: seq<Op>) {
    forall i :: 0 <= i < |ops| ==> !ops[i].WriteHeaderOp?
  }

  /**
   * While the writer delivers, and no `WriteHeader` reaches the server's
   * writer (there is a counting wrapper on top, or no such call), the
   * client's body is the old body followed by the bytes of the `Write`
   * calls, and the counts returned add up to their length in bytes.
   */
  lemma {:induction false} BodyReplay(w: Writer, ops: seq<Op>)
    requires Delivers(w)
    requires w.Counting? || NoWriteHeader(ops)
    ensures Root(Replay(w, ops).0).body == Root(w).body + Concat(ops)
    ensures Sum(Replay(w, ops).1) == Text.Utf8Len(Concat(ops))
    ensures Delivers(Replay(w, ops).0)
  {
    if |ops| > 0 {
      var init := ops[..|ops| - 1];
      var last := ops[|ops| - 1];
      assert forall i :: 0 <= i < |init| ==> init[i] == ops[i];
      BodyReplay(w, init);
      var (w', ns) := Replay(w, init);
      assert Replay(w, ops) == Step(w', ns, last);
      DeliveringStep(w', ns, last);
      ConcatSnoc(Root(w).body, init, last, Concat(ops));
    } else {
      assert Root(w).body + [] == Root(w).body;
    }
  }

  /** The bytes of the calls so far, then those of one more call. */
  lemma ConcatSnoc(prefix: string, init: seq<Op>, last: Op, all: string)
    requires all == Concat(init + [last])
    ensures prefix + all == prefix + Concat(init) + (if last.WriteOp? then last.data else [])
    ensures Text.Utf8Len(all) == Text.Utf8Len(Concat(init)) + (if last.WriteOp? then Text.Utf8Len(last.data) else 0)
  {
    assert (init + [last])[..|init|] == init;
    Text.Utf8LenAppend(Concat(init), if last.WriteOp? then last.data else []);
  }

  /** One call on a delivering writer, when a `WriteHeader` cannot reach the server's writer. */
  lemma DeliveringStep(w: Writer, ns: seq<nat>, op: Op)
    requires Delivers(w)
    requires w.Counting? || !op.WriteHeaderOp?
    ensures Delivers(Step(w, ns, op).0)
    ensures Root(Step(w, ns, op).0).body == Root(w).body + (if op.WriteOp? then op.data else [])
    ensures Sum(Step(w, ns, op).1) == Sum(ns) + (if op.WriteOp? then Text.Utf8Len(op.data) else 0)
  {
    if op.WriteOp? {
      var n := Write(w, op.data).1;
      assert (ns + [n])[..|ns|] == ns;
    } else {
      assert Root(w).body + [] == Root(w).body;
    }
  }

  /**
   * Once a writer has stopped delivering, after a panic or under a status
   * that allows no body, it never delivers again: the body stays as it is
   * and every `Write` returns 0.
   */
  lemma {:induction false} NoDelivery(w: Writer, ops: seq<Op>)
    requires !Delivers(w)
    ensures !Delivers(Replay(w, ops).0)
    ensures Root(Replay(w, ops).0).body == Root(w).body
    ensures Sum(Replay(w, ops).1) == 0
  {
    if |ops| > 0 {
      NoDelivery(w, ops[..|ops| - 1]);
      var (w', ns) := Replay(w, ops[..|ops| - 1]);
      var last := ops[|ops| - 1];
      if last.WriteOp? {
        assert (ns + [0])[..|ns|] == ns;
      }
    }
  }

  /** A request body: an in-memory reader of bytes that can be closed. */
  datatype Reader = Reader(data: seq<bv8>, closed: bool)

  /** `bodyWrapper`: a reader and the number of bytes read through it. */
  datatype BodyWrapper = BodyWrapper(src: Reader, read: int)

  function Min(a: nat, b: nat): nat {
    if a < b then a else b
  }

  /**
   * `Read` into a buffer of `size` bytes. The underlying reader may hand
   * out fewer bytes than asked for: `n` is how many it chooses to, cut to
   * the buffer and to what it has left. A request body that was closed
   * hands out nothing. The counter grows by exactly the count returned.
   */
  function Read(b: BodyWrapper, size: nat, n: nat): (r: (BodyWrapper, seq<bv8>))
    ensures b.src.data == r.1 + r.0.src.data
    ensures |r.1| <= size && |r.1| <= n
    ensures b.src.closed ==> r.1 == []
    ensures !b.src.closed ==> |r.1| == n || |r.1| == size || r.0.src.data == []
    ensures r.0.read == b.read + |r.1|
    ensures r.0.src.closed == b.src.closed
  {
    var k := if b.src.closed then 0 else Min(Min(size, n), |b.src.data|);
    assert b.src.data == b.src.data[..k] + b.src.data[k..];
    (BodyWrapper(b.src.(data := b.src.data[k..]), b.read + k), b.src.data[..k])
  }

  /** `Close` passes straight to the underlying reader. */
  function Close(b: BodyWrapper): (r: BodyWrapper)
    ensures r.src.closed && r.src.data == b.src.data && r.read == b.read
  {
    b.(src := b.src.(closed := true))
  }

  /**
   * Reads in order, each given as its buffer size and the count the
   * underlying reader chooses; returns what the reads produced, concatenated.
   */
  function ReadAll(b: BodyWrapper, pulls: seq<(nat, nat)>): (r: (BodyWrapper, seq<bv8>))
  {
    if |pulls| == 0 then (b, [])
    else
      var (b', got) := ReadAll(b, pulls[..|pulls| - 1]);
      var (b'', chunk) := Read(b', pulls[|pulls| - 1].0, pulls[|pulls| - 1].1);
      (b'', got + chunk)
  }

  /**
   * The counter of a fresh body wrapper is the number of bytes read, and
   * those bytes followed by what is left are the original body.
   */
  lemma {:induction false} ReadAllCounts(src: Reader, pulls: seq<(nat, nat)>)
    ensures ReadAll(BodyWrapper(src, 0), pulls).0.read == |ReadAll(BodyWrapper(src, 0), pulls).1|
    ensures ReadAll(BodyWrapper(src, 0), pulls).1 + ReadAll(BodyWrapper(src, 0), pulls).0.src.data == src.data
  {
    if |pulls| > 0 {
      ReadAllCounts(src, pulls[..|pulls| - 1]);
    }
  }
}

=== FILE: wrappers.dfy ===
/** `Option` with its default accessor, and `Result`, shared by every module of the model. */
module Wrappers {

  /** A value that may be absent: Go's nil pointer, nil slice or nil interface. */
  datatype Option<+T> = None | Some(value: T) {
    function GetOr(default: T): T {
      match this
      case Some(v) => v
      case None => default
    }
  }

  /** Either a value or an error, for the operations whose Go form returns `(T, error)`. */
  datatype Result<+T, +E> = Ok(value: T) | Err(error: E)
}
